=== FILE: README.md ===
# WikidPad pages and utilities: a Dafny model

This project models two parts of WikidPad, the desktop wiki.

From `lib/pwiki/DocPages.py` it takes:

- The page state machine of data-carrying wiki pages and functional pages:
  - the two dirty timestamps (must be saved, metadata must be refreshed);
  - the live-text placeholder, minted anew whenever the live text may have changed;
  - the cached syntax tree with the placeholder and format details it was built from;
  - the editor text and the editor list.
- The two stages of the metadata refresh:
  - properties;
  - todos, child relations and match terms.
- The gates under which a refresh may advance a page's metadata state to PROPSPROCESSED and then UPTODATE.
- The step dispatch of `runDatabaseUpdate`.
- The merge that puts the children of a page into tree order.
- The heading rewrite for pages made from a template.
- The functional-page tags and which of those pages stay writable in a read-only wiki.
- Alias pages, which delegate to the real page.

From `lib/pwiki/Utilities.py` it takes:

- The single-worker job executor:
  - a tuple of deques, filled at the left and drained from the right of the first non-empty deque;
  - the PAUSE marker and the END marker;
  - job counting, soft end, hard end and pause;
  - the result box a job fills in.
- The re-entrant lock with a timeout, as an owner and a recursion count.
- The thread-stop objects.
- The sequence and number helpers: `seqStartsWith`, `seqEnforceContained`, `StringPathSet`, `IdentityList`, `sgn`, `between`, `calcResizeArIntoBoundingBox` and the n-way `iterMergesort`.

Modelling choices:

- Each block the source runs under a lock is one method, so that block is atomic. Interleavings of threads are the order in which callers invoke these methods.
- The live-text placeholder, which the source compares by object identity, is a generation counter compared with `==`.
- A page syntax tree is an object, so "is this the tree the page caches" stays a reference comparison.
- A thread stop's verdict is a boolean `running` that keeps its value for one call.
- The current thread, the parser's output, the wiki-word validity check and integer parsing are parameters.

Files:

| file | module | contents |
|---|---|---|
| `wrappers.dfy` | `Wrappers` | Option and Result |
| `exceptions.dfy` | `WikiExceptions` | the exceptions as values |
| `thread_stop.dfy` | `ThreadStops` | thread stops and the thread holder |
| `timeout_lock.dfy` | `TimeoutLock` | the re-entrant lock |
| `exec_result.dfy` | `ExecResults` | `ExecutionResult` and the event |
| `executor_queue.dfy` | `ExecutorQueue` | the deques and the worker turn, on values, with the drain proofs |
| `executor.dfy` | `Executor` | the `SingleThreadExecutor` class |
| `seq_utils.dfy` | `SeqUtils` | the sequence and number helpers |
| `merge_sort.dfy` | `MergeSort` | `iterMergesort` |
| `page_ast.dfy` | `PageAsts` | nodes, format details, metadata extraction |
| `doc_pages.dfy` | `DocPages` | pages |
| `tree_order.dfy` | `TreeOrder` | tree order of child pages |
| `template_heading.dfy` | `TemplateHeading` | the template heading rewrite |

## Model

| member | source | states |
|---|---|---|
| DocPages.ReadOnlyEffect | lib/pwiki/DocPages.py:2068-2078 | a page is read-only only if its document is; wiki pages follow the document exactly; "global/" functional pages never are |
| DocPages.FuncPagesReadOnlyInReadOnlyDocument | lib/pwiki/DocPages.py:2124-2151 | of the seven functional tags, exactly the four "global/" ones stay writable in a read-only document (both directions) |
| DocPages.SetDirtyIdempotent | lib/pwiki/DocPages.py:408-419 | marking dirty (or clean) a second time, at any later time, changes nothing: the first timestamps stay |
| DocPages.SetDirtyKeepsConsistent | lib/pwiki/DocPages.py:408-419 | setDirty keeps the invariant "save-dirty implies update-dirty since the same moment" |
| DocPages.Page.constructor | lib/pwiki/DocPages.py:378-398 | a new page is clean, has no editor text, no cached tree and the initial placeholder, and satisfies the page invariant |
| DocPages.Page.NewFunctionalPage | lib/pwiki/DocPages.py:1857-1869 | a functional page is created exactly for a known tag, unformatted and clean; any other tag is BadFuncPageTag |
| DocPages.Page.GetDirty | lib/pwiki/DocPages.py:421-423 | the two flags mirror the two timestamps, and save-dirty implies update-dirty |
| DocPages.Page.GateOpen | lib/pwiki/DocPages.py:1342-1346 | the commit gate holds exactly when the page is saved and the processed tree is the one the cache check would return |
| DocPages.Page.StaleTreeNotCached | lib/pwiki/DocPages.py:787-806 | a tree built from an older placeholder is never reported current and opens no commit gate |
| DocPages.Page.SetDirty | lib/pwiki/DocPages.py:408-419 | fails with AttributeError, changing nothing, exactly when the page has lost its document; otherwise read-only: no change; dirty: both timestamps become `now` only when not yet save-dirty; clean: both cleared; nothing else changes |
| DocPages.Page.MarkTextChanged | lib/pwiki/DocPages.py:451-457 | a new placeholder is minted, so no cached tree is current any more; nothing else changes |
| DocPages.Page.SetEditorText | lib/pwiki/DocPages.py:429-445 | the cached tree is always dropped; None on a save-dirty page clears the save flag and mints a placeholder; text with `dirty` marks dirty and mints, and fails with AttributeError, flags and placeholder unchanged, exactly when the page has lost its document; otherwise flags and placeholder stay |
| DocPages.Page.Invalidate | lib/pwiki/DocPages.py:57-71 | the page becomes invalid and drops its document: without editor text or tree, no longer save-dirty, with a new placeholder exactly when it was save-dirty; afterwards every page that uses the document has lost it, so each later writer fails with AttributeError and leaves the record unchanged |
| DocPages.Page.Save | lib/pwiki/DocPages.py:1569-1590 | a page that has lost its document fails with AttributeError and nothing changes; read-only: nothing changes; otherwise the text becomes the stored content and the page is no longer save-dirty; a wiki page's record becomes defined, its synchronous match terms become its own word's link term (DocPages.py:1278-1291), and a placeholder is minted exactly when no editor text is set; the update flag, editor text, tree and caches stay |
| DocPages.Page.ChangeFormatDetails | lib/pwiki/DocPages.py:787-806 | a change of format details to non-equivalent ones makes the cached tree stale |
| DocPages.Page.BeginLivePageAst | lib/pwiki/DocPages.py:819-832 | a stopped thread gets NotCurrentThread; a page that has lost its document gets AttributeError; otherwise the current cached tree, or a snapshot of live text, placeholder and format details to parse |
| DocPages.Page.PublishAst | lib/pwiki/DocPages.py:834-855 | the tree is published, with the snapshot's placeholder and format, exactly when the thread is running (and, with dieOnChange, the placeholder has not moved); it is then current exactly when the snapshot still is |
| DocPages.Page.GetLivePageAst | lib/pwiki/DocPages.py:810-869 | run without interruption: fails exactly when stopped (NotCurrentThread) or invalidated (AttributeError, nothing changes); otherwise returns the cached tree unchanged, or a fresh tree (no nodes for empty text) that becomes the current cached tree |
| DocPages.Page.GetFunctionalLivePageAst | lib/pwiki/DocPages.py:1954-1976 | a functional page's tree is the cached one or a fresh single plain-text node holding the whole live text; with no cached tree and no editor text, a "wiki/" page that has lost its document fails with AttributeError |
| DocPages.Page.CommitPropsProcessed | lib/pwiki/DocPages.py:1335-1356 | the state advances to PROPSPROCESSED exactly when the gate is open, the page is valid and the thread runs; an invalidated page that reaches the format check fails with AttributeError; otherwise nothing changes |
| DocPages.Page.CommitUpToDate | lib/pwiki/DocPages.py:1458-1477 | the state advances to UPTODATE and the update timestamp is cleared exactly when the gate is open, the page is valid and the thread runs; an invalidated page that reaches the format check fails with AttributeError and nothing changes |
| DocPages.Page.RefreshPropertiesFromPageAst | lib/pwiki/DocPages.py:1294-1356 | invalidated: AttributeError without change; read-only: success without change; stopped: error without change; no record: failure; otherwise the record's properties are the tree's property map and the result is whether the gate was open |
| DocPages.Page.RefreshMainDbCacheFromPageAst | lib/pwiki/DocPages.py:1360-1487 | invalidated: AttributeError without change; otherwise stores the de-duplicated todos, the first-link child relations and the alias then heading match terms; advances to UPTODATE and clears the update flag exactly when the gate was open |
| DocPages.Page.StoreMainDbCache | lib/pwiki/DocPages.py:1433-1477 | the writing half of stage two: caches dropped; an invalidated page then fails with AttributeError, record and flags unchanged; for a valid page with a record the given entries are stored and the gate decides the commit |
| DocPages.Page.RunDatabaseUpdate | lib/pwiki/DocPages.py:1489-1557 | invalidated: AttributeError, page unchanged; no record, read-only or stopped: false, page unchanged; a step whose state is not the stored one, or UPTODATE: false, record unchanged; step DIRTY stores the tree's property map and leaves todos, relations and match terms unchanged; step PROPSPROCESSED stores the de-duplicated todos, first-link relations and alias-then-heading match terms and leaves the properties unchanged; all steps store both; content, defined flag and synchronous terms never change; all steps reach UPTODATE on a saved page; a save-dirty page never advances |
| DocPages.AliasWikiPage.constructor | lib/pwiki/DocPages.py:309-312 | an alias page holds its alias word and the real page |
| DocPages.AliasWikiPage.SetDirty | lib/pwiki/DocPages.py:348-349 | marking an alias page dirty is marking the real page dirty, including the AttributeError when the real page has lost its document |
| DocPages.AliasWikiPage.Save | lib/pwiki/DocPages.py:351-355 | saving an alias page is saving the real page, with all that `Page.Save` promises about it, including the AttributeError when the real page has lost its document |
| DocPages.AliasWikiPage.GetLivePageAst | lib/pwiki/DocPages.py:363-366 | the alias page's tree is the real page's tree, with all that `Page.GetLivePageAst` promises: failure exactly when stopped or invalidated, the cached tree unchanged or a fresh parsed tree that becomes current |
| PageAsts.IsEquivToIsEquivalence | lib/pwiki/DocPages.py:798-801 | the format-details equivalence is reflexive, symmetric and transitive |
| PageAsts.AddAllCollects | lib/pwiki/DocPages.py:1309-1321 | the property map has a key exactly when some property pair names it, and then all its values in document order |
| PageAsts.CollectProperties | lib/pwiki/DocPages.py:1307-1321 | the property loop builds the multi-valued map of all property pairs outside todo entries, values in document order |
| PageAsts.PropertyMapMeaning | lib/pwiki/DocPages.py:1309-1321 | the same statement for all keys at once |
| PageAsts.FirstByKeyKeepsKeys | lib/pwiki/DocPages.py:1373-1382 | first-wins de-duplication loses no key |
| PageAsts.FirstByKeyIsFirstOccurrences | lib/pwiki/DocPages.py:1373-1382 | each kept item is the first of its key in the input, and kept items come in the order of those first occurrences |
| PageAsts.FirstByKeyDistinctKeys | lib/pwiki/DocPages.py:1378-1382 | kept items have pairwise different keys |
| PageAsts.CollectTodos | lib/pwiki/DocPages.py:1373-1387 | the todo loop keeps each distinct todo text once, at its first occurrence, and every text of the page is kept |
| PageAsts.CollectChildRelations | lib/pwiki/DocPages.py:1378-1394 | the link loop keeps each linked word once with the position of its first link, words pairwise distinct, every linked word present |
| PageAsts.StripNewline | lib/pwiki/DocPages.py:1426-1428 | exactly one trailing newline is removed, if there is one |
| PageAsts.AliasTermsMembers | lib/pwiki/DocPages.py:1408-1413 | an alias match term exists exactly for each alias value the invalid-word check does not flag as invalid (both directions) |
| PageAsts.HeadingTermsMembers | lib/pwiki/DocPages.py:1416-1431 | a heading term exists exactly for each top-level heading of level at most a positive depth, newline stripped (both directions) |
| PageAsts.CollectMatchTerms | lib/pwiki/DocPages.py:1398-1431 | the match-term loops yield the alias terms followed by the heading terms |
| TreeOrder.SortByKeyCorrect | lib/pwiki/DocPages.py:1685-1687 | sorting the positioned and prioritised lists yields a sorted permutation, and is stable: the entries with any one key keep their order |
| TreeOrder.SortByKeyStable | lib/pwiki/DocPages.py:1685-1687 | the sort keeps the entries with one key in their input order, as the list sort does |
| TreeOrder.ClassifyHaving | lib/pwiki/DocPages.py:1672-1683 | classifying keeps the children of any one placement in their order among the children; the unplaced list is exactly the unplaced children in order |
| TreeOrder.ClassifyKeepsChildren | lib/pwiki/DocPages.py:1672-1683 | every child lands in exactly one of the three lists |
| TreeOrder.ClassifyPlacements | lib/pwiki/DocPages.py:1672-1683 | each list holds only children of its placement, keyed by the position minus one or the priority |
| TreeOrder.ClassifyRelations | lib/pwiki/DocPages.py:1668-1683 | the classifying loop splits the children into the three lists, keeping them all and each by its placement |
| TreeOrder.MergeTreeOrder | lib/pwiki/DocPages.py:1690-1720 | the merge outputs every entry of the three lists once, takes each list front to back, never puts a prioritised entry after an unplaced one, and never reaches the InternalError branch; a positioned entry lands before its index only when every later slot is positioned, and after its index only right behind another positioned entry, so a due positioned entry is never passed over; the entries taken from each list are that whole list, in its order |
| TreeOrder.SortedKeepsPlacement | lib/pwiki/DocPages.py:1685-1687 | sorting does not change any entry's placement |
| TreeOrder.OriginPlacement | lib/pwiki/DocPages.py:1695-1717 | read through placements, the merge puts priorities in ascending order before every unplaced child, positions in ascending order, and a positioned child after its position only right behind another positioned child |
| TreeOrder.ChildRelationsTreeOrder | lib/pwiki/DocPages.py:1668-1720 | the tree order is a permutation of the children; prioritised children come in ascending priority and before all unplaced ones; positioned children come in ascending position; a positioned child lands before its position only when every later child is positioned, and after its position only right behind another positioned child; children with the same placement (same priority, same position, or unplaced) keep their order among the children; with no child placed, the order is the children's order |
| TreeOrder.MergeKeepsTies | lib/pwiki/DocPages.py:1685-1720 | after classifying, sorting and merging, the children with any one placement appear in their order among the children |
| TreeOrder.NothingPlacedKeepsOrder | lib/pwiki/DocPages.py:1668-1720 | a permutation of the children that keeps the unplaced children's order is the children themselves, when no child is placed |
| TemplateHeading.IndexFrom | lib/pwiki/DocPages.py:1083 | the first index of the character at or after the start, or None exactly when there is none |
| TemplateHeading.RemoveFirst | lib/pwiki/DocPages.py:1080-1085 | characters are dropped exactly when the content starts with the title prefix and a newline follows it, and then up to and including that first newline |
| TemplateHeading.ChangeHeadingForTemplate | lib/pwiki/DocPages.py:1058-1087 | no title: content unchanged; content starting with the title prefix with a newline after it: that first line is replaced by the title line; otherwise the title line is prepended to the whole content |
| TemplateHeading.RemovedIsTitleLine | lib/pwiki/DocPages.py:1080-1085 | something is dropped exactly when a title line is present, and what is dropped is that whole first line |
| TemplateHeading.ChangeHeadingDropsTitleLine | lib/pwiki/DocPages.py:1075-1087 | with a title, the result is the title line followed by the content less its leading title line when there is one, and less nothing otherwise |
| TemplateHeading.ChangeHeadingIdempotent | lib/pwiki/DocPages.py:1075-1087 | with a one-line title, rewriting twice gives the same page as rewriting once |
| ThreadStops.ThreadHolder.constructor | lib/pwiki/Utilities.py:74-75 | a new holder holds no thread |
| ThreadStops.ThreadHolder.GetThread | lib/pwiki/Utilities.py:77-78 | returns the held thread |
| ThreadStops.ThreadHolder.SetThread | lib/pwiki/Utilities.py:80-81 | the holder holds the given thread |
| ThreadStops.IsValidThread | lib/pwiki/Utilities.py:35-95 | the basic stop never stops; a function stop asks its function; a holder is valid exactly for its held thread |
| ThreadStops.TestValidThread | lib/pwiki/Utilities.py:41-89 | raises NotCurrentThread exactly when isValidThread is false |
| ThreadStops.EmptyHolderStopsAll | lib/pwiki/Utilities.py:83-95 | an empty holder stops every thread |
| ThreadStops.HolderValidForOneThread | lib/pwiki/Utilities.py:91-95 | a holder is valid for at most one thread |
| ExecResults.ExecutionResult.constructor | lib/pwiki/Utilities.py:103-106 | a new result is in state 0 with neither result nor exception |
| ExecResults.ExecutionResult.SetResult | lib/pwiki/Utilities.py:108-110 | state 1 holding the result, exception untouched |
| ExecResults.ExecutionResult.SetException | lib/pwiki/Utilities.py:120-122 | state 2 holding the exception, result untouched |
| ExecResults.ExecutionResult.GetReturn | lib/pwiki/Utilities.py:112-118 | state 1 yields the result, state 2 raises the stored exception, state 0 yields None |
| ExecutorQueue.FirstNonEmpty | lib/pwiki/Utilities.py:201-205 | the lowest index of a non-empty deque, or -1 exactly when all are empty |
| ExecutorQueue.AllEmptyCountsZero | lib/pwiki/Utilities.py:208-218 | the job count is zero exactly when every deque is empty |
| ExecutorQueue.GetNextJob | lib/pwiki/Utilities.py:195-205 | PAUSE while paused; None when nothing is queued; otherwise the rightmost job of the first non-empty deque |
| ExecutorQueue.PopFrom | lib/pwiki/Utilities.py:203 | `pop` removes the rightmost job of one deque and nothing else: one job fewer, the rest unchanged |
| ExecutorQueue.AppendLeft | lib/pwiki/Utilities.py:328 | `appendleft` puts the job at the left of one deque: one job more, the rest unchanged |
| ExecutorQueue.WorkerStepShape | lib/pwiki/Utilities.py:252-295 | a worker turn keeps the number of deques; running a job removes it; re-queueing END keeps the count; exiting leaves nothing queued |
| ExecutorQueue.SoftEndStep | lib/pwiki/Utilities.py:267-295 | on a soft-ending queue the turn runs a call, re-queues END or exits on a lone END, keeps the queue soft-ending and lowers the drain measure |
| ExecutorQueue.SoftEndStepRun | lib/pwiki/Utilities.py:267-306 | a turn that takes a call from a soft-ending queue runs it, and the queue stays soft-ending with a lower drain measure |
| ExecutorQueue.SoftEndStepRequeue | lib/pwiki/Utilities.py:274-281 | a turn that takes END while other jobs remain puts END back and the queue stays soft-ending with a lower drain measure |
| ExecutorQueue.SoftEndStepExit | lib/pwiki/Utilities.py:274-276 | a turn that takes END as the only job left exits with nothing queued |
| ExecutorQueue.SoftEndRunsEveryJob | lib/pwiki/Utilities.py:250-306 | after a soft end with nothing more submitted, the worker runs every queued job exactly once, then exits |
| ExecutorQueue.SoftEndRunsOnlyCalls | lib/pwiki/Utilities.py:250-306 | while draining, the worker never runs a marker |
| ExecutorQueue.SubmitKeepsSoftEnding | lib/pwiki/Utilities.py:354-356 | a job submitted while a soft end is pending keeps the queue soft-ending, so it is run too |
| ExecutorQueue.AppendLeftAllReverses | lib/pwiki/Utilities.py:354-356 | appending jobs one after another at the left stores them in reverse order |
| ExecutorQueue.SingleDequeIsFifo | lib/pwiki/Utilities.py:195-205 | jobs submitted to one deque and then soft-ended are run in the order submitted |
| ExecutorQueue.RequeuedEndAsWrittenCrashes | lib/pwiki/Utilities.py:267-281 | as written: after the short END tuple is re-queued, a job submitted meanwhile is never run and the worker dies on the unpack |
| ExecutorQueue.RequeuedEndRunsQueuedJob | lib/pwiki/Utilities.py:270-281 | as intended: END goes back left of the remaining job, which then runs, leaving a lone END |
| ExecutorQueue.OneDequeExit | lib/pwiki/Utilities.py:274-276 | a lone END lets the worker exit |
| ExecutorQueue.OneDequeCrash | lib/pwiki/Utilities.py:267 | a five-field END at the right end of a deque kills the worker on its unpack |
| Executor.PrefixJobCount | lib/pwiki/Utilities.py:208-220 | `getJobCount(k)` counts the first k deques, never more than all jobs |
| Executor.PyIndex | lib/pwiki/Utilities.py:189 | a deque index is valid exactly from minus the deque count up to it, negative indices counting from the end |
| Executor.EmptyDeques | lib/pwiki/Utilities.py:153-157 | prepare creates the configured number of empty deques |
| Executor.SingleThreadExecutor.constructor | lib/pwiki/Utilities.py:131-144 | no deques, no thread, not paused, done-count zero and inactive |
| Executor.SingleThreadExecutor.IsValidThread | lib/pwiki/Utilities.py:146-147 | the executor as thread stop is valid exactly while it has deques |
| Executor.SingleThreadExecutor.TestValidThread | lib/pwiki/Utilities.py:149-151 | raises NotCurrentThread exactly when the deques are gone |
| Executor.SingleThreadExecutor.Prepare | lib/pwiki/Utilities.py:153-157 | creates empty deques only when there are none |
| Executor.SingleThreadExecutor.Start | lib/pwiki/Utilities.py:159-170 | unpauses; a live worker is kept, otherwise deques are prepared and a new worker runs |
| Executor.SingleThreadExecutor.ClearDeque | lib/pwiki/Utilities.py:184-189 | no deques: nothing; bad index: IndexError; otherwise exactly that deque is emptied |
| Executor.SingleThreadExecutor.GetJobCount | lib/pwiki/Utilities.py:208-220 | 0 without deques, all jobs without bounds, the first k deques for one bound |
| Executor.SingleThreadExecutor.Step | lib/pwiki/Utilities.py:252-295 | one worker turn is the queue machine's corrected turn `ExecutorQueue.WorkerStep` (see Findings: a drained END goes back as the same six-field job, not the five-field tuple of lines 278-280); the worker stays alive exactly when the turn does not end it |
| Executor.SingleThreadExecutor.RunJob | lib/pwiki/Utilities.py:297-306 | a return is stored as the result and counted when counting is on; an exception is stored; the event is set |
| Executor.SingleThreadExecutor.Execute | lib/pwiki/Utilities.py:317-329 | from the worker: run inline; without deques: InternalError; otherwise the call is queued at the left of its deque with a fresh, unset event and result |
| Executor.SingleThreadExecutor.AwaitExecute | lib/pwiki/Utilities.py:331-338 | unset event: time-out; stored exception: raised; otherwise the result |
| Executor.SingleThreadExecutor.Submit | lib/pwiki/Utilities.py:349-371 | without deques: a fresh unset result, nothing queued; otherwise the call is queued at the left of its deque |
| Executor.SingleThreadExecutor.ExecuteAsync | lib/pwiki/Utilities.py:341-358 | as Submit, the job not handed the executor as thread stop |
| Executor.SingleThreadExecutor.ExecuteAsyncWithThreadStop | lib/pwiki/Utilities.py:361-371 | as Submit, the job handed the executor as thread stop |
| Executor.SingleThreadExecutor.EndRequest | lib/pwiki/Utilities.py:389-399 | no live worker: nothing; hard end: deques dropped so the executor is no longer a valid thread; soft end: END at the left of the last deque |
| Executor.SingleThreadExecutor.Join | lib/pwiki/Utilities.py:401-406 | a worker still alive is the time-out; otherwise the thread is dropped |
| Executor.SingleThreadExecutor.Pause | lib/pwiki/Utilities.py:417-434 | returns whether a live worker exists, and only then sets the pause flag |
| Executor.SingleThreadExecutor.StartDoneJobCount | lib/pwiki/Utilities.py:235-236 | counting of finished jobs is on |
| Executor.SingleThreadExecutor.StopDoneJobCount | lib/pwiki/Utilities.py:238-239 | counting of finished jobs is off |
| Executor.SingleThreadExecutor.ResetDoneJobCount | lib/pwiki/Utilities.py:229-230 | the done count is zero |
| Executor.SingleThreadExecutor.GetDoneJobCount | lib/pwiki/Utilities.py:232-233 | returns the done count |
| Executor.PauseKeepsDeques | lib/pwiki/Utilities.py:282-287 | a paused worker leaves on its next turn with the queue untouched |
| Executor.HardEndTerminates | lib/pwiki/Utilities.py:254-265 | after a hard end the worker leaves on its next turn |
| TimeoutLock.AcquireStep | lib/pwiki/Utilities.py:508-565 | owner: count + 1; free: owner me, count 1; held by another: non-blocking fails, blocking without timeout waits, with timeout raises the time-out |
| TimeoutLock.ReleaseStep | lib/pwiki/Utilities.py:569-581 | a non-owner gets RuntimeError; the last release frees the lock; otherwise the count drops by one |
| TimeoutLock.AcquirePreservesValid | lib/pwiki/Utilities.py:508-565 | acquire keeps "count > 0 exactly when owned", and a success makes the caller the owner |
| TimeoutLock.ReleasePreservesValid | lib/pwiki/Utilities.py:569-581 | release keeps "count > 0 exactly when owned" |
| TimeoutLock.AcquireThenRelease | lib/pwiki/Utilities.py:508-581 | a successful acquire followed by a release by the same thread restores the lock |
| TimeoutLock.AcquireTimesOwned | lib/pwiki/Utilities.py:508-514 | n acquires on a free lock or by its owner make the caller the owner, the count raised by n |
| TimeoutLock.ReleaseTimesOwned | lib/pwiki/Utilities.py:569-581 | n releases by the owner of a lock held c >= n times leave it held c - n times, or free when n = c |
| TimeoutLock.NestedAcquireRelease | lib/pwiki/Utilities.py:508-581 | n nested acquires need exactly n releases to free the lock |
| TimeoutLock.TimeoutRLock.constructor | lib/pwiki/Utilities.py:493-498 | a new lock is free, with the given timeout |
| TimeoutLock.TimeoutRLock.Acquire | lib/pwiki/Utilities.py:508-565 | acquire is AcquireStep on the lock's state and keeps the lock invariant |
| TimeoutLock.TimeoutRLock.Release | lib/pwiki/Utilities.py:569-581 | release is ReleaseStep; an error leaves the lock unchanged |
| TimeoutLock.TimeoutRLock.ReleaseSave | lib/pwiki/Utilities.py:595-603 | an owned lock is freed whatever its count and returns count and owner; on a free lock the plain lock's release raises `thread.error` and nothing changes |
| TimeoutLock.TimeoutRLock.AcquireRestore | lib/pwiki/Utilities.py:588-593 | on a free lock, count and owner are reinstated; a held lock blocks |
| TimeoutLock.TimeoutRLock.IsOwned | lib/pwiki/Utilities.py:605-606 | true exactly for the owner |
| SeqUtils.SeqStartsWith | lib/pwiki/Utilities.py:609-620 | true exactly when the second sequence is a prefix of (or equal to) the first |
| SeqUtils.SeqStartsWithTransitive | lib/pwiki/Utilities.py:609-620 | a prefix of a prefix is a prefix |
| SeqUtils.IndexOf | lib/pwiki/Utilities.py:641 | the first position of the item, or -1 exactly when it is absent |
| SeqUtils.RemoveAt | lib/pwiki/Utilities.py:643 | `del` removes exactly that one item |
| SeqUtils.EnforceFoldConserves | lib/pwiki/Utilities.py:637-645 | kept and remaining items together are exactly the allowed ones, and every kept item comes from the input |
| SeqUtils.EnforceContainedIsPermutation | lib/pwiki/Utilities.py:624-649 | the result is a permutation of the allowed items |
| SeqUtils.EnforceKeepsAllowedInOrder | lib/pwiki/Utilities.py:624-649 | for an input without repeats, the result starts with exactly its allowed items in input order |
| SeqUtils.SubseqOfTrans | lib/pwiki/Utilities.py:637-645 | a subsequence of a subsequence is a subsequence (deleting items twice) |
| SeqUtils.RemoveAtSubseq | lib/pwiki/Utilities.py:643 | `del` at one position leaves a subsequence |
| SeqUtils.EnforceKeptOrder | lib/pwiki/Utilities.py:637-645 | for any input, the kept items are a subsequence of the input's allowed items, in input order |
| SeqUtils.EnforceRestOrder | lib/pwiki/Utilities.py:637-647 | the unused allowed items are appended in their order in the allowed list |
| SeqUtils.EnforceFoldOrder | lib/pwiki/Utilities.py:624-649 | both orders at once, and the appended part holds exactly the allowed items not kept |
| SeqUtils.EnforceKeptCount | lib/pwiki/Utilities.py:637-645 | each item is kept as many times as it occurs in both the input and the allowed list (the smaller count) |
| SeqUtils.EnforceKeptByCount | lib/pwiki/Utilities.py:637-645 | an input item is kept exactly when fewer copies of it come before it in the input than the allowed list holds |
| SeqUtils.RestByCountTakeOne | lib/pwiki/Utilities.py:641-643 | deleting the first remaining copy of an item is the same as taking out one more copy of it from the front of the allowed list |
| SeqUtils.EnforceRestByCount | lib/pwiki/Utilities.py:637-647 | an allowed item is left over exactly when at least as many copies of it come before it in the allowed list as were kept |
| SeqUtils.EnforceContainedByCount | lib/pwiki/Utilities.py:624-649 | the result is the kept items by that count rule, followed by the left-over allowed items by theirs |
| SeqUtils.SeqEnforceContained | lib/pwiki/Utilities.py:624-649 | the loop computes the kept items, in input order, followed by the unused allowed items in their original order: a permutation of the allowed items; with repeats, exactly which copies are kept and which are left over follows the count rule above |
| SeqUtils.StringPathSet.constructor | lib/pwiki/Utilities.py:664 | the set holds the given paths |
| SeqUtils.StringPathSet.StartingWith | lib/pwiki/Utilities.py:672-678 | exactly the paths of the set that start with the prefix |
| SeqUtils.StringPathSet.DiscardStartsWith | lib/pwiki/Utilities.py:681-687 | removes exactly the paths starting with the prefix |
| SeqUtils.IdentityList.constructor | lib/pwiki/Utilities.py:783 | the list holds the given items |
| SeqUtils.IdentityList.Contains | lib/pwiki/Utilities.py:788-792 | true exactly when the very object is in the list |
| SeqUtils.IdentityList.Find | lib/pwiki/Utilities.py:801-806 | the first index of the object, or -1 exactly when absent |
| SeqUtils.IdentityList.Index | lib/pwiki/Utilities.py:794-799 | the first index of the object; ValueError exactly when absent |
| SeqUtils.IdentityList.Remove | lib/pwiki/Utilities.py:808-809 | removes the first occurrence; ValueError and no change when absent |
| SeqUtils.IdentityList.Drop | lib/pwiki/Utilities.py:811-819 | removes the first occurrence; no change when absent |
| SeqUtils.IdentityList.Clear | lib/pwiki/Utilities.py:821-822 | the list is empty |
| SeqUtils.Sgn | lib/pwiki/Utilities.py:825-834 | -1, 0 or 1 exactly by the sign |
| SeqUtils.Between | lib/pwiki/Utilities.py:837-842 | within the bounds the value itself, below the lower bound the lower, above the upper the upper (lower wins when the bounds cross) |
| SeqUtils.CalcResizeArIntoBoundingBox | lib/pwiki/Utilities.py:845-879 | the size fits the (possibly turned) box, one side equals the box side and the other is the aspect-ratio value rounded down; the width is the box width exactly when the box is relatively narrower than the image, else the height is the box height; the side that equals the box side is the limiting one, since the other side, scaled exactly, still fits |
| SeqUtils.WidthLimited | lib/pwiki/Utilities.py:870-873 | when the width limits, the new height fits and is the floor of the scaled height |
| SeqUtils.HeightLimited | lib/pwiki/Utilities.py:874-877 | when the height limits, the new width fits and is the floor of the scaled width |
| MergeSort.MinHead | lib/pwiki/Utilities.py:761-780 | the list whose head the heap yields next: smallest key, lowest list index among ties; -1 exactly when all are empty |
| MergeSort.MinHeadIsMinimum | lib/pwiki/Utilities.py:761-775 | when every list is sorted, the chosen head's key is no larger than that of any item still in the lists |
| MergeSort.MergeIsPermutation | lib/pwiki/Utilities.py:715-780 | the merge yields every item of every list exactly once |
| MergeSort.MergeIsSorted | lib/pwiki/Utilities.py:715-780 | merging lists that are each sorted by the key yields a sorted sequence |
| MergeSort.OriginNamesItem | lib/pwiki/Utilities.py:753-780 | every merged item is the item of the list and position its origin names |
| MergeSort.OriginKeepsListOrder | lib/pwiki/Utilities.py:753-780 | the items of each list come out in the order of that list |
| MergeSort.HeadTieFromLowerList | lib/pwiki/Utilities.py:761-775 | with sorted lists, no list before the one the heap picks holds an item with the picked head's key |
| MergeSort.OriginTiesByListIndex | lib/pwiki/Utilities.py:729-742 | with sorted lists, of two items with equal keys the one from the lower list index comes out first |
| MergeSort.MergeIsStable | lib/pwiki/Utilities.py:729-742 | the merge is stable: each list in order, equal keys by list index then by position |
| MergeSort.IterMergesort | lib/pwiki/Utilities.py:715-780 | the loop yields the merge: a permutation of all items, sorted when every list is, and stable |

## Left out

- Real threads are left out: condition waits and notifies, `thread.join(120)`, `event.wait(240)`, thread start and liveness. A worker's life is the sequence of `Step` and `RunJob` calls; `alive` is a field. Whatever a wait would find is the state at the next call (`AwaitExecute`, `Join`).
- Event firing and calls into the GUI's main thread (`_fireStateChange`, `fireMiscEvent*`, `callInMainThread*`) are left out, because they only notify listeners.
- `TimeoutLock.AcquireStep`: a timed acquire of a lock held by another thread always reports the time-out. The holder releasing the lock during the wait is not modelled, because the backoff loop depends on the clock and on sleeping (Utilities.py:536-556).
- `TimeoutLock.TimeoutRLock.AcquireRestore`: on a held lock it reports `Blocked` instead of waiting for the plain lock.
- The database, parser and configuration behind a page are left out. What they deliver is a parameter:
  - the parser's nodes, as `parsed`;
  - the wiki-word validity check, as `isInvalidWord`;
  - the heading depth, as `headingDepth`;
  - the property values of child pages, as `propsOf`;
  - integer parsing, as `parseInt`.

  The record a page has in the database is the field `db`. `WikiWordNotFoundException` from the store is the record's `defined` flag being false.
- `getFormatDetails` is not computed from properties and configuration. Format details are a field changed by `ChangeFormatDetails`.
- `PageAsts.FormatDetails.IsEquivTo`: `WikiPageFormatDetails.isEquivTo` lives in `ParseUtilities`, which is not part of this model. Its field-wise definition here, comparing every setting except the base page, is an assumption of the model and not the parser's definition. What the pages rely on is only that it is an equivalence (`IsEquivToIsEquivalence`).
- `DocPages.Page.RunDatabaseUpdate` is modelled as one uninterrupted call. The source re-checks the placeholder and format details between stages (DocPages.py:1504-1517), and those checks cannot fail without another caller's step in between. Its `step=-1` branch returns None in the source, because the function falls off its end; the model returns `None` for `AllSteps`.
- `DocPages.Page.GetLivePageAst`: the final `testRunning` calls after publishing (DocPages.py:858-869) are covered by `running` being constant for a call.
- The `threadstop.testRunning()` calls in DocPages.py name a method that the thread stops in Utilities.py call `testValidThread`. Both are modelled as the same check, `running`.
- Child-sort orders before the tree-order merge are left out, because they sort with a locale collator or by float timestamps (DocPages.py:1612-1664, 2094-2118). The relations enter `ChildRelationsTreeOrder` already in sort order.
- `TreeOrder.ChildRelationsTreeOrder` does not promise that a positioned child lands at an index at least its position. The merge places a positioned child early once the prioritised and unplaced children run out. The contract states that precise condition instead, and that a positioned child lands after its position only right behind another positioned child.
- `Executor.SingleThreadExecutor.Step` runs the corrected turn `ExecutorQueue.WorkerStep`, which puts a drained END back as the same six-field job. The five-field tuple written at Utilities.py:278-280 is modelled only by `ExecutorQueue.WorkerStepAsWritten`, where the worker dies on it (see Findings). The `ExecutorQueue.SoftEnd*` rows describe the corrected turn too.
- Functional-page file I/O (DocPages.py:1897-1999), presentation tuples, versioning and XML serialization are left out, because they are storage formats and not page state.
- `AliasWikiPage.__getattr__` forwarding is modelled only for the delegated methods: `SetDirty`, `Save`, `GetLivePageAst` and `GetContent`.
- `TemplateHeading.HeadingTitle`: looking up a wiki page's title in the document is left out. The title is an input.
- `iterMergesort` yields `(item, iterator)` pairs only in its doc comment; the code yields items, and so does the model. The model takes integer keys.
- Unbounded integers stand in for Python's integers, which are unbounded too. `calcResizeArIntoBoundingBox`'s `//` is applied only to non-negative operands, where Dafny's `/` agrees with it.

## Findings

| source | as written | input that shows it | evidently intended | confidence | as-written member | corrected member |
|---|---|---|---|---|---|---|
| lib/pwiki/Utilities.py:278-280 | a drained END with jobs still queued is re-queued as a five-field tuple, which the six-name unpack at line 267 cannot take apart | soft `end()` with job `k2` queued after END; `k2` runs, a job `k3` is submitted, and the worker dies on the re-queued tuple with `k3` never run | the same six-field END goes back, so every queued and later submitted job runs before the worker exits | not executed | ExecutorQueue.RequeuedEndAsWrittenCrashes | ExecutorQueue.SoftEndRunsEveryJob |

=== FILE: doc_pages.dfy ===
/**
 * Data-carrying pages of a wiki: wiki pages and functional pages, and the
 * alias pages that stand for a wiki page under another name.
 *
 * A page keeps the text an editor shows, whether that text still has to be
 * saved (`saveDirtySince`) and whether the metadata derived from it still has
 * to be refreshed (`updateDirtySince`). Every change of the live text mints a
 * new text placeholder; here the placeholder is a generation counter that
 * grows by one on each mint, so "the same placeholder object" becomes "the
 * same counter value". A parsed tree remembers the placeholder and format
 * details it was built from; the metadata refresh stores its results and
 * advances the metadata state of the page's database record only while that
 * tree is still the current one.
 *
 * Each block the source runs under the page's text-operation lock is one
 * method, so interleavings between blocks are modelled by the order in which
 * callers invoke those methods. A thread stop is a flag `running` that keeps
 * its value for the whole of one call.
 */
module DocPages {
  import opened Wrappers
  import opened WikiExceptions
  import opened PageAsts

  type Timestamp = nat
  type EditorId = nat

  datatype PageKind = WikiKind(word: string) | FunctionalKind(funcTag: string)

  /** The metadata state of a page in the database. */
  datatype MetaState = MetaDirty | PropsProcessed | UpToDate

  /** The step a database update runs: all steps at once, or the one belonging to a stored state. */
  datatype UpdateStep = AllSteps | StepFor(state: MetaState)

  /** What the database holds for one page. */
  datatype PageRecord = PageRecord(
    defined: bool,
    metaState: MetaState,
    content: string,
    props: PropertyMap,
    todos: seq<string>,
    relations: seq<Relation>,
    matchTerms: seq<MatchTerm>,
    syncMatchTerms: seq<MatchTerm>)

  /** The two dirty timestamps of a page: since when it must be saved, and since when its metadata must be refreshed. */
  datatype Dirt = Dirt(saveSince: Option<Timestamp>, updateSince: Option<Timestamp>)

  /** A page that must be saved also needs its metadata refreshed, dirty since the same moment. */
  predicate DirtConsistent(d: Dirt)
  {
    d.saveSince.Some? ==> d.updateSince == d.saveSince
  }

  // ----- Functional pages and read-only state -----

  /** The functional page tags with their readable names. */
  const FuncTagNames: map<string, string> := map[
    "global/TextBlocks" := "Global text blocks",
    "wiki/TextBlocks" := "Wiki text blocks",
    "global/PWL" := "Global spell list",
    "wiki/PWL" := "Wiki spell list",
    "global/CCBlacklist" := "Global cc. blacklist",
    "wiki/CCBlacklist" := "Wiki cc. blacklist",
    "global/FavoriteWikis" := "Favorite wikis"]

  predicate IsFuncTag(tag: string)
  {
    tag in FuncTagNames
  }

  /**
   * Whether a page is effectively read-only in a document whose read-only
   * state is `documentReadOnly`: functional pages under "global/" are not
   * stored in the wiki and stay writable; every other page follows the document.
   */
  function ReadOnlyEffect(kind: PageKind, documentReadOnly: bool): (r: bool)
    ensures r ==> documentReadOnly
    ensures kind.WikiKind? ==> r == documentReadOnly
  {
    if kind.FunctionalKind? && "global/" <= kind.funcTag then false else documentReadOnly
  }

  /**
   * In a read-only document exactly the four global functional pages remain
   * writable; the three "wiki/" ones are read-only.
   */
  lemma FuncPagesReadOnlyInReadOnlyDocument(tag: string)
    requires IsFuncTag(tag)
    ensures !ReadOnlyEffect(FunctionalKind(tag), true) <==>
      tag in {"global/TextBlocks", "global/PWL", "global/CCBlacklist", "global/FavoriteWikis"}
  {
    assert "global/" <= "global/TextBlocks";
    assert "global/" <= "global/PWL";
    assert "global/" <= "global/CCBlacklist";
    assert "global/" <= "global/FavoriteWikis";
    assert "wiki/TextBlocks"[5] != "global/"[5];
    assert "wiki/PWL"[1] != "global/"[1];
    assert "wiki/CCBlacklist"[1] != "global/"[1];
  }

  // ----- Dirty flags -----

  /**
   * The dirty timestamps after `setDirty(dirt)` at time `now`. A read-only
   * page keeps them; marking dirty sets both to `now` only when the page was
   * not yet save-dirty; marking clean clears both.
   */
  function SetDirtyOn(d: Dirt, readOnly: bool, dirt: bool, now: Timestamp): Dirt
  {
    if readOnly then d
    else if dirt then (if d.saveSince.None? then Dirt(Some(now), Some(now)) else d)
    else Dirt(None, None)
  }

  /** Marking a page dirty again keeps the timestamps of the first marking. */
  lemma SetDirtyIdempotent(d: Dirt, readOnly: bool, dirt: bool, now1: Timestamp, now2: Timestamp)
    ensures SetDirtyOn(SetDirtyOn(d, readOnly, dirt, now1), readOnly, dirt, now2) == SetDirtyOn(d, readOnly, dirt, now1)
  {
  }

  /** `setDirty` keeps the two timestamps consistent. */
  lemma SetDirtyKeepsConsistent(d: Dirt, readOnly: bool, dirt: bool, now: Timestamp)
    requires DirtConsistent(d)
    ensures DirtConsistent(SetDirtyOn(d, readOnly, dirt, now))
  {
  }

  /** The settings a functional page is parsed with: no formatting at all. */
  const NoFormat := FormatDetails(true, false, "off", false, "", None)

  /** How `getLivePageAst` starts: with the current cached tree, or with the snapshot to parse. */
  datatype BuildStart = Cached(ast: PageAst) | Parse(text: string, placeHold: nat, format: FormatDetails)

  /** The match terms refreshed synchronously on save: the page's own word, linking to itself. */
  function SyncUpdateMatchTerms(word: string): seq<MatchTerm>
  {
    [MatchTerm(word, FromWordSync, word, -1)]
  }

  /** The alias values of a page's stored properties. */
  function AliasValues(props: PropertyMap): seq<string>
  {
    if "alias" in props then props["alias"] else []
  }

  class Page {
    const kind: PageKind
    /** Whether the wiki document the page belongs to is effectively read-only. */
    const documentReadOnly: bool

    var txtEditors: Option<seq<EditorId>>
    var editorText: Option<string>
    var liveTextPlaceHold: nat
    var formatDetails: FormatDetails

    var livePageAst: PageAst?
    var livePageBasePlaceHold: Option<nat>
    var livePageBaseFormatDetails: Option<FormatDetails>

    var saveDirtySince: Option<Timestamp>
    var updateDirtySince: Option<Timestamp>

    var db: PageRecord

    var props: Option<PropertyMap>
    var todos: Option<seq<string>>
    var childRelations: Option<seq<Relation>>
    var childRelationSet: set<string>

    /**
     * The page invariant: the dirty timestamps are consistent, and a tree is
     * never based on a placeholder newer than the current one.
     */
    ghost predicate Valid()
      reads this
    {
      DirtConsistent(DirtState()) &&
      (livePageBasePlaceHold.Some? ==> livePageBasePlaceHold.value <= liveTextPlaceHold)
    }

    function DirtState(): Dirt
      reads this
    {
      Dirt(saveDirtySince, updateDirtySince)
    }

    function TextState(): (Option<seq<EditorId>>, Option<string>, nat, FormatDetails)
      reads this
    {
      (txtEditors, editorText, liveTextPlaceHold, formatDetails)
    }

    function AstState(): (PageAst?, Option<nat>, Option<FormatDetails>)
      reads this
    {
      (livePageAst, livePageBasePlaceHold, livePageBaseFormatDetails)
    }

    function CacheState(): (Option<PropertyMap>, Option<seq<string>>, Option<seq<Relation>>, set<string>)
      reads this
    {
      (props, todos, childRelations, childRelationSet)
    }

    constructor (kind: PageKind, documentReadOnly: bool, record: PageRecord, formatDetails: FormatDetails)
      ensures Valid()
      ensures this.kind == kind && this.documentReadOnly == documentReadOnly && db == record
      ensures this.formatDetails == formatDetails
      ensures txtEditors == Some([]) && editorText == None && liveTextPlaceHold == 0
      ensures AstState() == (null, None, None)
      ensures DirtState() == Dirt(None, None)
      ensures CacheState() == (None, None, None, {})
    {
      this.kind := kind;
      this.documentReadOnly := documentReadOnly;
      db := record;
      this.formatDetails := formatDetails;
      txtEditors := Some([]);
      editorText := None;
      liveTextPlaceHold := 0;
      livePageAst := null;
      livePageBasePlaceHold := None;
      livePageBaseFormatDetails := None;
      saveDirtySince := None;
      updateDirtySince := None;
      props := None;
      todos := None;
      childRelations := None;
      childRelationSet := {};
    }

    /** A functional page exists only for a known tag. */
    static method NewFunctionalPage(tag: string, documentReadOnly: bool, record: PageRecord)
      returns (r: Result<Page, Exception>)
      ensures r.Err? <==> !IsFuncTag(tag)
      ensures r.Err? ==> r.error == BadFuncPageTag(tag)
      ensures r.Ok? ==> fresh(r.value) && r.value.kind == FunctionalKind(tag) && r.value.Valid()
      ensures r.Ok? ==> r.value.formatDetails == NoFormat && r.value.DirtState() == Dirt(None, None)
    {
      if !IsFuncTag(tag) {
        return Err(BadFuncPageTag(tag));
      }
      var page := new Page(FunctionalKind(tag), documentReadOnly, record, NoFormat);
      return Ok(page);
    }

    function IsReadOnlyEffect(): bool
    {
      ReadOnlyEffect(kind, documentReadOnly)
    }

    /** The text an editor shows, or the stored content when no editor text is set. */
    function LiveText(): string
      reads this
    {
      if editorText.Some? then editorText.value else db.content
    }

    /** Whether the page must be saved, and whether its metadata must be refreshed. */
    function GetDirty(): (r: (bool, bool))
      requires Valid()
      reads this
      ensures r.0 ==> r.1
      ensures r.0 <==> saveDirtySince.Some?
      ensures r.1 <==> updateDirtySince.Some?
    {
      (saveDirtySince.Some?, updateDirtySince.Some?)
    }

    function IsInvalid(): bool
      reads this
    {
      txtEditors.None?
    }

    /** Wiki pages and the "wiki/" functional pages reach their wiki document; the "global/" ones never do. */
    function UsesDocument(): bool
    {
      !(kind.FunctionalKind? && "global/" <= kind.funcTag)
    }

    /**
     * Whether a call into the page's wiki document raises AttributeError.
     * Invalidation drops the document together with the editor list, and
     * nothing else drops either, so the document is gone exactly when the
     * page is invalid; then every read-only check, database access and
     * format lookup of a page that uses its document fails.
     */
    function DocumentGone(): bool
      reads this
    {
      UsesDocument() && IsInvalid()
    }

    /**
     * The cached tree if it is current: built from the current placeholder
     * with format details equivalent to the current ones; null otherwise.
     */
    function CachedAst(): PageAst?
      reads this
    {
      if livePageAst != null && livePageBaseFormatDetails.Some? &&
         formatDetails.IsEquivTo(livePageBaseFormatDetails.value) &&
         livePageBasePlaceHold == Some(liveTextPlaceHold)
      then livePageAst
      else null
    }

    /**
     * The condition under which a refresh stage may advance the metadata
     * state: the page is saved and the processed tree is the current cached one.
     */
    predicate GateOpen(ast: PageAst)
      reads this
      ensures GateOpen(ast) <==> saveDirtySince.None? && CachedAst() == ast
    {
      saveDirtySince.None? &&
      livePageBasePlaceHold == Some(liveTextPlaceHold) &&
      livePageBaseFormatDetails.Some? &&
      formatDetails.IsEquivTo(livePageBaseFormatDetails.value) &&
      ast == livePageAst
    }

    /**
     * The part of the gate checked before the current format details are
     * looked up; on an invalid page that lookup raises AttributeError.
     */
    predicate GateBeforeFormat()
      reads this
    {
      saveDirtySince.None? && livePageBasePlaceHold == Some(liveTextPlaceHold) && livePageBaseFormatDetails.Some?
    }

    /** A tree based on a placeholder older than the current one is never reported as current. */
    lemma StaleTreeNotCached()
      requires livePageBasePlaceHold.Some? && livePageBasePlaceHold.value < liveTextPlaceHold
      ensures CachedAst() == null
      ensures forall ast: PageAst :: !GateOpen(ast)
    {
    }

    /** `setDirty`; once the document is gone its read-only check raises and nothing changes. */
    method SetDirty(dirt: bool, now: Timestamp) returns (r: Result<(), Exception>)
      requires Valid()
      modifies this
      ensures Valid()
      ensures r.Err? <==> DocumentGone()
      ensures r.Err? ==> r.error == AttributeError
      ensures DirtState() ==
        if DocumentGone() then old(DirtState()) else SetDirtyOn(old(DirtState()), IsReadOnlyEffect(), dirt, now)
      ensures IsReadOnlyEffect() ==> DirtState() == old(DirtState())
      ensures r.Ok? && !IsReadOnlyEffect() && dirt && old(saveDirtySince).None? ==>
        saveDirtySince == Some(now) && updateDirtySince == Some(now)
      ensures r.Ok? && !IsReadOnlyEffect() && dirt && old(saveDirtySince).Some? ==> DirtState() == old(DirtState())
      ensures r.Ok? && !IsReadOnlyEffect() && !dirt ==> saveDirtySince == None && updateDirtySince == None
      ensures TextState() == old(TextState()) && AstState() == old(AstState())
      ensures db == old(db) && CacheState() == old(CacheState())
    {
      if DocumentGone() {
        return Err(AttributeError);
      }
      r := Ok(());
      if IsReadOnlyEffect() {
        return;
      }
      if dirt {
        if saveDirtySince.None? {
          saveDirtySince := Some(now);
          updateDirtySince := Some(now);
        }
      } else {
        saveDirtySince := None;
        updateDirtySince := None;
      }
      SetDirtyKeepsConsistent(old(DirtState()), IsReadOnlyEffect(), dirt, now);
    }

    /** Mints a new text placeholder: the live text may have changed. */
    method MarkTextChanged()
      requires Valid()
      modifies this
      ensures Valid()
      ensures liveTextPlaceHold == old(liveTextPlaceHold) + 1
      ensures CachedAst() == null
      ensures txtEditors == old(txtEditors) && editorText == old(editorText) && formatDetails == old(formatDetails)
      ensures DirtState() == old(DirtState()) && AstState() == old(AstState())
      ensures db == old(db) && CacheState() == old(CacheState())
    {
      liveTextPlaceHold := liveTextPlaceHold + 1;
    }

    /**
     * Sets the editor text and drops the cached tree. Removing the text of a
     * save-dirty page clears the save flag and mints a placeholder; setting a
     * text with `dirty` marks the page dirty and mints a placeholder (even on
     * a read-only page, where the flags stay); otherwise flags and placeholder
     * stay. Once the document is gone, marking dirty raises after the text
     * is set, and no placeholder is minted.
     */
    method SetEditorText(text: Option<string>, dirty: bool, now: Timestamp) returns (r: Result<(), Exception>)
      requires Valid()
      modifies this
      ensures Valid()
      ensures r.Err? <==> text.Some? && dirty && DocumentGone()
      ensures r.Err? ==> r.error == AttributeError
      ensures r.Err? ==> DirtState() == old(DirtState()) && liveTextPlaceHold == old(liveTextPlaceHold)
      ensures editorText == text && livePageAst == null && CachedAst() == null
      ensures livePageBasePlaceHold == old(livePageBasePlaceHold)
      ensures livePageBaseFormatDetails == old(livePageBaseFormatDetails)
      ensures text.None? && old(saveDirtySince).Some? ==>
        DirtState() == Dirt(None, old(updateDirtySince)) && liveTextPlaceHold == old(liveTextPlaceHold) + 1
      ensures text.None? && old(saveDirtySince).None? ==>
        DirtState() == old(DirtState()) && liveTextPlaceHold == old(liveTextPlaceHold)
      ensures text.Some? && dirty && r.Ok? ==>
        DirtState() == SetDirtyOn(old(DirtState()), IsReadOnlyEffect(), true, now) &&
        liveTextPlaceHold == old(liveTextPlaceHold) + 1
      ensures text.Some? && !dirty ==>
        DirtState() == old(DirtState()) && liveTextPlaceHold == old(liveTextPlaceHold)
      ensures txtEditors == old(txtEditors) && formatDetails == old(formatDetails)
      ensures db == old(db) && CacheState() == old(CacheState())
    {
      editorText := text;
      livePageAst := null;
      r := Ok(());
      if text.None? {
        if saveDirtySince.Some? {
          saveDirtySince := None;
          liveTextPlaceHold := liveTextPlaceHold + 1;
        }
      } else if dirty {
        r := SetDirty(true, now);
        if r.Err? {
          return;
        }
        liveTextPlaceHold := liveTextPlaceHold + 1;
      }
    }

    /**
     * Makes the page invalid so that threads still working on it stop
     * changing the database: no document, no editor list, no tree, no editor
     * text. Afterwards every writer of a page that uses its document fails
     * with AttributeError and leaves the page as it is (`DocumentGone`).
     */
    method Invalidate()
      requires Valid()
      modifies this
      ensures Valid()
      ensures IsInvalid() && DocumentGone() == UsesDocument()
      ensures editorText == None && livePageAst == null && CachedAst() == null
      ensures saveDirtySince == None && updateDirtySince == old(updateDirtySince)
      ensures liveTextPlaceHold == old(liveTextPlaceHold) + (if old(saveDirtySince).Some? then 1 else 0)
      ensures formatDetails == old(formatDetails) && db == old(db) && CacheState() == old(CacheState())
    {
      txtEditors := None;
      livePageAst := null;
      var cleared := SetEditorText(None, true, 0);
    }

    /**
     * Saves `text`. A read-only page changes nothing. A wiki page stores the
     * text as its content (creating its record), refreshes the match term of
     * its own word, is no longer save-dirty and, when no editor text is set,
     * mints a placeholder since the live text is the stored one. A
     * functional page stores the text and is no longer save-dirty. Once the
     * document is gone, the read-only check raises and nothing is stored.
     */
    method Save(text: string) returns (r: Result<(), Exception>)
      requires Valid()
      modifies this
      ensures Valid()
      ensures r.Err? <==> DocumentGone()
      ensures r.Err? ==> r.error == AttributeError && unchanged(this)
      ensures IsReadOnlyEffect() ==> unchanged(this)
      ensures r.Ok? && !IsReadOnlyEffect() ==> db.content == text && saveDirtySince == None
      ensures r.Ok? && !IsReadOnlyEffect() && kind.WikiKind? ==>
        db == old(db).(content := text, defined := true, syncMatchTerms := SyncUpdateMatchTerms(kind.word)) &&
        liveTextPlaceHold == old(liveTextPlaceHold) + (if old(editorText).None? then 1 else 0)
      ensures r.Ok? && !IsReadOnlyEffect() && kind.FunctionalKind? ==>
        db == old(db).(content := text) && liveTextPlaceHold == old(liveTextPlaceHold)
      ensures updateDirtySince == old(updateDirtySince)
      ensures txtEditors == old(txtEditors) && editorText == old(editorText) && formatDetails == old(formatDetails)
      ensures AstState() == old(AstState()) && CacheState() == old(CacheState())
    {
      if DocumentGone() {
        return Err(AttributeError);
      }
      r := Ok(());
      if IsReadOnlyEffect() {
        return;
      }
      match kind {
        case WikiKind(_) => {
          db := db.(content := text, defined := true, syncMatchTerms := SyncUpdateMatchTerms(kind.word));
          saveDirtySince := None;
          if editorText.None? {
            liveTextPlaceHold := liveTextPlaceHold + 1;
          }
        }
        case FunctionalKind(_) => {
          db := db.(content := text);
          saveDirtySince := None;
        }
      }
    }

    /**
     * The page's format details change, because a page property or the wiki
     * configuration they are computed from changed.
     */
    method ChangeFormatDetails(details: FormatDetails)
      modifies this
      ensures formatDetails == details
      ensures old(CachedAst()) != null && !details.IsEquivTo(old(formatDetails)) ==> CachedAst() == null
      ensures txtEditors == old(txtEditors) && editorText == old(editorText) && liveTextPlaceHold == old(liveTextPlaceHold)
      ensures DirtState() == old(DirtState()) && AstState() == old(AstState())
      ensures db == old(db) && CacheState() == old(CacheState())
    {
      if livePageBaseFormatDetails.Some? {
        IsEquivToIsEquivalence(details, livePageBaseFormatDetails.value, formatDetails);
        IsEquivToIsEquivalence(formatDetails, livePageBaseFormatDetails.value, details);
      }
      formatDetails := details;
    }

    // ----- Building the tree of the live text -----

    /**
     * The first locked block of `getLivePageAst`: stop if the thread stop
     * says so, otherwise either the current cached tree or a snapshot of the
     * live text, its placeholder and the format details to parse with. Once
     * the document is gone, looking up the format details raises.
     */
    method BeginLivePageAst(running: bool) returns (r: Result<BuildStart, Exception>)
      ensures r.Err? <==> !running || DocumentGone()
      ensures !running ==> r == Err(NotCurrentThread)
      ensures running && DocumentGone() ==> r == Err(AttributeError)
      ensures r.Ok? && CachedAst() != null ==> r.value == Cached(CachedAst())
      ensures r.Ok? && CachedAst() == null ==> r.value == Parse(LiveText(), liveTextPlaceHold, formatDetails)
    {
      if !running {
        return Err(NotCurrentThread);
      }
      if DocumentGone() {
        return Err(AttributeError);
      }
      var cached := CachedAst();
      if cached != null {
        return Ok(Cached(cached));
      }
      return Ok(Parse(LiveText(), liveTextPlaceHold, formatDetails));
    }

    /**
     * The publishing block of `getLivePageAst`: the tree parsed from a
     * snapshot becomes the cached one, based on the snapshot's placeholder
     * and format details, unless the thread stop says stop. With
     * `dieOnChange` the stop also fires once the placeholder has moved on.
     */
    method PublishAst(ast: PageAst, snapPlaceHold: nat, snapFormat: FormatDetails, running: bool, dieOnChange: bool)
      returns (r: Result<PageAst, Exception>)
      requires Valid() && snapPlaceHold <= liveTextPlaceHold
      modifies this
      ensures Valid()
      ensures r.Ok? <==> running && (!dieOnChange || snapPlaceHold == old(liveTextPlaceHold))
      ensures r.Err? ==> r.error == NotCurrentThread && unchanged(this)
      ensures r.Ok? ==> r.value == ast && AstState() == (ast, Some(snapPlaceHold), Some(snapFormat))
      ensures r.Ok? ==> (CachedAst() == ast <==>
        snapPlaceHold == liveTextPlaceHold && formatDetails.IsEquivTo(snapFormat))
      ensures TextState() == old(TextState()) && DirtState() == old(DirtState())
      ensures db == old(db) && CacheState() == old(CacheState())
    {
      var stillRunning := running && (!dieOnChange || snapPlaceHold == liveTextPlaceHold);
      if !stillRunning {
        return Err(NotCurrentThread);
      }
      livePageAst := ast;
      livePageBasePlaceHold := Some(snapPlaceHold);
      livePageBaseFormatDetails := Some(snapFormat);
      return Ok(ast);
    }

    /**
     * `getLivePageAst` of a wiki page run without interruption: the current
     * cached tree if there is one, otherwise a new tree for the live text
     * (no nodes for an empty text, the parser's nodes `parsed` otherwise),
     * which becomes the current cached tree. An invalid page fails with
     * AttributeError.
     */
    method GetLivePageAst(parsed: seq<Node>, running: bool, dieOnChange: bool) returns (r: Result<PageAst, Exception>)
      requires Valid() && kind.WikiKind?
      modifies this
      ensures Valid()
      ensures r.Err? <==> !running || IsInvalid()
      ensures r.Err? ==> unchanged(this)
      ensures !running ==> r == Err(NotCurrentThread)
      ensures running && IsInvalid() ==> r == Err(AttributeError)
      ensures r.Ok? ==> CachedAst() == r.value
      ensures r.Ok? && old(CachedAst()) != null ==> r.value == old(CachedAst()) && unchanged(this)
      ensures r.Ok? && old(CachedAst()) == null ==>
        fresh(r.value) && r.value.nodes == (if |old(LiveText())| == 0 then [] else parsed)
      ensures TextState() == old(TextState()) && DirtState() == old(DirtState())
      ensures db == old(db) && CacheState() == old(CacheState())
    {
      var start := BeginLivePageAst(running);
      if start.Err? {
        return Err(start.error);
      }
      match start.value {
        case Cached(ast) => {
          return Ok(ast);
        }
        case Parse(text, placeHold, format) => {
          var nodes := if |text| == 0 then [] else parsed;
          var ast := new PageAst(nodes);
          r := PublishAst(ast, placeHold, format, running, dieOnChange);
        }
      }
    }

    /**
     * `getLivePageAst` of a functional page: the cached tree if there is one,
     * otherwise a tree holding the whole live text as one plain-text node.
     * Without editor text the live text is the stored content, which a
     * "wiki/" page can no longer load once the document is gone.
     */
    method GetFunctionalLivePageAst(running: bool) returns (r: Result<PageAst, Exception>)
      requires kind.FunctionalKind?
      modifies this
      ensures r.Err? <==> !running || (old(livePageAst) == null && editorText.None? && DocumentGone())
      ensures r.Err? ==> unchanged(this)
      ensures !running ==> r == Err(NotCurrentThread)
      ensures running && r.Err? ==> r.error == AttributeError
      ensures r.Ok? ==> livePageAst == r.value
      ensures r.Ok? && old(livePageAst) != null ==> unchanged(this)
      ensures r.Ok? && old(livePageAst) == null ==> fresh(r.value) && r.value.nodes == [PlainText(old(LiveText()))]
      ensures TextState() == old(TextState()) && DirtState() == old(DirtState())
      ensures livePageBasePlaceHold == old(livePageBasePlaceHold)
      ensures livePageBaseFormatDetails == old(livePageBaseFormatDetails)
      ensures db == old(db) && CacheState() == old(CacheState())
    {
      if !running {
        return Err(NotCurrentThread);
      }
      if livePageAst != null {
        return Ok(livePageAst);
      }
      if editorText.None? && DocumentGone() {
        return Err(AttributeError);
      }
      var ast := new PageAst([PlainText(LiveText())]);
      livePageAst := ast;
      return Ok(ast);
    }

    // ----- Advancing the metadata state -----

    /** The commit at the end of the property stage. */
    method CommitPropsProcessed(ast: PageAst, running: bool) returns (r: Result<bool, Exception>)
      modifies this
      ensures GateBeforeFormat() && IsInvalid() ==> r == Err(AttributeError) && unchanged(this)
      ensures !old(GateOpen(ast)) && !(GateBeforeFormat() && IsInvalid()) ==> r == Ok(false) && unchanged(this)
      ensures old(GateOpen(ast)) && !IsInvalid() && !running ==> r == Err(NotCurrentThread) && unchanged(this)
      ensures old(GateOpen(ast)) && !IsInvalid() && running ==>
        r == Ok(true) && db == old(db).(metaState := PropsProcessed)
      ensures TextState() == old(TextState()) && DirtState() == old(DirtState()) && AstState() == old(AstState())
      ensures CacheState() == old(CacheState())
    {
      if GateBeforeFormat() && IsInvalid() {
        return Err(AttributeError);
      }
      if !GateOpen(ast) {
        return Ok(false);
      }
      if !running {
        return Err(NotCurrentThread);
      }
      db := db.(metaState := PropsProcessed);
      return Ok(true);
    }

    /** The commit at the end of the main stage: also the metadata is no longer dirty. */
    method CommitUpToDate(ast: PageAst, running: bool) returns (r: Result<bool, Exception>)
      requires Valid()
      modifies this
      ensures Valid()
      ensures GateBeforeFormat() && IsInvalid() ==> r == Err(AttributeError) && unchanged(this)
      ensures !old(GateOpen(ast)) && !(GateBeforeFormat() && IsInvalid()) ==> r == Ok(false) && unchanged(this)
      ensures old(GateOpen(ast)) && !IsInvalid() && !running ==> r == Err(NotCurrentThread) && unchanged(this)
      ensures old(GateOpen(ast)) && !IsInvalid() && running ==>
        r == Ok(true) && db == old(db).(metaState := UpToDate) && DirtState() == Dirt(None, None)
      ensures !(old(GateOpen(ast)) && !IsInvalid() && running) ==> DirtState() == old(DirtState())
      ensures TextState() == old(TextState()) && AstState() == old(AstState())
      ensures saveDirtySince == old(saveDirtySince) && CacheState() == old(CacheState())
    {
      if GateBeforeFormat() && IsInvalid() {
        return Err(AttributeError);
      }
      if !GateOpen(ast) {
        return Ok(false);
      }
      if !running {
        return Err(NotCurrentThread);
      }
      updateDirtySince := None;
      db := db.(metaState := UpToDate);
      return Ok(true);
    }

    /**
     * Stage one of the metadata refresh: rebuild the page's properties from
     * `ast` and store them, then advance to PROPSPROCESSED if the gate is
     * open. A read-only page reports success without doing anything; a page
     * without a database record stores nothing and reports failure; an
     * invalid page fails with AttributeError and changes nothing.
     */
    method RefreshPropertiesFromPageAst(ast: PageAst, running: bool) returns (r: Result<bool, Exception>)
      requires kind.WikiKind?
      modifies this
      ensures IsInvalid() ==> r == Err(AttributeError) && unchanged(this)
      ensures !IsInvalid() && IsReadOnlyEffect() ==> r == Ok(true) && unchanged(this)
      ensures !IsInvalid() && !IsReadOnlyEffect() && !running ==> r == Err(NotCurrentThread) && unchanged(this)
      ensures !IsInvalid() && !IsReadOnlyEffect() && running ==> props == None
      ensures !IsInvalid() && !IsReadOnlyEffect() && running && !old(db.defined) ==> r == Ok(false) && db == old(db)
      ensures !IsInvalid() && !IsReadOnlyEffect() && running && old(db.defined) ==>
        var stored := old(db).(props := AddAll(map[], PropertyPairs(ast.nodes)));
        r == Ok(old(GateOpen(ast))) &&
        db == (if old(GateOpen(ast)) then stored.(metaState := PropsProcessed) else stored)
      ensures TextState() == old(TextState()) && DirtState() == old(DirtState()) && AstState() == old(AstState())
      ensures todos == old(todos) && childRelations == old(childRelations) && childRelationSet == old(childRelationSet)
    {
      if IsInvalid() {
        return Err(AttributeError);
      }
      if IsReadOnlyEffect() {
        return Ok(true);
      }
      var newProps := CollectProperties(ast.nodes);
      if !running {
        return Err(NotCurrentThread);
      }
      props := None;
      if !db.defined {
        return Ok(false);
      }
      db := db.(props := newProps);
      r := CommitPropsProcessed(ast, running);
    }

    /**
     * Stage two of the metadata refresh: todos, child relations and match
     * terms (aliases from the stored properties whose value `isInvalidWord`
     * accepts as a wiki word, headings up to `headingDepth`) are rebuilt from
     * `ast` and stored, then the page advances to UPTODATE, clearing its
     * update flag, if the gate is open. An invalid page fails with
     * AttributeError and changes nothing.
     */
    method RefreshMainDbCacheFromPageAst(ast: PageAst, running: bool, isInvalidWord: string -> bool, headingDepth: int)
      returns (r: Result<bool, Exception>)
      requires kind.WikiKind? && Valid()
      modifies this
      ensures Valid()
      ensures IsInvalid() ==> r == Err(AttributeError) && unchanged(this)
      ensures !IsInvalid() && IsReadOnlyEffect() ==> r == Ok(true) && unchanged(this)
      ensures !IsInvalid() && !IsReadOnlyEffect() && !running ==> r == Err(NotCurrentThread) && unchanged(this)
      ensures !IsInvalid() && !IsReadOnlyEffect() && running ==>
        todos == None && childRelations == None && childRelationSet == {}
      ensures !IsInvalid() && !IsReadOnlyEffect() && running && !old(db.defined) ==>
        r == Ok(false) && db == old(db) && DirtState() == old(DirtState())
      ensures !IsInvalid() && !IsReadOnlyEffect() && running && old(db.defined) ==>
        var stored := old(db).(
          todos := FirstByKey(TodoTexts(ast.nodes), Itself),
          relations := FirstByKey(Links(ast.nodes), WordOf),
          matchTerms := AliasTerms(AliasValues(old(db).props), isInvalidWord, kind.word) +
                        HeadingTerms(ast.nodes, headingDepth, kind.word));
        r == Ok(old(GateOpen(ast))) &&
        db == (if old(GateOpen(ast)) then stored.(metaState := UpToDate) else stored) &&
        DirtState() == (if old(GateOpen(ast)) then Dirt(None, None) else old(DirtState()))
      ensures TextState() == old(TextState()) && AstState() == old(AstState()) && props == old(props)
      ensures saveDirtySince == old(saveDirtySince)
    {
      if IsInvalid() {
        return Err(AttributeError);
      }
      if IsReadOnlyEffect() {
        return Ok(true);
      }
      var newTodos := CollectTodos(ast.nodes);
      var newRelations := CollectChildRelations(ast.nodes);
      var terms := CollectMatchTerms(ast.nodes, AliasValues(db.props), isInvalidWord, headingDepth, kind.word);
      r := StoreMainDbCache(ast, running, newTodos, newRelations, terms);
    }

    /**
     * The writing half of the main stage: drop the caches, store the rebuilt
     * entries and commit. On an invalid page the first database write raises
     * AttributeError after the caches are dropped.
     */
    method StoreMainDbCache(ast: PageAst, running: bool, newTodos: seq<string>, newRelations: seq<Relation>,
                            terms: seq<MatchTerm>)
      returns (r: Result<bool, Exception>)
      requires Valid()
      modifies this
      ensures Valid()
      ensures !running ==> r == Err(NotCurrentThread) && unchanged(this)
      ensures running ==> todos == None && childRelations == None && childRelationSet == {}
      ensures running && IsInvalid() ==> r == Err(AttributeError) && db == old(db) && DirtState() == old(DirtState())
      ensures running && !IsInvalid() && !old(db.defined) ==>
        r == Ok(false) && db == old(db) && DirtState() == old(DirtState())
      ensures running && !IsInvalid() && old(db.defined) ==>
        var stored := old(db).(todos := newTodos, relations := newRelations, matchTerms := terms);
        r == Ok(old(GateOpen(ast))) &&
        db == (if old(GateOpen(ast)) then stored.(metaState := UpToDate) else stored) &&
        DirtState() == (if old(GateOpen(ast)) then Dirt(None, None) else old(DirtState()))
      ensures TextState() == old(TextState()) && AstState() == old(AstState()) && props == old(props)
      ensures saveDirtySince == old(saveDirtySince)
    {
      if !running {
        return Err(NotCurrentThread);
      }
      todos := None;
      childRelations := None;
      childRelationSet := {};
      if IsInvalid() {
        return Err(AttributeError);
      }
      if !db.defined {
        return Ok(false);
      }
      db := db.(todos := newTodos, relations := newRelations, matchTerms := terms);
      r := CommitUpToDate(ast, running);
    }

    /**
     * Runs the metadata update of a wiki page without interruption: an
     * invalid page fails with AttributeError; nothing happens for a page
     * without a record or a read-only page; otherwise the live tree is
     * obtained (parsing to `parsed` if needed) and then either both stages run
     * (`AllSteps`, whose result is None) or, if the stored state is the
     * requested one and not UPTODATE, the stage for that state runs: stage one
     * for DIRTY, stage two for PROPSPROCESSED. Some(false) stands for every
     * failure, a stopped thread included.
     */
    method RunDatabaseUpdate(step: UpdateStep, parsed: seq<Node>, running: bool,
                             isInvalidWord: string -> bool, headingDepth: int)
      returns (r: Result<Option<bool>, Exception>)
      requires kind.WikiKind? && Valid()
      modifies this
      ensures Valid()
      ensures r.Err? <==> IsInvalid()
      ensures r.Err? ==> r.error == AttributeError && unchanged(this)
      ensures r.Ok? && (!old(db.defined) || IsReadOnlyEffect()) ==> r.value == Some(false) && unchanged(this)
      ensures r.Ok? && !running ==> r.value == Some(false) && unchanged(this)
      ensures r.Ok? && step.StepFor? && (old(db.metaState) == UpToDate || old(db.metaState) != step.state) ==>
        r.value == Some(false) && db == old(db)
      ensures r.Ok? && old(db.defined) && !IsReadOnlyEffect() && running ==>
        livePageAst != null && CachedAst() == livePageAst &&
        (old(CachedAst()) != null ==> livePageAst == old(CachedAst())) &&
        (old(CachedAst()) == null ==> livePageAst.nodes == (if |old(LiveText())| == 0 then [] else parsed)) &&
        (step == AllSteps ==> r.value == None) &&
        (step == AllSteps && old(saveDirtySince).None? ==> db.metaState == UpToDate) &&
        (step == StepFor(MetaDirty) && old(db.metaState) == MetaDirty ==>
          r.value == Some(old(saveDirtySince).None?) &&
          db.metaState == (if old(saveDirtySince).None? then PropsProcessed else MetaDirty)) &&
        (step == StepFor(PropsProcessed) && old(db.metaState) == PropsProcessed ==>
          r.value == Some(old(saveDirtySince).None?) &&
          db.metaState == (if old(saveDirtySince).None? then UpToDate else PropsProcessed))
      ensures r.Ok? && old(db.defined) && !IsReadOnlyEffect() && running && livePageAst != null ==>
        var nodes := livePageAst.nodes;
        (step == AllSteps || (step == StepFor(MetaDirty) && old(db.metaState) == MetaDirty) ==>
          db.props == AddAll(map[], PropertyPairs(nodes))) &&
        (step.StepFor? && step.state != MetaDirty ==> db.props == old(db.props)) &&
        (step.StepFor? && step.state != PropsProcessed ==>
          db.todos == old(db.todos) && db.relations == old(db.relations) && db.matchTerms == old(db.matchTerms)) &&
        (step == AllSteps || (step == StepFor(PropsProcessed) && old(db.metaState) == PropsProcessed) ==>
          db.todos == FirstByKey(TodoTexts(nodes), Itself) &&
          db.relations == FirstByKey(Links(nodes), WordOf) &&
          db.matchTerms == AliasTerms(AliasValues(db.props), isInvalidWord, kind.word) +
                           HeadingTerms(nodes, headingDepth, kind.word))
      ensures db.content == old(db.content) && db.defined == old(db.defined) && db.syncMatchTerms == old(db.syncMatchTerms)
      ensures old(saveDirtySince).Some? ==> db.metaState == old(db.metaState)
      ensures TextState() == old(TextState()) && saveDirtySince == old(saveDirtySince)
    {
      if IsInvalid() {
        return Err(AttributeError);
      }
      if !db.defined || IsReadOnlyEffect() {
        return Ok(Some(false));
      }
      var astResult := GetLivePageAst(parsed, running, true);
      if astResult.Err? {
        return Ok(Some(false));
      }
      var ast := astResult.value;
      assert livePageAst == ast;
      match step {
        case AllSteps => {
          var propsResult := RefreshPropertiesFromPageAst(ast, running);
          var mainResult := RefreshMainDbCacheFromPageAst(ast, running, isInvalidWord, headingDepth);
          return Ok(None);
        }
        case StepFor(state) => {
          if db.metaState == UpToDate || db.metaState != state {
            return Ok(Some(false));
          }
          var stageResult;
          if state == PropsProcessed {
            stageResult := RefreshMainDbCacheFromPageAst(ast, running, isInvalidWord, headingDepth);
          } else {
            stageResult := RefreshPropertiesFromPageAst(ast, running);
          }
          return Ok(Some(stageResult.Ok? && stageResult.value));
        }
      }
    }
  }

  /**
   * A page standing for a wiki page under an alias name. Reading and
   * changing it is reading and changing the real page.
   */
  class AliasWikiPage {
    const aliasWord: string
    const realPage: Page

    constructor (aliasWord: string, realPage: Page)
      ensures this.aliasWord == aliasWord && this.realPage == realPage
    {
      this.aliasWord := aliasWord;
      this.realPage := realPage;
    }

    function UnifiedPageName(): string
    {
      "wikipage/" + aliasWord
    }

    function NonAliasPage(): Page
    {
      realPage
    }

    function GetContent(): string
      reads realPage
    {
      realPage.db.content
    }

    method SetDirty(dirt: bool, now: Timestamp) returns (r: Result<(), Exception>)
      requires realPage.Valid()
      modifies realPage
      ensures realPage.Valid()
      ensures r.Err? <==> realPage.DocumentGone()
      ensures r.Err? ==> r.error == AttributeError
      ensures realPage.DirtState() ==
        if realPage.DocumentGone() then old(realPage.DirtState())
        else SetDirtyOn(old(realPage.DirtState()), realPage.IsReadOnlyEffect(), dirt, now)
      ensures realPage.TextState() == old(realPage.TextState()) && realPage.db == old(realPage.db)
    {
      r := realPage.SetDirty(dirt, now);
    }

    /** Saving under the alias saves the real page. */
    method Save(text: string) returns (r: Result<(), Exception>)
      requires realPage.Valid()
      modifies realPage
      ensures realPage.Valid()
      ensures r.Err? <==> realPage.DocumentGone()
      ensures r.Err? ==> r.error == AttributeError && unchanged(realPage)
      ensures realPage.IsReadOnlyEffect() ==> unchanged(realPage)
      ensures r.Ok? && !realPage.IsReadOnlyEffect() ==> GetContent() == text && realPage.saveDirtySince == None
      ensures r.Ok? && !realPage.IsReadOnlyEffect() && realPage.kind.WikiKind? ==>
        realPage.db == old(realPage.db).(content := text, defined := true,
                                         syncMatchTerms := SyncUpdateMatchTerms(realPage.kind.word)) &&
        realPage.liveTextPlaceHold == old(realPage.liveTextPlaceHold) + (if old(realPage.editorText).None? then 1 else 0)
      ensures r.Ok? && !realPage.IsReadOnlyEffect() && realPage.kind.FunctionalKind? ==>
        realPage.db == old(realPage.db).(content := text) && realPage.liveTextPlaceHold == old(realPage.liveTextPlaceHold)
      ensures realPage.updateDirtySince == old(realPage.updateDirtySince)
      ensures realPage.txtEditors == old(realPage.txtEditors) && realPage.editorText == old(realPage.editorText)
      ensures realPage.formatDetails == old(realPage.formatDetails)
      ensures realPage.AstState() == old(realPage.AstState()) && realPage.CacheState() == old(realPage.CacheState())
    {
      r := realPage.Save(text);
    }

    /** The tree of an alias page is the tree of the real page. */
    method GetLivePageAst(parsed: seq<Node>, running: bool, dieOnChange: bool) returns (r: Result<PageAst, Exception>)
      requires realPage.Valid() && realPage.kind.WikiKind?
      modifies realPage
      ensures realPage.Valid()
      ensures r.Err? <==> !running || realPage.IsInvalid()
      ensures r.Err? ==> unchanged(realPage)
      ensures !running ==> r == Err(NotCurrentThread)
      ensures running && realPage.IsInvalid() ==> r == Err(AttributeError)
      ensures r.Ok? ==> realPage.CachedAst() == r.value
      ensures r.Ok? && old(realPage.CachedAst()) != null ==> r.value == old(realPage.CachedAst()) && unchanged(realPage)
      ensures r.Ok? && old(realPage.CachedAst()) == null ==>
        fresh(r.value) && r.value.nodes == (if |old(realPage.LiveText())| == 0 then [] else parsed)
      ensures realPage.TextState() == old(realPage.TextState()) && realPage.DirtState() == old(realPage.DirtState())
      ensures realPage.db == old(realPage.db) && realPage.CacheState() == old(realPage.CacheState())
    {
      r := realPage.GetLivePageAst(parsed, running, dieOnChange);
    }
  }
}

=== FILE: exceptions.dfy ===
/** The exceptions the modelled code raises, as values. */
module WikiExceptions {

  datatype Exception =
    | NotCurrentThread              // NotCurrentThreadException: the operation must stop
    | DeadBlockPreventionTimeOut    // DeadBlockPreventionTimeOutError: a wait ran out of time
    | InternalError(msg: string)    // InternalError
    | RuntimeError(msg: string)     // RuntimeError
    | ValueError                    // ValueError
    | IndexError                    // IndexError: an index outside the sequence
    | TypeError                     // TypeError: e.g. indexing None
    | AttributeError                // AttributeError: e.g. a call on a document reference that is None
    | ThreadError(msg: string)      // thread.error: misuse of a plain lock of the thread module
    | WikiWordNotFound              // WikiWordNotFoundException: the page is not in the database
    | BadFuncPageTag(tag: string)   // BadFuncPageTagException: no functional page has this tag
    | Raised(code: int)             // an exception raised by called code the model cannot see
}

=== FILE: exec_result.dfy ===
/**
 * The result box a job fills in (`ExecutionResult`) and the event a caller
 * of `execute` waits on.
 */
module ExecResults {
  import opened Wrappers
  import opened WikiExceptions

  /** A value returned by a job; the model does not look inside it. */
  type Value = int

  /** What running a job's function did: return a value (None included) or raise. */
  datatype Outcome = Returned(value: Option<Value>) | Threw(e: Exception)

  /** `threading.Event`, without the waiting. */
  class Event {
    var isSet: bool

    constructor ()
      ensures !isSet
    {
      isSet := false;
    }

    method Set()
      modifies this
      ensures isSet
    {
      isSet := true;
    }
  }

  /**
   * State 0: nothing yet, 1: `result` holds the return value,
   * 2: `exception` holds what was raised.
   */
  class ExecutionResult {
    var result: Option<Value>
    var exception: Option<Exception>
    var state: nat

    ghost predicate Valid()
      reads this
    {
      state <= 2 && (state == 2 ==> exception.Some?)
    }

    constructor ()
      ensures Valid()
      ensures state == 0 && result == None && exception == None
    {
      result := None;
      exception := None;
      state := 0;
    }

    method SetResult(r: Option<Value>)
      modifies this
      ensures result == r && state == 1 && exception == old(exception)
      ensures Valid()
    {
      result := r;
      state := 1;
    }

    method SetException(e: Exception)
      modifies this
      ensures exception == Some(e) && state == 2 && result == old(result)
      ensures Valid()
    {
      exception := Some(e);
      state := 2;
    }

    /**
     * getReturn: the result in state 1, the stored exception raised in
     * state 2, and None (the function falls off its end) in state 0.
     */
    method GetReturn() returns (r: Result<Option<Value>, Exception>)
      requires Valid()
      ensures state == 1 ==> r == Ok(result)
      ensures state == 2 ==> r == Err(exception.value)
      ensures state == 0 ==> r == Ok(None)
    {
      if state == 1 {
        return Ok(result);
      } else if state == 2 {
        return Err(exception.value);
      }
      return Ok(None);
    }
  }
}

=== FILE: executor.dfy ===
/**
 * SingleThreadExecutor: jobs queued in a tuple of deques and run one at a
 * time by a worker thread. Each method is one critical section under the
 * deque lock. The waiting parts (the worker waiting for jobs, `execute`
 * waiting for its event, `end` and `pause` joining the worker) are not
 * modelled as waits: the worker's turns are calls of `Step` and `RunJob`,
 * and what a wait finds is the state at the next call (`AwaitExecute`,
 * `Join`).
 */
module Executor {
  import opened Wrappers
  import opened WikiExceptions
  import opened ThreadStops
  import opened ExecResults
  import opened ExecutorQueue

  /** Python's `xs[i]` index: negative indices count from the end. */
  function PyIndex(i: int, n: nat): (r: Option<nat>)
    ensures r.Some? <==> -(n as int) <= i < n
    ensures r.Some? ==> r.value < n && r.value == (if i < 0 then i + n else i)
  {
    if -(n as int) <= i < n then Some(if i < 0 then i + n else i) else None
  }

  /** A bound of Python's slice `xs[a:b]`, clamped into `0..n`. */
  function SliceBound(i: int, n: nat): (r: nat)
    ensures r <= n
    ensures 0 <= i <= n ==> r == i
    ensures i > n ==> r == n
    ensures i < 0 ==> r == (if i + n < 0 then 0 else i + n)
  {
    if i < 0 then (if i + n < 0 then 0 else i + n)
    else if i > n then n
    else i
  }

  /** The number of jobs in `ds[start:end]`, with Python's slice rules. */
  function SliceJobCount(ds: Deques, start: int, end: int): nat
  {
    var lo := SliceBound(start, |ds|);
    var hi := SliceBound(end, |ds|);
    if lo < hi then JobCount(ds[lo..hi]) else 0
  }

  lemma {:induction false} JobCountSplit(ds: Deques, k: nat)
    requires k <= |ds|
    ensures JobCount(ds[..k]) + JobCount(ds[k..]) == JobCount(ds)
  {
    if k > 0 {
      JobCountSplit(ds[1..], k - 1);
      assert ds[..k][1..] == ds[1..][..k - 1];
      assert ds[k..] == ds[1..][k - 1..];
    }
  }

  /** `getJobCount(k)` counts the first `k` deques: never more than all of them. */
  lemma PrefixJobCount(ds: Deques, k: int)
    requires 0 <= k
    ensures SliceJobCount(ds, 0, k) == JobCount(ds[..if k <= |ds| then k else |ds|])
    ensures SliceJobCount(ds, 0, k) <= JobCount(ds)
  {
    var hi := if k <= |ds| then k else |ds|;
    JobCountSplit(ds, hi);
    if hi == 0 {
      assert ds[..0] == [];
    }
  }

  /** The deques `prepare` creates. */
  function EmptyDeques(n: nat): (ds: Deques)
    ensures |ds| == n && JobCount(ds) == 0
  {
    var ds := seq(n, _ => []);
    AllEmptyCountsZero(ds);
    ds
  }

  /** What `execute` does with a call that does not come from the worker itself. */
  datatype Submission =
    | RunInline                                         // called from the worker: fct runs directly
    | Queued(event: Event, retObj: ExecutionResult)     // queued; the caller waits on `event`

  class SingleThreadExecutor {
    var deques: Option<Deques>
    var paused: bool
    var thread: Option<ThreadId>
    /** The thread in `thread` is alive (`self.thread.isAlive()`). */
    var alive: bool
    var doneJobCount: nat
    /** `incDoneJobCount` is the active incrementer. */
    var countDone: bool
    const dequeCount: nat

    ghost predicate Valid()
      reads this
    {
      && (deques.Some? ==> |deques.value| == dequeCount)
      && (alive ==> thread.Some?)
    }

    constructor (dequeCount: nat)
      ensures Valid()
      ensures this.dequeCount == dequeCount
      ensures deques == None && thread == None && !alive && !paused
      ensures doneJobCount == 0 && !countDone
    {
      this.dequeCount := dequeCount;
      deques := None;
      thread := None;
      alive := false;
      paused := false;
      doneJobCount := 0;
      countDone := false;
    }

    /** The executor is its own thread stop: valid until a hard end drops the deques. */
    function IsValidThread(): (b: bool)
      reads this
      ensures b <==> deques.Some?
    {
      deques.Some?
    }

    method TestValidThread() returns (r: Result<(), Exception>)
      ensures r.Ok? <==> IsValidThread()
      ensures r.Err? ==> r.error == NotCurrentThread
    {
      if deques.None? {
        return Err(NotCurrentThread);
      }
      return Ok(());
    }

    method Prepare()
      requires Valid()
      modifies this
      ensures Valid()
      ensures old(deques).None? ==> deques == Some(EmptyDeques(dequeCount))
      ensures old(deques).Some? ==> deques == old(deques)
      ensures paused == old(paused) && thread == old(thread) && alive == old(alive)
      ensures doneJobCount == old(doneJobCount) && countDone == old(countDone)
    {
      if deques.None? {
        deques := Some(EmptyDeques(dequeCount));
      }
    }

    /** start: unpause; a live worker is kept, otherwise a new one (`newThread`) is started. */
    method Start(newThread: ThreadId)
      requires Valid()
      modifies this
      ensures Valid()
      ensures !paused && alive
      ensures old(alive) ==> deques == old(deques) && thread == old(thread)
      ensures !old(alive) ==> thread == Some(newThread)
                              && deques == (if old(deques).None? then Some(EmptyDeques(dequeCount)) else old(deques))
      ensures doneJobCount == old(doneJobCount) && countDone == old(countDone)
    {
      paused := false;
      if alive {
        return;
      }
      Prepare();
      thread := Some(newThread);
      alive := true;
    }

    /** clearDeque: empty deque `idx`; nothing happens once the deques are gone. */
    method ClearDeque(idx: int) returns (r: Result<(), Exception>)
      requires Valid()
      modifies this
      ensures Valid()
      ensures old(deques).None? ==> r.Ok? && deques == old(deques)
      ensures old(deques).Some? && PyIndex(idx, dequeCount).None? ==>
                r == Err(IndexError) && deques == old(deques)
      ensures old(deques).Some? && PyIndex(idx, dequeCount).Some? ==>
                r.Ok? && deques == Some(old(deques).value[PyIndex(idx, dequeCount).value := []])
      ensures paused == old(paused) && thread == old(thread) && alive == old(alive)
      ensures doneJobCount == old(doneJobCount) && countDone == old(countDone)
    {
      if deques.None? {
        return Ok(());
      }
      var i := PyIndex(idx, dequeCount);
      if i.None? {
        return Err(IndexError);
      }
      deques := Some(deques.value[i.value := []]);
      return Ok(());
    }

    /**
     * getJobCount(start, end): every queued job when `start` is None,
     * `deques[0:start]` when only `start` is given, `deques[start:end]`
     * otherwise; 0 once the deques are gone.
     */
    function GetJobCount(start: Option<int>, end: Option<int>): (n: nat)
      reads this
      ensures deques.None? ==> n == 0
      ensures deques.Some? && start.None? ==> n == JobCount(deques.value)
      ensures deques.Some? && start.Some? && end.None? && 0 <= start.value ==>
                n == JobCount(deques.value[..if start.value <= |deques.value| then start.value else |deques.value|])
                && n <= JobCount(deques.value)
    {
      if deques.None? then 0
      else if start.None? then JobCount(deques.value)
      else if end.None? then
        if 0 <= start.value then
          PrefixJobCount(deques.value, start.value);
          SliceJobCount(deques.value, 0, start.value)
        else SliceJobCount(deques.value, 0, start.value)
      else SliceJobCount(deques.value, start.value, end.value)
    }

    /**
     * One turn of the worker loop under the deque lock: stop when the
     * deques are gone or on PAUSE, wait when nothing is queued, otherwise
     * take the next job; a drained END ends the worker when nothing else
     * is queued and goes back to the left of the last deque otherwise.
     */
    method Step() returns (r: StepResult)
      requires Valid() && alive
      modifies this
      ensures Valid()
      ensures (deques, r) == WorkerStep(old(deques), old(paused))
      ensures alive == !r.Ends()
      ensures paused == old(paused) && thread == old(thread)
      ensures doneJobCount == old(doneJobCount) && countDone == old(countDone)
    {
      WorkerStepShape(deques, paused, EndMarker);
      if deques.None? {
        alive := false;
        return Terminated;
      }
      var next := GetNextJob(deques.value, paused);
      if next.PauseObject? {
        alive := false;
        return Paused;
      }
      if next.NoJob? {
        return Waiting;
      }
      var ds := PopFrom(deques.value, next.from);
      deques := Some(ds);
      if next.job.EndMarkerShort? {
        alive := false;
        return Crashed;
      }
      if next.job.EndMarker? {
        if JobCount(ds) == 0 {
          alive := false;
          return Exited;
        }
        deques := Some(AppendLeft(ds, |ds| - 1, EndMarker));
        return Requeued;
      }
      return Run(next.job);
    }

    /**
     * The rest of a worker turn that took a job, outside the lock: store
     * what the function returned or raised, count a success when counting
     * is on, and set the job's event.
     */
    method RunJob(job: Job, outcome: Outcome)
      requires job.Call?
      modifies this, job.retObj, job.event
      ensures outcome.Returned? ==>
                job.retObj.state == 1 && job.retObj.result == outcome.value
                && job.retObj.exception == old(job.retObj.exception)
                && doneJobCount == old(doneJobCount) + (if countDone then 1 else 0)
      ensures outcome.Threw? ==>
                job.retObj.state == 2 && job.retObj.exception == Some(outcome.e)
                && job.retObj.result == old(job.retObj.result)
                && doneJobCount == old(doneJobCount)
      ensures job.event != null ==> job.event.isSet
      ensures deques == old(deques) && paused == old(paused) && thread == old(thread)
      ensures alive == old(alive) && countDone == old(countDone)
    {
      match outcome {
        case Returned(v) =>
          job.retObj.SetResult(v);
          if countDone {
            doneJobCount := doneJobCount + 1;
          }
        case Threw(e) =>
          job.retObj.SetException(e);
      }
      if job.event != null {
        job.event.Set();
      }
    }

    /**
     * The locked part of `execute`: a call from the worker itself runs
     * inline; after a hard end it raises InternalError; otherwise the call
     * is queued at the left of deque `idx` with a fresh event and result.
     */
    method Execute(idx: int, fct: FunctionId, current: ThreadId) returns (r: Result<Submission, Exception>)
      requires Valid()
      modifies this
      ensures Valid()
      ensures thread == Some(current) ==> r == Ok(RunInline) && deques == old(deques)
      ensures thread != Some(current) && old(deques).None? ==>
                r.Err? && r.error.InternalError? && deques == old(deques)
      ensures thread != Some(current) && old(deques).Some? && PyIndex(idx, dequeCount).None? ==>
                r == Err(IndexError) && deques == old(deques)
      ensures thread != Some(current) && old(deques).Some? && PyIndex(idx, dequeCount).Some? ==>
                r.Ok? && r.value.Queued? && fresh(r.value.event) && fresh(r.value.retObj)
                && !r.value.event.isSet && r.value.retObj.state == 0
                && r.value.retObj.exception == None
                && deques == Some(AppendLeft(old(deques).value, PyIndex(idx, dequeCount).value,
                                             Call(fct, r.value.event, r.value.retObj, false)))
      ensures paused == old(paused) && thread == old(thread) && alive == old(alive)
      ensures doneJobCount == old(doneJobCount) && countDone == old(countDone)
    {
      if thread == Some(current) {
        return Ok(RunInline);
      }
      if deques.None? {
        return Err(InternalError("Called SingleThreadExecutor.execute() after queue was killed"));
      }
      var i := PyIndex(idx, dequeCount);
      if i.None? {
        return Err(IndexError);
      }
      var event := new Event();
      var retObj := new ExecutionResult();
      deques := Some(AppendLeft(deques.value, i.value, Call(fct, event, retObj, false)));
      return Ok(Queued(event, retObj));
    }

    /**
     * What `execute` does once its wait is over: an unset event is the
     * dead-block time-out; a stored exception is raised; otherwise the
     * stored result is returned.
     */
    static method AwaitExecute(event: Event, retObj: ExecutionResult) returns (r: Result<Option<Value>, Exception>)
      ensures !event.isSet ==> r == Err(DeadBlockPreventionTimeOut)
      ensures event.isSet && retObj.exception.Some? ==> r == Err(retObj.exception.value)
      ensures event.isSet && retObj.exception.None? ==> r == Ok(retObj.result)
    {
      if !event.isSet {
        return Err(DeadBlockPreventionTimeOut);
      }
      if retObj.exception.Some? {
        return Err(retObj.exception.value);
      }
      return Ok(retObj.result);
    }

    /** Queue a call without an event; after a hard end the fresh, unset result is returned unqueued. */
    method Submit(idx: int, fct: FunctionId, tstop: bool) returns (r: Result<ExecutionResult, Exception>)
      requires Valid()
      modifies this
      ensures Valid()
      ensures r.Ok? ==> fresh(r.value) && r.value.state == 0 && r.value.exception == None
      ensures old(deques).None? ==> r.Ok? && deques == old(deques)
      ensures old(deques).Some? && PyIndex(idx, dequeCount).None? ==>
                r == Err(IndexError) && deques == old(deques)
      ensures old(deques).Some? && PyIndex(idx, dequeCount).Some? ==>
                r.Ok? && deques == Some(AppendLeft(old(deques).value, PyIndex(idx, dequeCount).value,
                                                   Call(fct, null, r.value, tstop)))
      ensures paused == old(paused) && thread == old(thread) && alive == old(alive)
      ensures doneJobCount == old(doneJobCount) && countDone == old(countDone)
    {
      var retObj := new ExecutionResult();
      if deques.None? {
        return Ok(retObj);
      }
      var i := PyIndex(idx, dequeCount);
      if i.None? {
        return Err(IndexError);
      }
      deques := Some(AppendLeft(deques.value, i.value, Call(fct, null, retObj, tstop)));
      return Ok(retObj);
    }

    /** executeAsync: the job does not get the executor as its thread stop. */
    method ExecuteAsync(idx: int, fct: FunctionId) returns (r: Result<ExecutionResult, Exception>)
      requires Valid()
      modifies this
      ensures Valid()
      ensures r.Ok? ==> fresh(r.value) && r.value.state == 0
      ensures old(deques).None? ==> r.Ok? && deques == old(deques)
      ensures old(deques).Some? && PyIndex(idx, dequeCount).Some? ==>
                r.Ok? && deques == Some(AppendLeft(old(deques).value, PyIndex(idx, dequeCount).value,
                                                   Call(fct, null, r.value, false)))
      ensures old(deques).Some? && PyIndex(idx, dequeCount).None? ==> r == Err(IndexError)
      ensures paused == old(paused) && thread == old(thread) && alive == old(alive)
    {
      r := Submit(idx, fct, false);
    }

    /** executeAsyncWithThreadStop: the job is handed the executor as its thread stop. */
    method ExecuteAsyncWithThreadStop(idx: int, fct: FunctionId) returns (r: Result<ExecutionResult, Exception>)
      requires Valid()
      modifies this
      ensures Valid()
      ensures r.Ok? ==> fresh(r.value) && r.value.state == 0
      ensures old(deques).None? ==> r.Ok? && deques == old(deques)
      ensures old(deques).Some? && PyIndex(idx, dequeCount).Some? ==>
                r.Ok? && deques == Some(AppendLeft(old(deques).value, PyIndex(idx, dequeCount).value,
                                                   Call(fct, null, r.value, true)))
      ensures old(deques).Some? && PyIndex(idx, dequeCount).None? ==> r == Err(IndexError)
      ensures paused == old(paused) && thread == old(thread) && alive == old(alive)
    {
      r := Submit(idx, fct, true);
    }

    /**
     * The locked part of `end`: nothing to do without a live worker; a hard
     * end drops the deques, a soft end queues END at the left of the last
     * deque. The result tells whether the caller goes on to `Join`.
     */
    method EndRequest(hardEnd: bool) returns (r: Result<bool, Exception>)
      requires Valid()
      modifies this
      ensures Valid()
      ensures !old(alive) ==> r == Ok(false) && deques == old(deques)
      ensures old(alive) && hardEnd ==> r == Ok(true) && deques == None && !IsValidThread()
      ensures old(alive) && !hardEnd && old(deques).None? ==> r == Err(TypeError) && deques == None
      ensures old(alive) && !hardEnd && old(deques).Some? && dequeCount == 0 ==>
                r == Err(IndexError) && deques == old(deques)
      ensures old(alive) && !hardEnd && old(deques).Some? && dequeCount > 0 ==>
                r == Ok(true) && deques == Some(AppendLeft(old(deques).value, dequeCount - 1, EndMarker))
      ensures paused == old(paused) && thread == old(thread) && alive == old(alive)
      ensures doneJobCount == old(doneJobCount) && countDone == old(countDone)
    {
      if !alive {
        return Ok(false);
      }
      if hardEnd {
        deques := None;
        return Ok(true);
      }
      if deques.None? {
        return Err(TypeError);
      }
      if dequeCount == 0 {
        return Err(IndexError);
      }
      deques := Some(AppendLeft(deques.value, dequeCount - 1, EndMarker));
      return Ok(true);
    }

    /**
     * The end of `end` and of `pause(wait=True)` after the join: a worker
     * still alive is the dead-block time-out, otherwise the thread is dropped.
     */
    method Join() returns (r: Result<(), Exception>)
      requires Valid()
      modifies this
      ensures Valid()
      ensures old(alive) ==> r == Err(DeadBlockPreventionTimeOut) && thread == old(thread)
      ensures !old(alive) ==> r.Ok? && thread == None
      ensures deques == old(deques) && paused == old(paused) && alive == old(alive)
      ensures doneJobCount == old(doneJobCount) && countDone == old(countDone)
    {
      if alive {
        return Err(DeadBlockPreventionTimeOut);
      }
      thread := None;
      return Ok(());
    }

    /** The locked part of `pause`: false without a live worker, else set the pause flag. */
    method Pause() returns (b: bool)
      requires Valid()
      modifies this
      ensures Valid()
      ensures b == old(alive)
      ensures paused == (old(paused) || old(alive))
      ensures deques == old(deques) && thread == old(thread) && alive == old(alive)
      ensures doneJobCount == old(doneJobCount) && countDone == old(countDone)
    {
      if !alive {
        return false;
      }
      paused := true;
      return true;
    }

    method StartDoneJobCount()
      modifies this
      ensures countDone
      ensures deques == old(deques) && paused == old(paused) && thread == old(thread)
      ensures alive == old(alive) && doneJobCount == old(doneJobCount)
    {
      countDone := true;
    }

    method StopDoneJobCount()
      modifies this
      ensures !countDone
      ensures deques == old(deques) && paused == old(paused) && thread == old(thread)
      ensures alive == old(alive) && doneJobCount == old(doneJobCount)
    {
      countDone := false;
    }

    method ResetDoneJobCount()
      modifies this
      ensures doneJobCount == 0
      ensures deques == old(deques) && paused == old(paused) && thread == old(thread)
      ensures alive == old(alive) && countDone == old(countDone)
    {
      doneJobCount := 0;
    }

    function GetDoneJobCount(): (n: nat)
      reads this
      ensures n == doneJobCount
    {
      doneJobCount
    }
  }

  /** A paused worker leaves on its next turn and the queued jobs stay for a later `start`. */
  lemma PauseKeepsDeques(ds: Deques)
    ensures WorkerStep(Some(ds), true) == (Some(ds), Paused)
    ensures WorkerStep(Some(ds), true).1.Ends()
  {
  }

  /** After a hard end the worker leaves on its next turn, whatever was queued. */
  lemma HardEndTerminates(paused: bool)
    ensures WorkerStep(None, paused) == (None, Terminated)
  {
  }
}

=== FILE: executor_queue.dfy ===
/**
 * The queue machine of the single-worker executor, on values: a tuple of
 * deques of jobs (the left end of a deque is index 0, so `appendleft` is
 * `[job] + d` and `pop` takes the last element), the END marker of a soft
 * end and one step of the worker loop.
 */
module ExecutorQueue {
  import opened Wrappers
  import opened ExecResults

  /** Which function a job calls; the model only tells jobs apart by it. */
  type FunctionId = nat

  /**
   * A queued tuple. `EndMarker` is the six-field END tuple that `end` queues;
   * `EndMarkerShort` is the five-field END tuple the worker re-queues, which
   * the six-name unpack of the worker loop cannot take apart.
   */
  datatype Job =
    | Call(fct: FunctionId, event: Event?, retObj: ExecutionResult, tstop: bool)
    | EndMarker
    | EndMarkerShort

  type Deques = seq<seq<Job>>

  /** The number of queued jobs, markers included (`getJobCount()`). */
  function JobCount(ds: Deques): nat
  {
    if |ds| == 0 then 0 else |ds[0]| + JobCount(ds[1..])
  }

  /** All queued jobs, deque after deque. */
  function Flat(ds: Deques): seq<Job>
  {
    if |ds| == 0 then [] else ds[0] + Flat(ds[1..])
  }

  lemma {:induction false} JobCountIsFlatLength(ds: Deques)
    ensures JobCount(ds) == |Flat(ds)|
  {
    if |ds| > 0 {
      JobCountIsFlatLength(ds[1..]);
    }
  }

  /** The queued jobs are those before deque `i`, then deque `i`, then those after it. */
  lemma {:induction false} FlatSplit(ds: Deques, i: nat)
    requires i < |ds|
    ensures Flat(ds) == Flat(ds[..i]) + ds[i] + Flat(ds[i + 1..])
  {
    if i == 0 {
      assert ds[..0] == [];
    } else {
      FlatSplit(ds[1..], i - 1);
      assert ds[1..][..i - 1] == ds[..i][1..];
      assert ds[1..][i - 1 + 1..] == ds[i + 1..];
      assert ds[1..][i - 1] == ds[i];
    }
  }

  lemma {:induction false} FlatHasDeque(ds: Deques, i: nat)
    requires i < |ds|
    ensures multiset(ds[i]) <= multiset(Flat(ds))
  {
    if i > 0 {
      FlatHasDeque(ds[1..], i - 1);
    }
  }

  /** The index of the first non-empty deque, or -1. */
  function FirstNonEmpty(ds: Deques): (i: int)
    ensures -1 <= i < |ds|
    ensures i == -1 <==> forall k :: 0 <= k < |ds| ==> ds[k] == []
    ensures i >= 0 ==> ds[i] != [] && forall k :: 0 <= k < i ==> ds[k] == []
  {
    if |ds| == 0 then -1
    else if ds[0] != [] then 0
    else
      var j := FirstNonEmpty(ds[1..]);
      if j == -1 then -1 else j + 1
  }

  lemma {:induction false} AllEmptyCountsZero(ds: Deques)
    ensures (forall k :: 0 <= k < |ds| ==> ds[k] == []) <==> JobCount(ds) == 0
  {
    if |ds| > 0 {
      AllEmptyCountsZero(ds[1..]);
      assert forall k :: 1 <= k < |ds| ==> ds[k] == ds[1..][k - 1];
    }
  }

  /** What `_getNextJob` hands back. */
  datatype NextJob = PauseObject | Popped(job: Job, from: nat) | NoJob

  /**
   * `_getNextJob`: the PAUSE marker while paused; otherwise the rightmost
   * job of the first non-empty deque; None when every deque is empty.
   */
  function GetNextJob(ds: Deques, paused: bool): (r: NextJob)
    ensures paused ==> r == PauseObject
    ensures !paused && JobCount(ds) == 0 ==> r == NoJob
    ensures !paused && JobCount(ds) > 0 ==>
              r.Popped? && r.from < |ds| && ds[r.from] != []
              && r.job == ds[r.from][|ds[r.from]| - 1]
              && forall k :: 0 <= k < r.from ==> ds[k] == []
  {
    AllEmptyCountsZero(ds);
    if paused then PauseObject
    else
      var i := FirstNonEmpty(ds);
      if i == -1 then NoJob
      else Popped(ds[i][|ds[i]| - 1], i)
  }

  /** The deques after `deque.pop()` on deque `i`. */
  function PopFrom(ds: Deques, i: nat): (r: Deques)
    requires i < |ds| && ds[i] != []
    ensures |r| == |ds| && r[i] == ds[i][..|ds[i]| - 1]
    ensures forall k :: 0 <= k < |ds| && k != i ==> r[k] == ds[k]
    ensures JobCount(r) == JobCount(ds) - 1
    ensures multiset(Flat(r)) + multiset{ds[i][|ds[i]| - 1]} == multiset(Flat(ds))
  {
    var d := ds[i];
    var r := ds[i := d[..|d| - 1]];
    FlatSplit(ds, i);
    FlatSplit(r, i);
    assert r[..i] == ds[..i] && r[i + 1..] == ds[i + 1..];
    var before, after := Flat(ds[..i]), Flat(ds[i + 1..]);
    assert Flat(ds) == before + d[..|d| - 1] + [d[|d| - 1]] + after by {
      assert d == d[..|d| - 1] + [d[|d| - 1]];
    }
    assert multiset(Flat(ds)) ==
      multiset(before) + multiset(d[..|d| - 1]) + multiset{d[|d| - 1]} + multiset(after);
    JobCountIsFlatLength(ds);
    JobCountIsFlatLength(r);
    r
  }

  /** The deques after `deques[i].appendleft(job)`. */
  function AppendLeft(ds: Deques, i: nat, job: Job): (r: Deques)
    requires i < |ds|
    ensures |r| == |ds| && r[i] == [job] + ds[i]
    ensures forall k :: 0 <= k < |ds| && k != i ==> r[k] == ds[k]
    ensures JobCount(r) == JobCount(ds) + 1
    ensures multiset(Flat(r)) == multiset(Flat(ds)) + multiset{job}
  {
    var r := ds[i := [job] + ds[i]];
    FlatSplit(ds, i);
    FlatSplit(r, i);
    assert r[..i] == ds[..i] && r[i + 1..] == ds[i + 1..];
    var before, after := Flat(ds[..i]), Flat(ds[i + 1..]);
    assert Flat(r) == before + [job] + ds[i] + after;
    assert multiset(Flat(r)) == multiset(before) + multiset{job} + multiset(ds[i]) + multiset(after);
    JobCountIsFlatLength(ds);
    JobCountIsFlatLength(r);
    r
  }

  /** What one turn of the worker loop ends with. */
  datatype StepResult =
    | Terminated      // deques is None after a hard end: the worker returns
    | Paused          // the PAUSE marker: the worker returns, the deques stay
    | Waiting         // nothing queued: the worker waits on the condition
    | Exited          // END drained with no other job left: the worker returns
    | Requeued        // END drained while jobs remain: END goes back to the last deque
    | Run(job: Job)   // a job was taken and its function is called
    | Crashed         // the taken tuple could not be unpacked: the worker dies with ValueError
  {
    /** The worker thread ends after this turn. */
    predicate Ends() {
      Terminated? || Paused? || Exited? || Crashed?
    }
  }

  /**
   * One turn of the worker loop under the deque lock, with the tuple that
   * a drained END puts back (`requeued`) as a parameter.
   */
  function WorkerStepWith(ds: Option<Deques>, paused: bool, requeued: Job): (Option<Deques>, StepResult)
  {
    if ds.None? then (ds, Terminated)
    else
      match GetNextJob(ds.value, paused)
      case PauseObject => (ds, Paused)
      case NoJob => (ds, Waiting)
      case Popped(job, i) =>
        var rest := PopFrom(ds.value, i);
        match job
        case EndMarkerShort => (Some(rest), Crashed)
        case EndMarker =>
          if JobCount(rest) == 0 then (Some(rest), Exited)
          else (Some(AppendLeft(rest, |rest| - 1, requeued)), Requeued)
        case Call(_, _, _, _) => (Some(rest), Run(job))
  }

  /** The worker turn as the END handling evidently intends it: the same END goes back. */
  function WorkerStep(ds: Option<Deques>, paused: bool): (Option<Deques>, StepResult)
  {
    WorkerStepWith(ds, paused, EndMarker)
  }

  /** The worker turn as written: a five-field END tuple goes back. */
  function WorkerStepAsWritten(ds: Option<Deques>, paused: bool): (Option<Deques>, StepResult)
  {
    WorkerStepWith(ds, paused, EndMarkerShort)
  }

  /** A worker turn never changes how many deques there are, and a run job leaves the queue. */
  lemma WorkerStepShape(ds: Option<Deques>, paused: bool, requeued: Job)
    ensures var (ds', r) := WorkerStepWith(ds, paused, requeued);
            (ds'.Some? <==> ds.Some?)
            && (ds.Some? ==> |ds'.value| == |ds.value|)
            && (r.Run? ==> r.job.Call? && JobCount(ds'.value) == JobCount(ds.value) - 1)
            && (r.Requeued? ==> JobCount(ds'.value) == JobCount(ds.value))
            && (r.Exited? ==> JobCount(ds'.value) == 0)
  {
    if ds.Some? && !paused && JobCount(ds.value) > 0 {
      var n := GetNextJob(ds.value, false);
      if n.job.Call? {
        WorkerStepRuns(ds.value, requeued);
      } else if n.job == EndMarker && JobCount(ds.value) == 1 {
        WorkerStepExits(ds.value, requeued);
      } else if n.job == EndMarker {
        WorkerStepRequeues(ds.value, requeued);
      }
    }
  }

  // ---------------------------------------------------------------------
  // A soft end drains the queue
  // ---------------------------------------------------------------------

  function LastDeque(ds: Deques): seq<Job>
    requires |ds| > 0
  {
    ds[|ds| - 1]
  }

  /**
   * The queue after one soft `end`: exactly one END, in the last deque, and
   * no five-field END anywhere.
   */
  predicate SoftEnding(ds: Deques)
  {
    && |ds| > 0
    && (forall k :: 0 <= k < |ds| ==> EndMarkerShort !in ds[k])
    && (forall k :: 0 <= k < |ds| - 1 ==> EndMarker !in ds[k])
    && multiset(LastDeque(ds))[EndMarker] == 1
  }

  /** Each job other than END is worth two; one more while END is not at the far left. */
  function DrainMeasure(ds: Deques): nat
    requires |ds| > 0
  {
    2 * JobCount(ds) + (if LastDeque(ds) != [] && LastDeque(ds)[0] == EndMarker then 0 else 1)
  }

  /** On a soft-ending queue the worker takes a job or END, and END only from the last deque. */
  lemma SoftEndNext(ds: Deques)
    requires SoftEnding(ds)
    ensures JobCount(ds) > 0
    ensures var n := GetNextJob(ds, false);
            n.job != EndMarkerShort && (n.job == EndMarker ==> n.from == |ds| - 1)
  {
    assert EndMarker in LastDeque(ds);
    AllEmptyCountsZero(ds);
    var n := GetNextJob(ds, false);
    assert n.job in ds[n.from];
  }

  /** Taking a job (not END) keeps the queue soft-ending and lowers the measure. */
  lemma SoftEndRun(ds: Deques, i: nat)
    requires SoftEnding(ds) && i < |ds| && ds[i] != []
    requires ds[i][|ds[i]| - 1].Call?
    ensures SoftEnding(PopFrom(ds, i))
    ensures DrainMeasure(PopFrom(ds, i)) < DrainMeasure(ds)
  {
    var d := ds[i];
    var ds' := PopFrom(ds, i);
    assert ds'[i] == d[..|d| - 1];
    assert forall x :: x in d[..|d| - 1] ==> x in d;
    forall k | 0 <= k < |ds'| ensures EndMarkerShort !in ds'[k] && (k < |ds| - 1 ==> EndMarker !in ds'[k]) {
      if k != i {
        assert ds'[k] == ds[k];
      }
    }
    if i == |ds| - 1 {
      assert d == d[..|d| - 1] + [d[|d| - 1]];
      assert multiset(d) == multiset(d[..|d| - 1]) + multiset{d[|d| - 1]};
    } else {
      assert LastDeque(ds') == LastDeque(ds);
    }
  }

  /** The last deque after END is taken from its right end and put back at its left end. */
  lemma RequeueShape(d: seq<Job>)
    requires |d| >= 2 && d[|d| - 1] == EndMarker
    requires multiset(d)[EndMarker] == 1 && EndMarkerShort !in d
    ensures d[0] != EndMarker
    ensures multiset([EndMarker] + d[..|d| - 1]) == multiset(d)
    ensures EndMarkerShort !in [EndMarker] + d[..|d| - 1]
  {
    assert d == d[..|d| - 1] + [EndMarker];
    assert multiset(d) == multiset(d[..|d| - 1]) + multiset{EndMarker};
    assert d[0] in d[..|d| - 1];
    assert forall x :: x in d[..|d| - 1] ==> x in d;
  }

  /** Taking END while other jobs remain puts END back at the far left of the last deque. */
  lemma SoftEndRequeue(ds: Deques)
    requires SoftEnding(ds)
    requires |LastDeque(ds)| >= 2 && LastDeque(ds)[|LastDeque(ds)| - 1] == EndMarker
    ensures var ds' := AppendLeft(PopFrom(ds, |ds| - 1), |ds| - 1, EndMarker);
            SoftEnding(ds') && DrainMeasure(ds') < DrainMeasure(ds)
            && multiset(Flat(ds')) == multiset(Flat(ds))
  {
    RequeueKeepsSoftEnding(ds);
    RequeueLowersMeasure(ds);
  }

  lemma RequeueKeepsSoftEnding(ds: Deques)
    requires SoftEnding(ds)
    requires |LastDeque(ds)| >= 2 && LastDeque(ds)[|LastDeque(ds)| - 1] == EndMarker
    ensures SoftEnding(AppendLeft(PopFrom(ds, |ds| - 1), |ds| - 1, EndMarker))
  {
    var last := |ds| - 1;
    RequeueShape(ds[last]);
    SoftEndingReplaceLast(ds, AppendLeft(PopFrom(ds, last), last, EndMarker));
  }

  lemma RequeueLowersMeasure(ds: Deques)
    requires SoftEnding(ds)
    requires |LastDeque(ds)| >= 2 && LastDeque(ds)[|LastDeque(ds)| - 1] == EndMarker
    ensures DrainMeasure(AppendLeft(PopFrom(ds, |ds| - 1), |ds| - 1, EndMarker)) < DrainMeasure(ds)
  {
    RequeueShape(ds[|ds| - 1]);
  }

  /** When only the last deque can hold jobs, the job count is its length. */
  lemma {:induction false} JobCountOnlyLast(ds: Deques)
    requires |ds| > 0 && forall k :: 0 <= k < |ds| - 1 ==> ds[k] == []
    ensures JobCount(ds) == |LastDeque(ds)|
  {
    if |ds| > 1 {
      assert ds[0] == [];
      assert forall k :: 0 <= k < |ds[1..]| - 1 ==> ds[1..][k] == ds[k + 1];
      JobCountOnlyLast(ds[1..]);
    }
  }

  /**
   * A queue that differs from a soft-ending one only in a last deque with a
   * single END and no five-field END is soft-ending too.
   */
  lemma SoftEndingReplaceLast(ds: Deques, ds': Deques)
    requires SoftEnding(ds) && |ds'| == |ds|
    requires forall k :: 0 <= k < |ds| - 1 ==> ds'[k] == ds[k]
    requires EndMarkerShort !in LastDeque(ds') && multiset(LastDeque(ds'))[EndMarker] == 1
    ensures SoftEnding(ds')
  {
  }

  /** Taking END as the last job means END was all that was queued. */
  lemma SoftEndExit(ds: Deques, i: nat)
    requires i < |ds| && ds[i] != [] && ds[i][|ds[i]| - 1] == EndMarker
    requires JobCount(PopFrom(ds, i)) == 0
    ensures multiset(Flat(ds)) == multiset{EndMarker}
  {
    var rest := PopFrom(ds, i);
    JobCountIsFlatLength(rest);
    FlatHasDeque(ds, i);
    assert multiset(Flat(rest)) == multiset{};
  }

  /** The worker turn on a soft-ending queue when the next job is not END. */
  lemma SoftEndStepRun(ds: Deques)
    requires SoftEnding(ds)
    requires GetNextJob(ds, false).job != EndMarker
    ensures var st := WorkerStep(Some(ds), false);
            && st.0.Some? && st.1.Run? && st.1.job.Call? && SoftEnding(st.0.value)
            && DrainMeasure(st.0.value) < DrainMeasure(ds)
            && multiset(Flat(st.0.value)) + multiset{st.1.job} == multiset(Flat(ds))
  {
    SoftEndNext(ds);
    var n := GetNextJob(ds, false);
    assert n.job.Call?;
    assert WorkerStep(Some(ds), false) == (Some(PopFrom(ds, n.from)), Run(n.job)) by {
      WorkerStepRuns(ds, EndMarker);
    }
    SoftEndRun(ds, n.from);
  }

  /** The worker turn that takes a call runs it. */
  lemma WorkerStepRuns(ds: Deques, requeued: Job)
    requires GetNextJob(ds, false).Popped? && GetNextJob(ds, false).job.Call?
    ensures var n := GetNextJob(ds, false);
            WorkerStepWith(Some(ds), false, requeued) == (Some(PopFrom(ds, n.from)), Run(n.job))
  {
  }

  /** The worker turn that takes END as the only job exits. */
  lemma WorkerStepExits(ds: Deques, requeued: Job)
    requires GetNextJob(ds, false).Popped? && GetNextJob(ds, false).job == EndMarker
    requires JobCount(ds) == 1
    ensures var n := GetNextJob(ds, false);
            WorkerStepWith(Some(ds), false, requeued) == (Some(PopFrom(ds, n.from)), Exited)
  {
  }

  /** The worker turn on a soft-ending queue when the next job is END and others remain. */
  lemma SoftEndStepRequeue(ds: Deques)
    requires SoftEnding(ds)
    requires GetNextJob(ds, false).job == EndMarker
    requires JobCount(ds) > 1
    ensures var st := WorkerStep(Some(ds), false);
            && st.0.Some? && st.1.Requeued? && SoftEnding(st.0.value)
            && DrainMeasure(st.0.value) < DrainMeasure(ds)
            && multiset(Flat(st.0.value)) == multiset(Flat(ds))
  {
    SoftEndTakesEnd(ds);
    var ds' := AppendLeft(PopFrom(ds, |ds| - 1), |ds| - 1, EndMarker);
    assert WorkerStep(Some(ds), false) == (Some(ds'), Requeued) by {
      WorkerStepRequeues(ds, EndMarker);
    }
    assert SoftEnding(ds') && DrainMeasure(ds') < DrainMeasure(ds) && multiset(Flat(ds')) == multiset(Flat(ds)) by {
      JobCountOnlyLast(ds);
      SoftEndRequeue(ds);
    }
  }

  /** When the worker takes END from a soft-ending queue, it takes it from the last deque, all others being empty. */
  lemma SoftEndTakesEnd(ds: Deques)
    requires SoftEnding(ds)
    requires GetNextJob(ds, false).job == EndMarker
    ensures GetNextJob(ds, false).Popped? && GetNextJob(ds, false).from == |ds| - 1
    ensures LastDeque(ds) != [] && LastDeque(ds)[|LastDeque(ds)| - 1] == EndMarker
    ensures forall k :: 0 <= k < |ds| - 1 ==> ds[k] == []
  {
    SoftEndNext(ds);
  }

  /** The worker turn that takes END while other jobs remain puts `requeued` back. */
  lemma WorkerStepRequeues(ds: Deques, requeued: Job)
    requires GetNextJob(ds, false).Popped? && GetNextJob(ds, false).job == EndMarker
    requires JobCount(ds) > 1
    ensures var n := GetNextJob(ds, false);
            WorkerStepWith(Some(ds), false, requeued)
            == (Some(AppendLeft(PopFrom(ds, n.from), |ds| - 1, requeued)), Requeued)
  {
  }

  /** The worker turn on a soft-ending queue when END is the only job left. */
  lemma SoftEndStepExit(ds: Deques)
    requires SoftEnding(ds)
    requires GetNextJob(ds, false).job == EndMarker
    requires JobCount(ds) == 1
    ensures var st := WorkerStep(Some(ds), false);
            st.0.Some? && st.1.Exited? && multiset(Flat(ds)) == multiset{EndMarker}
  {
    SoftEndTakesEnd(ds);
    var n := GetNextJob(ds, false);
    assert WorkerStep(Some(ds), false) == (Some(PopFrom(ds, n.from)), Exited) by {
      WorkerStepExits(ds, EndMarker);
    }
    SoftEndExit(ds, n.from);
  }

  /** One intended worker turn on a soft-ending queue runs a job, re-queues END or exits. */
  lemma SoftEndStep(ds: Deques)
    requires SoftEnding(ds)
    ensures var st := WorkerStep(Some(ds), false);
            && st.0.Some?
            && (st.1.Run? || st.1.Requeued? || st.1.Exited?)
            && (st.1.Run? ==> st.1.job.Call? && SoftEnding(st.0.value)
                              && DrainMeasure(st.0.value) < DrainMeasure(ds)
                              && multiset(Flat(st.0.value)) + multiset{st.1.job} == multiset(Flat(ds)))
            && (st.1.Requeued? ==> SoftEnding(st.0.value)
                                   && DrainMeasure(st.0.value) < DrainMeasure(ds)
                                   && multiset(Flat(st.0.value)) == multiset(Flat(ds)))
            && (st.1.Exited? ==> multiset(Flat(ds)) == multiset{EndMarker})
  {
    SoftEndNext(ds);
    if GetNextJob(ds, false).job == EndMarker {
      if JobCount(ds) == 1 {
        SoftEndStepExit(ds);
      } else {
        SoftEndStepRequeue(ds);
      }
    } else {
      SoftEndStepRun(ds);
    }
  }

  /**
   * The jobs the worker runs, in order, from a soft-ending queue to which
   * nothing more is submitted, until it exits.
   */
  function DrainTrace(ds: Deques): seq<Job>
    requires SoftEnding(ds)
    decreases DrainMeasure(ds)
  {
    SoftEndStep(ds);
    var st := WorkerStep(Some(ds), false);
    if st.1.Run? then [st.1.job] + DrainTrace(st.0.value)
    else if st.1.Requeued? then DrainTrace(st.0.value)
    else []
  }

  /**
   * After a soft end with nothing more submitted, the worker runs every
   * queued job exactly once, runs nothing else, and then exits.
   */
  lemma {:induction false} SoftEndRunsEveryJob(ds: Deques)
    requires SoftEnding(ds)
    ensures multiset(DrainTrace(ds)) + multiset{EndMarker} == multiset(Flat(ds))
    decreases DrainMeasure(ds)
  {
    SoftEndStep(ds);
    var st := WorkerStep(Some(ds), false);
    if st.1.Run? {
      var t := DrainTrace(st.0.value);
      SoftEndRunsEveryJob(st.0.value);
      assert DrainTrace(ds) == [st.1.job] + t;
      assert multiset([st.1.job] + t) == multiset{st.1.job} + multiset(t);
    } else if st.1.Requeued? {
      SoftEndRunsEveryJob(st.0.value);
      assert DrainTrace(ds) == DrainTrace(st.0.value);
    } else {
      assert DrainTrace(ds) == [];
    }
  }

  /** The worker only ever runs calls while draining, never a marker. */
  lemma {:induction false} SoftEndRunsOnlyCalls(ds: Deques)
    requires SoftEnding(ds)
    ensures forall j :: j in DrainTrace(ds) ==> j.Call?
    decreases DrainMeasure(ds)
  {
    SoftEndStep(ds);
    var st := WorkerStep(Some(ds), false);
    if st.1.Run? {
      SoftEndRunsOnlyCalls(st.0.value);
      assert DrainTrace(ds) == [st.1.job] + DrainTrace(st.0.value);
    } else if st.1.Requeued? {
      SoftEndRunsOnlyCalls(st.0.value);
      assert DrainTrace(ds) == DrainTrace(st.0.value);
    } else {
      assert DrainTrace(ds) == [];
    }
  }

  // ---------------------------------------------------------------------
  // Each deque is first in, first out
  // ---------------------------------------------------------------------

  /** The deque after `appendleft` of each of `js`, in order, onto `d`. */
  function AppendLeftAll(d: seq<Job>, js: seq<Job>): seq<Job>
    decreases |js|
  {
    if js == [] then d else AppendLeftAll([js[0]] + d, js[1..])
  }

  function Reverse(js: seq<Job>): (r: seq<Job>)
  {
    if js == [] then [] else Reverse(js[1..]) + [js[0]]
  }

  lemma {:induction false} AppendLeftAllReverses(d: seq<Job>, js: seq<Job>)
    ensures AppendLeftAll(d, js) == Reverse(js) + d
    decreases |js|
  {
    if js != [] {
      AppendLeftAllReverses([js[0]] + d, js[1..]);
      assert Reverse(js[1..]) + ([js[0]] + d) == (Reverse(js[1..]) + [js[0]]) + d;
    }
  }

  lemma {:induction false} ReverseKeepsMultiset(js: seq<Job>)
    ensures multiset(Reverse(js)) == multiset(js)
  {
    if js != [] {
      ReverseKeepsMultiset(js[1..]);
      assert js == [js[0]] + js[1..];
    }
  }

  /**
   * Jobs submitted with `appendleft` to a single deque, followed by a soft
   * end, are run by the worker in the order they were submitted.
   */
  lemma {:induction false} SingleDequeIsFifo(js: seq<Job>)
    requires forall k :: 0 <= k < |js| ==> js[k].Call?
    ensures SoftEnding([AppendLeftAll([], js + [EndMarker])])
    ensures DrainTrace([AppendLeftAll([], js + [EndMarker])]) == js
  {
    var empty: seq<Job> := [];
    AppendLeftAllReverses(empty, js + [EndMarker]);
    ReverseAppend(js);
    assert AppendLeftAll(empty, js + [EndMarker]) == [EndMarker] + Reverse(js);
    DrainSingle(js);
  }

  lemma {:induction false} ReverseAppend(js: seq<Job>)
    ensures Reverse(js + [EndMarker]) == [EndMarker] + Reverse(js)
  {
    if js != [] {
      assert (js + [EndMarker])[1..] == js[1..] + [EndMarker];
      ReverseAppend(js[1..]);
    } else {
      assert Reverse([EndMarker]) == Reverse([]) + [EndMarker];
    }
  }

  /** A single deque holding END at its left and calls after it is soft-ending. */
  lemma SingleSoftEnding(js: seq<Job>)
    requires forall k :: 0 <= k < |js| ==> js[k].Call?
    ensures SoftEnding([[EndMarker] + Reverse(js)])
  {
    var d := [EndMarker] + Reverse(js);
    assert multiset(js)[EndMarker] == 0 && multiset(js)[EndMarkerShort] == 0 by {
      assert EndMarker !in js && EndMarkerShort !in js by {
        forall k | 0 <= k < |js| ensures js[k] != EndMarker && js[k] != EndMarkerShort { }
      }
    }
    assert multiset(d) == multiset{EndMarker} + multiset(js) by {
      ReverseKeepsMultiset(js);
    }
    SoftEndingOne(d);
  }

  lemma SoftEndingOne(d: seq<Job>)
    requires multiset(d)[EndMarkerShort] == 0 && multiset(d)[EndMarker] == 1
    ensures SoftEnding([d])
  {
    assert [d][0] == d;
  }

  /** The worker takes the oldest call from a single soft-ending deque. */
  lemma SingleStep(js: seq<Job>)
    requires js != [] && js[0].Call?
    ensures WorkerStep(Some([[EndMarker] + Reverse(js)]), false)
            == (Some([[EndMarker] + Reverse(js[1..])]), Run(js[0]))
  {
    var d := [EndMarker] + Reverse(js);
    assert d == [EndMarker] + Reverse(js[1..]) + [js[0]];
    var ds := [d];
    assert JobCount(ds) > 0;
    assert GetNextJob(ds, false) == Popped(js[0], 0);
    assert PopFrom(ds, 0) == [[EndMarker] + Reverse(js[1..])];
  }

  /** A single deque holding only END: the worker exits. */
  lemma SingleExit(js: seq<Job>)
    requires js == []
    ensures WorkerStep(Some([[EndMarker] + Reverse(js)]), false).1 == Exited
  {
    var ds := [[EndMarker] + Reverse(js)];
    assert ds[0] == [EndMarker];
    assert JobCount(ds) == 1;
    assert GetNextJob(ds, false) == Popped(EndMarker, 0);
    assert JobCount(PopFrom(ds, 0)) == 0;
  }

  lemma {:induction false} DrainSingle(js: seq<Job>)
    requires forall k :: 0 <= k < |js| ==> js[k].Call?
    ensures SoftEnding([[EndMarker] + Reverse(js)])
    ensures DrainTrace([[EndMarker] + Reverse(js)]) == js
  {
    SingleSoftEnding(js);
    if js != [] {
      var rest := js[1..];
      assert forall k :: 0 <= k < |rest| ==> rest[k].Call? by {
        forall k | 0 <= k < |rest| ensures rest[k].Call? {
          assert rest[k] == js[k + 1];
        }
      }
      DrainSingle(rest);
      SingleStep(js);
      DrainRun([[EndMarker] + Reverse(js)], [[EndMarker] + Reverse(rest)], js[0]);
    } else {
      SingleExit(js);
      DrainExit([[EndMarker] + Reverse(js)]);
    }
  }

  /** A step on which the worker exits ends the drain trace. */
  lemma DrainExit(ds: Deques)
    requires SoftEnding(ds)
    requires WorkerStep(Some(ds), false).1 == Exited
    ensures DrainTrace(ds) == []
  {
  }

  /** A step that runs a job puts that job first in the drain trace. */
  lemma DrainRun(ds: Deques, ds': Deques, job: Job)
    requires SoftEnding(ds) && SoftEnding(ds')
    requires WorkerStep(Some(ds), false) == (Some(ds'), Run(job))
    ensures DrainTrace(ds) == [job] + DrainTrace(ds')
  {
  }

  // ---------------------------------------------------------------------
  // The re-queued END tuple
  // ---------------------------------------------------------------------

  /** The worker on a single deque takes its rightmost job. */
  lemma OneDeque(d: seq<Job>)
    requires d != []
    ensures JobCount([d]) == |d|
    ensures GetNextJob([d], false) == Popped(d[|d| - 1], 0)
    ensures PopFrom([d], 0) == [d[..|d| - 1]]
  {
    assert [d][1..] == [];
  }

  /** On a single deque, END with other jobs beside it goes back to the far left. */
  lemma OneDequeRequeue(d: seq<Job>, requeued: Job)
    requires |d| >= 2 && d[|d| - 1] == EndMarker
    ensures WorkerStepWith(Some([d]), false, requeued) == (Some([[requeued] + d[..|d| - 1]]), Requeued)
  {
    OneDeque(d);
    WorkerStepRequeues([d], requeued);
    var r := AppendLeft([d[..|d| - 1]], 0, requeued);
    assert r == [[requeued] + d[..|d| - 1]] by {
      assert |r| == 1 && r[0] == [requeued] + d[..|d| - 1];
    }
  }

  /** On a single deque, a call at the right end is run. */
  lemma OneDequeRun(d: seq<Job>, requeued: Job)
    requires d != [] && d[|d| - 1].Call?
    ensures WorkerStepWith(Some([d]), false, requeued) == (Some([d[..|d| - 1]]), Run(d[|d| - 1]))
  {
    OneDeque(d);
  }

  /** On a single deque, the five-field END at the right end kills the worker. */
  lemma OneDequeCrash(d: seq<Job>, requeued: Job)
    requires d != [] && d[|d| - 1] == EndMarkerShort
    ensures WorkerStepWith(Some([d]), false, requeued) == (Some([d[..|d| - 1]]), Crashed)
  {
    OneDeque(d);
  }

  /** On a single deque, a lone END lets the worker exit. */
  lemma OneDequeExit(d: seq<Job>, requeued: Job)
    requires d == [EndMarker]
    ensures WorkerStepWith(Some([d]), false, requeued).1 == Exited
  {
    OneDeque(d);
    assert [d[..0]][1..] == [];
    assert JobCount([d[..0]]) == 0;
  }

  /**
   * As written: job `k2` was queued after a soft end. Draining END
   * re-queues the five-field tuple; `k2` runs; a job `k3` submitted now
   * lands left of that tuple, and the worker dies on the tuple's unpack
   * with `k3` never run.
   */
  lemma RequeuedEndAsWrittenCrashes(k2: Job, k3: Job)
    requires k2.Call? && k3.Call?
    ensures WorkerStepAsWritten(Some([[k2, EndMarker]]), false) == (Some([[EndMarkerShort, k2]]), Requeued)
    ensures WorkerStepAsWritten(Some([[EndMarkerShort, k2]]), false) == (Some([[EndMarkerShort]]), Run(k2))
    ensures WorkerStepAsWritten(Some([[k3, EndMarkerShort]]), false) == (Some([[k3]]), Crashed)
  {
    RequeueStep(k2, EndMarkerShort);
    RunAfterRequeue(k2, EndMarkerShort);
    OneDequeCrash([k3, EndMarkerShort], EndMarkerShort);
    assert [k3, EndMarkerShort][..1] == [k3];
  }

  /** With `k2` queued after END, taking END puts `requeued` back left of `k2`. */
  lemma RequeueStep(k2: Job, requeued: Job)
    requires k2.Call?
    ensures WorkerStepWith(Some([[k2, EndMarker]]), false, requeued) == (Some([[requeued, k2]]), Requeued)
  {
    OneDequeRequeue([k2, EndMarker], requeued);
    assert [requeued] + [k2, EndMarker][..1] == [requeued, k2];
  }

  /** Then `k2` is run, leaving the re-queued tuple alone in the deque. */
  lemma RunAfterRequeue(k2: Job, requeued: Job)
    requires k2.Call?
    ensures WorkerStepWith(Some([[requeued, k2]]), false, requeued) == (Some([[requeued]]), Run(k2))
  {
    OneDequeRun([requeued, k2], requeued);
    assert [requeued, k2][..1] == [requeued];
  }

  /**
   * Intended: the same END goes back, so after `k2` has run the queue is a
   * lone END again (on which the worker exits, OneDequeExit), and a job
   * submitted meanwhile keeps the queue soft-ending (SubmitKeepsSoftEnding),
   * so it is run as well (SoftEndRunsEveryJob).
   */
  lemma RequeuedEndRunsQueuedJob(k2: Job)
    requires k2.Call?
    ensures WorkerStep(Some([[k2, EndMarker]]), false) == (Some([[EndMarker, k2]]), Requeued)
    ensures WorkerStep(Some([[EndMarker, k2]]), false) == (Some([[EndMarker]]), Run(k2))
  {
    RequeueStep(k2, EndMarker);
    RunAfterRequeue(k2, EndMarker);
  }

  /** Submitting a call while a soft end is pending keeps exactly one END, in the last deque. */
  lemma SubmitKeepsSoftEnding(ds: Deques, i: nat, job: Job)
    requires SoftEnding(ds) && i < |ds| && job.Call?
    ensures SoftEnding(AppendLeft(ds, i, job))
  {
    var ds' := AppendLeft(ds, i, job);
    assert multiset([job] + ds[i]) == multiset{job} + multiset(ds[i]);
    forall k | 0 <= k < |ds'| ensures EndMarkerShort !in ds'[k] && (k < |ds| - 1 ==> EndMarker !in ds'[k]) {
      if k != i {
        assert ds'[k] == ds[k];
      }
    }
  }
}

=== FILE: merge_sort.dfy ===
/**
 * iterMergesort: an n-way merge of lists that are each sorted by a key.
 * The source keeps the heads of the lists in a heap ordered by
 * (key of head, list index); here the smallest head is found by a scan
 * with the same order, ties going to the list with the lower index.
 */
module MergeSort {

  /** Sorted by `key`, ascending. */
  predicate SortedBy<T>(s: seq<T>, key: T -> int)
  {
    forall i, j :: 0 <= i < j < |s| ==> key(s[i]) <= key(s[j])
  }

  /** Every list is sorted by `key`. */
  predicate AllSortedBy<T>(lists: seq<seq<T>>, key: T -> int)
  {
    forall k :: 0 <= k < |lists| ==> SortedBy(lists[k], key)
  }

  function TotalLen<T>(lists: seq<seq<T>>): nat
  {
    if |lists| == 0 then 0 else |lists[0]| + TotalLen(lists[1..])
  }

  /** All items of all lists, list after list. */
  function Flatten<T>(lists: seq<seq<T>>): seq<T>
  {
    if |lists| == 0 then [] else lists[0] + Flatten(lists[1..])
  }

  /**
   * The index of the list whose head the heap yields next: the smallest
   * head key, the lowest list index among equal keys; -1 when all lists
   * are empty.
   */
  function MinHead<T>(lists: seq<seq<T>>, key: T -> int): (j: int)
    ensures -1 <= j < |lists|
    ensures j == -1 <==> forall k :: 0 <= k < |lists| ==> lists[k] == []
    ensures j >= 0 ==> lists[j] != []
                       && forall k :: 0 <= k < |lists| && lists[k] != [] ==>
                            key(lists[j][0]) < key(lists[k][0])
                            || (key(lists[j][0]) == key(lists[k][0]) && j <= k)
  {
    if |lists| == 0 then -1
    else
      var init := lists[..|lists| - 1];
      var last := lists[|lists| - 1];
      var j := MinHead(init, key);
      assert forall k :: 0 <= k < |init| ==> init[k] == lists[k];
      if last == [] then j
      else if j == -1 then |lists| - 1
      else if key(last[0]) < key(lists[j][0]) then |lists| - 1
      else j
  }

  /** Dropping the head of a non-empty list leaves one item fewer. */
  lemma {:induction false} TotalLenTail<T>(lists: seq<seq<T>>, j: nat)
    requires j < |lists| && lists[j] != []
    ensures TotalLen(lists[j := lists[j][1..]]) == TotalLen(lists) - 1
  {
    if j == 0 {
      assert lists[j := lists[j][1..]][1..] == lists[1..];
    } else {
      assert lists[j := lists[j][1..]][1..] == lists[1..][j - 1 := lists[j][1..]];
      TotalLenTail(lists[1..], j - 1);
    }
  }

  /** Dropping the head of a non-empty list removes exactly that item from the items of all lists. */
  lemma {:induction false} FlattenTail<T>(lists: seq<seq<T>>, j: nat)
    requires j < |lists| && lists[j] != []
    ensures multiset(Flatten(lists)) == multiset(Flatten(lists[j := lists[j][1..]])) + multiset{lists[j][0]}
  {
    var l' := lists[j := lists[j][1..]];
    if j == 0 {
      assert l'[1..] == lists[1..];
      assert lists[0] == [lists[0][0]] + lists[0][1..];
    } else {
      assert l'[1..] == lists[1..][j - 1 := lists[j][1..]];
      FlattenTail(lists[1..], j - 1);
      assert Flatten(l') == lists[0] + Flatten(l'[1..]);
      assert multiset(Flatten(l')) == multiset(lists[0]) + multiset(Flatten(l'[1..]));
      assert multiset(Flatten(lists)) == multiset(lists[0]) + multiset(Flatten(lists[1..]));
    }
  }

  /** The merged sequence the generator yields. */
  function Merge<T>(lists: seq<seq<T>>, key: T -> int): seq<T>
    decreases TotalLen(lists)
  {
    var j := MinHead(lists, key);
    if j == -1 then []
    else
      TotalLenTail(lists, j);
      [lists[j][0]] + Merge(lists[j := lists[j][1..]], key)
  }

  /**
   * Yielding the smallest head moves it from what is left to merge to what
   * was yielded, and shrinks what is left.
   */
  lemma TakeSmallestHead<T>(out: seq<T>, lists: seq<seq<T>>, key: T -> int)
    requires MinHead(lists, key) != -1
    ensures var j := MinHead(lists, key);
            var rest := lists[j := lists[j][1..]];
            (out + [lists[j][0]]) + Merge(rest, key) == out + Merge(lists, key) &&
            TotalLen(rest) < TotalLen(lists)
  {
    var j := MinHead(lists, key);
    TotalLenTail(lists, j);
    assert Merge(lists, key) == [lists[j][0]] + Merge(lists[j := lists[j][1..]], key);
  }

  /** The merge yields every item of every list exactly once. */
  lemma {:induction false} MergeIsPermutation<T>(lists: seq<seq<T>>, key: T -> int)
    ensures multiset(Merge(lists, key)) == multiset(Flatten(lists))
    decreases TotalLen(lists)
  {
    var j := MinHead(lists, key);
    if j == -1 {
      AllEmptyFlatten(lists);
    } else {
      var h := lists[j][0];
      var rest := lists[j := lists[j][1..]];
      TotalLenTail(lists, j);
      MergeIsPermutation(rest, key);
      FlattenTail(lists, j);
      assert Merge(lists, key) == [h] + Merge(rest, key);
    }
  }

  lemma {:induction false} AllEmptyFlatten<T>(lists: seq<seq<T>>)
    requires forall k :: 0 <= k < |lists| ==> lists[k] == []
    ensures Flatten(lists) == []
  {
    if |lists| > 0 {
      AllEmptyFlatten(lists[1..]);
    }
  }

  /** Every item of `Flatten(lists)` sits in some list. */
  lemma {:induction false} FlattenMember<T>(lists: seq<seq<T>>, x: T)
    requires x in Flatten(lists)
    ensures exists j, i :: 0 <= j < |lists| && 0 <= i < |lists[j]| && lists[j][i] == x
  {
    if x in lists[0] {
      var i :| 0 <= i < |lists[0]| && lists[0][i] == x;
      assert lists[0][i] == x;
    } else {
      FlattenMember(lists[1..], x);
      var j, i :| 0 <= j < |lists[1..]| && 0 <= i < |lists[1..][j]| && lists[1..][j][i] == x;
      assert lists[j + 1][i] == x;
    }
  }

  /** The smallest head is no larger than any item still in the lists. */
  lemma MinHeadIsMinimum<T>(lists: seq<seq<T>>, key: T -> int, x: T)
    requires AllSortedBy(lists, key)
    requires MinHead(lists, key) >= 0
    requires x in multiset(Flatten(lists))
    ensures key(lists[MinHead(lists, key)][0]) <= key(x)
  {
    FlattenMember(lists, x);
    var k, i :| 0 <= k < |lists| && 0 <= i < |lists[k]| && lists[k][i] == x;
    assert key(lists[k][0]) <= key(lists[k][i]);
  }

  /** The remaining lists after the smallest head is taken are still sorted. */
  lemma TailsStaySorted<T>(lists: seq<seq<T>>, key: T -> int, j: nat)
    requires AllSortedBy(lists, key)
    requires j < |lists| && lists[j] != []
    ensures AllSortedBy(lists[j := lists[j][1..]], key)
  {
    assert SortedBy(lists[j][1..], key);
  }

  /** Everything merged after the smallest head has a key no smaller than it. */
  lemma HeadBoundsRest<T>(lists: seq<seq<T>>, key: T -> int, j: nat, m: seq<T>)
    requires AllSortedBy(lists, key)
    requires j == MinHead(lists, key)
    requires m == Merge(lists[j := lists[j][1..]], key)
    ensures forall i :: 0 <= i < |m| ==> key(lists[j][0]) <= key(m[i])
  {
    var rest := lists[j := lists[j][1..]];
    TotalLenTail(lists, j);
    MergeIsPermutation(rest, key);
    FlattenTail(lists, j);
    forall i | 0 <= i < |m| ensures key(lists[j][0]) <= key(m[i]) {
      assert m[i] in multiset(m);
      MinHeadIsMinimum(lists, key, m[i]);
    }
  }

  /** Merging lists that are each sorted by the key gives a sequence sorted by the key. */
  lemma {:induction false} MergeIsSorted<T>(lists: seq<seq<T>>, key: T -> int)
    requires AllSortedBy(lists, key)
    ensures SortedBy(Merge(lists, key), key)
    decreases TotalLen(lists)
  {
    var j := MinHead(lists, key);
    if j >= 0 {
      var rest := lists[j := lists[j][1..]];
      TotalLenTail(lists, j);
      TailsStaySorted(lists, key, j);
      MergeIsSorted(rest, key);
      var m := Merge(rest, key);
      HeadBoundsRest(lists, key, j, m);
      assert Merge(lists, key) == [lists[j][0]] + m;
      SortedCons(lists[j][0], m, key);
    }
  }

  /** An item no larger than anything in a sorted sequence can go in front of it. */
  lemma SortedCons<T>(x: T, m: seq<T>, key: T -> int)
    requires SortedBy(m, key)
    requires forall i :: 0 <= i < |m| ==> key(x) <= key(m[i])
    ensures SortedBy([x] + m, key)
  {
    var r := [x] + m;
    forall a, b | 0 <= a < b < |r| ensures key(r[a]) <= key(r[b]) {
      assert r[b] == m[b - 1];
      if a > 0 {
        assert r[a] == m[a - 1];
      }
    }
  }

  // ----- Stability -----

  /**
   * Where each merged item comes from: the list index and the position in
   * that list, `taken[k]` items having been taken from list `k` already.
   * It follows the same choices as `Merge`.
   */
  function MergeOrigin<T>(lists: seq<seq<T>>, key: T -> int, taken: seq<nat>): seq<(nat, nat)>
    requires |taken| == |lists|
    decreases TotalLen(lists)
  {
    var j := MinHead(lists, key);
    if j == -1 then []
    else
      TotalLenTail(lists, j);
      [(j, taken[j])] + MergeOrigin(lists[j := lists[j][1..]], key, taken[j := taken[j] + 1])
  }

  /** Every merged item is the item its origin names, and origins lie in the part not yet taken. */
  lemma {:induction false} OriginNamesItem<T>(lists: seq<seq<T>>, key: T -> int, taken: seq<nat>)
    requires |taken| == |lists|
    ensures var o := MergeOrigin(lists, key, taken);
            var m := Merge(lists, key);
            |o| == |m| &&
            forall a :: 0 <= a < |o| ==>
              o[a].0 < |lists| && taken[o[a].0] <= o[a].1 < taken[o[a].0] + |lists[o[a].0]| &&
              m[a] == lists[o[a].0][o[a].1 - taken[o[a].0]]
    decreases TotalLen(lists)
  {
    var j := MinHead(lists, key);
    if j != -1 {
      var rest := lists[j := lists[j][1..]];
      var taken' := taken[j := taken[j] + 1];
      TotalLenTail(lists, j);
      OriginNamesItem(rest, key, taken');
      var o := MergeOrigin(lists, key, taken);
      var o' := MergeOrigin(rest, key, taken');
      var m := Merge(lists, key);
      var m' := Merge(rest, key);
      assert o == [(j, taken[j])] + o';
      assert m == [lists[j][0]] + m';
      forall a | 0 < a < |o|
        ensures o[a].0 < |lists| && taken[o[a].0] <= o[a].1 < taken[o[a].0] + |lists[o[a].0]|
        ensures m[a] == lists[o[a].0][o[a].1 - taken[o[a].0]]
      {
        assert o[a] == o'[a - 1] && m[a] == m'[a - 1];
        var k := o'[a - 1].0;
        if k == j {
          assert rest[k][o[a].1 - taken'[k]] == lists[j][o[a].1 - taken[j]];
        }
      }
    }
  }

  /** Items of one list come out in the order of that list. */
  lemma {:induction false} OriginKeepsListOrder<T>(lists: seq<seq<T>>, key: T -> int, taken: seq<nat>)
    requires |taken| == |lists|
    ensures var o := MergeOrigin(lists, key, taken);
            forall a, b :: 0 <= a < b < |o| && o[a].0 == o[b].0 ==> o[a].1 < o[b].1
    decreases TotalLen(lists)
  {
    var j := MinHead(lists, key);
    if j != -1 {
      var rest := lists[j := lists[j][1..]];
      var taken' := taken[j := taken[j] + 1];
      TotalLenTail(lists, j);
      OriginKeepsListOrder(rest, key, taken');
      OriginNamesItem(rest, key, taken');
      var o := MergeOrigin(lists, key, taken);
      var o' := MergeOrigin(rest, key, taken');
      assert o == [(j, taken[j])] + o';
      forall a, b | 0 <= a < b < |o| && o[a].0 == o[b].0 ensures o[a].1 < o[b].1 {
        assert o[b] == o'[b - 1];
        if a > 0 {
          assert o[a] == o'[a - 1];
        }
      }
    }
  }

  /** With sorted lists, no item of a list before the one the heap picks has the picked head's key. */
  lemma HeadTieFromLowerList<T>(lists: seq<seq<T>>, key: T -> int, k: nat, i: nat)
    requires AllSortedBy(lists, key)
    requires MinHead(lists, key) >= 0
    requires k < |lists| && i < |lists[k]|
    requires key(lists[k][i]) == key(lists[MinHead(lists, key)][0])
    ensures MinHead(lists, key) <= k
  {
    assert key(lists[k][0]) <= key(lists[k][i]);
  }

  /** `OriginNamesItem` at one position. */
  lemma OriginNamesItemAt<T>(lists: seq<seq<T>>, key: T -> int, taken: seq<nat>, a: nat)
    requires |taken| == |lists| && a < |MergeOrigin(lists, key, taken)|
    ensures var o := MergeOrigin(lists, key, taken);
            a < |Merge(lists, key)| && o[a].0 < |lists| &&
            taken[o[a].0] <= o[a].1 < taken[o[a].0] + |lists[o[a].0]| &&
            Merge(lists, key)[a] == lists[o[a].0][o[a].1 - taken[o[a].0]]
  {
    OriginNamesItem(lists, key, taken);
  }

  /** With sorted lists, a later item `b` with the first item's key comes from that item's list or a later one. */
  lemma HeadTieAt<T>(lists: seq<seq<T>>, key: T -> int, taken: seq<nat>, b: nat)
    requires |taken| == |lists| && AllSortedBy(lists, key) && MinHead(lists, key) >= 0
    requires 0 < b < |MergeOrigin(lists, key, taken)| && b < |Merge(lists, key)|
    requires key(Merge(lists, key)[0]) == key(Merge(lists, key)[b])
    ensures MinHead(lists, key) <= MergeOrigin(lists, key, taken)[b].0
  {
    OriginNamesItemAt(lists, key, taken, 0);
    OriginNamesItemAt(lists, key, taken, b);
    var o := MergeOrigin(lists, key, taken);
    var k := o[b].0;
    HeadTieFromLowerList(lists, key, k, o[b].1 - taken[k]);
  }

  /** With sorted lists, every later item with the first item's key comes from that list or a later one. */
  lemma HeadTies<T>(lists: seq<seq<T>>, key: T -> int, taken: seq<nat>)
    requires |taken| == |lists| && AllSortedBy(lists, key) && MinHead(lists, key) >= 0
    ensures var o := MergeOrigin(lists, key, taken);
            var m := Merge(lists, key);
            |o| == |m| &&
            forall b :: 0 < b < |o| && key(m[0]) == key(m[b]) ==> MinHead(lists, key) <= o[b].0
  {
    OriginNamesItem(lists, key, taken);
    var o := MergeOrigin(lists, key, taken);
    var m := Merge(lists, key);
    forall b | 0 < b < |o| && key(m[0]) == key(m[b]) ensures MinHead(lists, key) <= o[b].0 {
      HeadTieAt(lists, key, taken, b);
    }
  }

  /** An item after the first one is the item one place earlier in the merge of what remains. */
  lemma MergeStepAt<T>(lists: seq<seq<T>>, key: T -> int, taken: seq<nat>, a: nat)
    requires |taken| == |lists| && MinHead(lists, key) >= 0
    requires 0 < a < |MergeOrigin(lists, key, taken)|
    ensures var j := MinHead(lists, key);
            var rest := lists[j := lists[j][1..]];
            var taken' := taken[j := taken[j] + 1];
            a - 1 < |MergeOrigin(rest, key, taken')| &&
            MergeOrigin(lists, key, taken)[a] == MergeOrigin(rest, key, taken')[a - 1] &&
            (a < |Merge(lists, key)| ==> a - 1 < |Merge(rest, key)| && Merge(lists, key)[a] == Merge(rest, key)[a - 1])
  {
    var j := MinHead(lists, key);
    var rest := lists[j := lists[j][1..]];
    var taken' := taken[j := taken[j] + 1];
    TotalLenTail(lists, j);
    assert MergeOrigin(lists, key, taken) == [(j, taken[j])] + MergeOrigin(rest, key, taken');
    assert Merge(lists, key) == [lists[j][0]] + Merge(rest, key);
  }

  /** The tie order between two items after the first one, from the merge of what remains. */
  lemma TailTieAt<T>(lists: seq<seq<T>>, key: T -> int, taken: seq<nat>, a: nat, b: nat)
    requires |taken| == |lists| && AllSortedBy(lists, key) && MinHead(lists, key) >= 0
    requires 0 < a < b < |MergeOrigin(lists, key, taken)| && b < |Merge(lists, key)|
    requires key(Merge(lists, key)[a]) == key(Merge(lists, key)[b])
    ensures MergeOrigin(lists, key, taken)[a].0 <= MergeOrigin(lists, key, taken)[b].0
    decreases TotalLen(lists), 0
  {
    var j := MinHead(lists, key);
    var rest := lists[j := lists[j][1..]];
    var taken' := taken[j := taken[j] + 1];
    TotalLenTail(lists, j);
    TailsStaySorted(lists, key, j);
    MergeStepAt(lists, key, taken, a);
    MergeStepAt(lists, key, taken, b);
    OriginTiesByListIndex(rest, key, taken');
    var m' := Merge(rest, key);
    assert key(m'[a - 1]) == key(m'[b - 1]);
  }

  /** The tie order among the items after the first one, from the merge of what remains. */
  lemma TailTies<T>(lists: seq<seq<T>>, key: T -> int, taken: seq<nat>)
    requires |taken| == |lists| && AllSortedBy(lists, key) && MinHead(lists, key) >= 0
    ensures var o := MergeOrigin(lists, key, taken);
            var m := Merge(lists, key);
            |o| == |m| &&
            forall a, b :: 0 < a < b < |o| && key(m[a]) == key(m[b]) ==> o[a].0 <= o[b].0
    decreases TotalLen(lists), 1
  {
    OriginNamesItem(lists, key, taken);
    var o := MergeOrigin(lists, key, taken);
    var m := Merge(lists, key);
    forall a, b | 0 < a < b < |o| && key(m[a]) == key(m[b]) ensures o[a].0 <= o[b].0 {
      TailTieAt(lists, key, taken, a, b);
    }
  }

  /** With sorted lists, of two items with equal keys the one from the lower list index comes first. */
  lemma {:induction false} OriginTiesByListIndex<T>(lists: seq<seq<T>>, key: T -> int, taken: seq<nat>)
    requires |taken| == |lists| && AllSortedBy(lists, key)
    ensures var o := MergeOrigin(lists, key, taken);
            var m := Merge(lists, key);
            |o| == |m| &&
            forall a, b :: 0 <= a < b < |o| && key(m[a]) == key(m[b]) ==> o[a].0 <= o[b].0
    decreases TotalLen(lists), 2
  {
    var j := MinHead(lists, key);
    if j == -1 {
      assert MergeOrigin(lists, key, taken) == [] && Merge(lists, key) == [];
    } else {
      HeadTies(lists, key, taken);
      TailTies(lists, key, taken);
      TotalLenTail(lists, j);
      assert MergeOrigin(lists, key, taken)[0].0 == j;
    }
  }

  /**
   * The stable merge the generator performs: each item comes from the list
   * and position its origin names, every position of every list exactly
   * once in the order of its list, and, for sorted lists, equal keys come
   * out by ascending list index.
   */
  ghost predicate StableMerge<T>(lists: seq<seq<T>>, key: T -> int, out: seq<T>, o: seq<(nat, nat)>)
  {
    && |o| == |out|
    && (forall a :: 0 <= a < |o| ==> o[a].0 < |lists| && o[a].1 < |lists[o[a].0]| && out[a] == lists[o[a].0][o[a].1])
    && (forall a, b :: 0 <= a < b < |o| && o[a].0 == o[b].0 ==> o[a].1 < o[b].1)
    && (AllSortedBy(lists, key) ==>
          forall a, b :: 0 <= a < b < |o| && key(out[a]) == key(out[b]) ==>
            o[a].0 < o[b].0 || (o[a].0 == o[b].0 && o[a].1 < o[b].1))
  }

  function NoneTaken(n: nat): (r: seq<nat>)
    ensures |r| == n && forall k :: 0 <= k < n ==> r[k] == 0
  {
    seq(n, _ => 0)
  }

  /** From the start, an origin's position is its index in its list. */
  lemma OriginFromStart<T>(lists: seq<seq<T>>, key: T -> int)
    ensures var o := MergeOrigin(lists, key, NoneTaken(|lists|));
            var m := Merge(lists, key);
            |o| == |m| &&
            forall a :: 0 <= a < |o| ==> o[a].0 < |lists| && o[a].1 < |lists[o[a].0]| && m[a] == lists[o[a].0][o[a].1]
  {
    var z := NoneTaken(|lists|);
    var o := MergeOrigin(lists, key, z);
    OriginNamesItem(lists, key, z);
    forall a | 0 <= a < |o| ensures z[o[a].0] == 0 {
    }
  }

  /** With sorted lists, equal keys come out by list index, then by position. */
  lemma TiesInOrigin<T>(lists: seq<seq<T>>, key: T -> int)
    requires AllSortedBy(lists, key)
    ensures var o := MergeOrigin(lists, key, NoneTaken(|lists|));
            var m := Merge(lists, key);
            |o| == |m| &&
            forall a, b :: 0 <= a < b < |o| && key(m[a]) == key(m[b]) ==>
              o[a].0 < o[b].0 || (o[a].0 == o[b].0 && o[a].1 < o[b].1)
  {
    var z := NoneTaken(|lists|);
    OriginKeepsListOrder(lists, key, z);
    OriginTiesByListIndex(lists, key, z);
  }

  /** The merge is stable. */
  lemma MergeIsStable<T>(lists: seq<seq<T>>, key: T -> int)
    ensures StableMerge(lists, key, Merge(lists, key), MergeOrigin(lists, key, NoneTaken(|lists|)))
  {
    OriginFromStart(lists, key);
    OriginKeepsListOrder(lists, key, NoneTaken(|lists|));
    if AllSortedBy(lists, key) {
      TiesInOrigin(lists, key);
    }
  }

  /**
   * iterMergesort, collecting what the generator yields: the loop takes
   * the smallest head and advances that list until every list is used up.
   */
  method IterMergesort<T>(lists: seq<seq<T>>, key: T -> int) returns (out: seq<T>)
    ensures out == Merge(lists, key)
    ensures multiset(out) == multiset(Flatten(lists))
    ensures AllSortedBy(lists, key) ==> SortedBy(out, key)
    ensures StableMerge(lists, key, out, MergeOrigin(lists, key, NoneTaken(|lists|)))
  {
    var heads := lists;
    out := [];
    while MinHead(heads, key) != -1
      invariant out + Merge(heads, key) == Merge(lists, key)
      decreases TotalLen(heads)
    {
      var j := MinHead(heads, key);
      TakeSmallestHead(out, heads, key);
      out := out + [heads[j][0]];
      heads := heads[j := heads[j][1..]];
    }
    MergeIsPermutation(lists, key);
    if AllSortedBy(lists, key) {
      MergeIsSorted(lists, key);
    }
    MergeIsStable(lists, key);
  }
}

=== FILE: page_ast.dfy ===
/**
 * The page syntax tree as the metadata refresh of a wiki page sees it, the
 * format details a tree was parsed with, and the extraction of properties,
 * todos, child relations and match terms from a tree.
 *
 * The tree is flattened into its nodes in document order; the two facts the
 * refresh needs from the nesting are kept as flags: whether a property node
 * sits inside a todo entry and whether a heading is a top-level node.
 */
module PageAsts {
  import opened Wrappers
  import SeqUtils

  /** One node of a page tree. */
  datatype Node =
    | TodoEntry(key: string, delimiter: string, value: string)
    | WikiWordLink(word: string, pos: nat)
    | Heading(level: nat, title: string, pos: nat, topLevel: bool)
    | Property(pairs: seq<(string, string)>, inTodo: bool)
    | PlainText(text: string)

  /**
   * A parsed page. A page decides whether a tree is still its current one by
   * identity, so a tree is an object and not a value.
   */
  class PageAst {
    const nodes: seq<Node>

    constructor (nodes: seq<Node>)
      ensures this.nodes == nodes
    {
      this.nodes := nodes;
    }
  }

  /**
   * The settings a page text is parsed with. The parser's own equivalence of
   * format details is not part of this model; `IsEquivTo` stands in for it,
   * taken to be an equivalence under which every setting but the page the
   * details were computed for must agree.
   */
  datatype FormatDetails = FormatDetails(
    noFormat: bool,
    withCamelCase: bool,
    autoLinkMode: string,
    paragraphMode: bool,
    languageDetails: string,
    basePage: Option<string>)
  {
    predicate IsEquivTo(other: FormatDetails)
    {
      noFormat == other.noFormat && withCamelCase == other.withCamelCase &&
      autoLinkMode == other.autoLinkMode && paragraphMode == other.paragraphMode &&
      languageDetails == other.languageDetails
    }
  }

  /** Equivalence of format details is reflexive, symmetric and transitive. */
  lemma IsEquivToIsEquivalence(a: FormatDetails, b: FormatDetails, c: FormatDetails)
    ensures a.IsEquivTo(a)
    ensures a.IsEquivTo(b) ==> b.IsEquivTo(a)
    ensures a.IsEquivTo(b) && b.IsEquivTo(c) ==> a.IsEquivTo(c)
  {
  }

  // ----- Properties -----

  type PropertyMap = map<string, seq<string>>

  /** The key/value pairs a node contributes: those of a property node outside a todo entry. */
  function NodePairs(n: Node): seq<(string, string)>
  {
    if n.Property? && !n.inTodo then n.pairs else []
  }

  /** All pairs the properties of a page are built from, in document order. */
  function PropertyPairs(nodes: seq<Node>): seq<(string, string)>
  {
    if |nodes| == 0 then [] else PropertyPairs(nodes[..|nodes| - 1]) + NodePairs(nodes[|nodes| - 1])
  }

  /** Appends `value` to the values of `key`, creating the entry on first use. */
  function AddProperty(props: PropertyMap, key: string, value: string): PropertyMap
  {
    props[key := (if key in props then props[key] else []) + [value]]
  }

  function AddAll(props: PropertyMap, pairs: seq<(string, string)>): PropertyMap
  {
    if |pairs| == 0 then props
    else AddProperty(AddAll(props, pairs[..|pairs| - 1]), pairs[|pairs| - 1].0, pairs[|pairs| - 1].1)
  }

  /** The values given for `key`, in order. */
  function ValuesFor(pairs: seq<(string, string)>, key: string): seq<string>
  {
    if |pairs| == 0 then []
    else
      var last := pairs[|pairs| - 1];
      ValuesFor(pairs[..|pairs| - 1], key) + (if last.0 == key then [last.1] else [])
  }

  /**
   * The property map holds a key exactly when some pair names it, and then
   * every value given for it, in the order given.
   */
  lemma {:induction false} AddAllCollects(pairs: seq<(string, string)>, key: string)
    ensures key in AddAll(map[], pairs) <==> exists i :: 0 <= i < |pairs| && pairs[i].0 == key
    ensures key in AddAll(map[], pairs) ==> AddAll(map[], pairs)[key] == ValuesFor(pairs, key)
    ensures key !in AddAll(map[], pairs) ==> ValuesFor(pairs, key) == []
  {
    if |pairs| > 0 {
      var init := pairs[..|pairs| - 1];
      AddAllCollects(init, key);
      if key in AddAll(map[], pairs) && pairs[|pairs| - 1].0 != key {
        var i :| 0 <= i < |init| && init[i].0 == key;
        assert pairs[i] == init[i];
      }
      if exists i :: 0 <= i < |pairs| && pairs[i].0 == key {
        var i :| 0 <= i < |pairs| && pairs[i].0 == key;
        if i < |init| {
          assert init[i] == pairs[i];
        }
      }
    }
  }

  /**
   * The property map of a page: every property node outside a todo entry
   * adds its pairs in document order.
   */
  method CollectProperties(nodes: seq<Node>) returns (props: PropertyMap)
    ensures props == AddAll(map[], PropertyPairs(nodes))
    ensures forall key :: key in props <==> exists i :: 0 <= i < |PropertyPairs(nodes)| && PropertyPairs(nodes)[i].0 == key
    ensures forall key :: key in props ==> props[key] == ValuesFor(PropertyPairs(nodes), key)
  {
    props := map[];
    var i := 0;
    while i < |nodes|
      invariant 0 <= i <= |nodes|
      invariant props == AddAll(map[], PropertyPairs(nodes[..i]))
    {
      PropertyPairsStep(nodes, i);
      var pairs := NodePairs(nodes[i]);
      ghost var before := PropertyPairs(nodes[..i]);
      var j := 0;
      assert before + pairs[..j] == before;
      while j < |pairs|
        invariant 0 <= j <= |pairs|
        invariant props == AddAll(map[], before + pairs[..j])
      {
        assert before + pairs[..j + 1] == (before + pairs[..j]) + [pairs[j]];
        AddAllSnoc(before + pairs[..j], pairs[j]);
        props := AddProperty(props, pairs[j].0, pairs[j].1);
        j := j + 1;
      }
      assert pairs[..j] == pairs;
      i := i + 1;
    }
    assert nodes[..i] == nodes;
    PropertyMapMeaning(PropertyPairs(nodes));
  }

  lemma PropertyPairsStep(nodes: seq<Node>, i: nat)
    requires i < |nodes|
    ensures PropertyPairs(nodes[..i + 1]) == PropertyPairs(nodes[..i]) + NodePairs(nodes[i])
  {
    assert nodes[..i + 1][..i] == nodes[..i];
  }

  lemma AddAllSnoc(pairs: seq<(string, string)>, p: (string, string))
    ensures AddAll(map[], pairs + [p]) == AddProperty(AddAll(map[], pairs), p.0, p.1)
  {
    assert (pairs + [p])[..|pairs|] == pairs;
  }

  lemma PropertyMapMeaning(pairs: seq<(string, string)>)
    ensures forall key :: key in AddAll(map[], pairs) <==> exists i :: 0 <= i < |pairs| && pairs[i].0 == key
    ensures forall key :: key in AddAll(map[], pairs) ==> AddAll(map[], pairs)[key] == ValuesFor(pairs, key)
  {
    forall key | true
      ensures key in AddAll(map[], pairs) <==> exists i :: 0 <= i < |pairs| && pairs[i].0 == key
      ensures key in AddAll(map[], pairs) ==> AddAll(map[], pairs)[key] == ValuesFor(pairs, key)
    {
      AddAllCollects(pairs, key);
    }
  }

  // ----- First-occurrence de-duplication -----

  /** The keys of the items of `xs`. */
  function KeySet<T(==), K(==)>(xs: seq<T>, key: T -> K): set<K>
  {
    set x | x in xs :: key(x)
  }

  /** Keeps the first item of each key, in the order the items came. */
  function FirstByKey<T(==), K(==)>(xs: seq<T>, key: T -> K): seq<T>
  {
    if |xs| == 0 then []
    else
      var d := FirstByKey(xs[..|xs| - 1], key);
      if key(xs[|xs| - 1]) in KeySet(d, key) then d else d + [xs[|xs| - 1]]
  }

  /** Index of the first item of `xs` whose key is `k`. */
  function FirstIndex<T(==), K(==)>(xs: seq<T>, key: T -> K, k: K): (i: nat)
    requires k in KeySet(xs, key)
    ensures i < |xs| && key(xs[i]) == k
    ensures forall m :: 0 <= m < i ==> key(xs[m]) != k
  {
    var init := xs[..|xs| - 1];
    if k in KeySet(init, key) then
      var i := FirstIndex(init, key, k);
      assert xs[i] == init[i];
      assert forall m :: 0 <= m < i ==> xs[m] == init[m];
      i
    else
      assert forall m :: 0 <= m < |xs| - 1 ==> xs[m] in init;
      |xs| - 1
  }

  /** A key already present before the last item keeps its first index. */
  lemma FirstIndexInit<T, K>(xs: seq<T>, key: T -> K, k: K)
    requires |xs| > 0 && k in KeySet(xs[..|xs| - 1], key)
    ensures k in KeySet(xs, key)
    ensures FirstIndex(xs, key, k) == FirstIndex(xs[..|xs| - 1], key, k)
  {
    var y :| y in xs[..|xs| - 1] && key(y) == k;
    assert y in xs;
  }

  lemma KeySetAppend<T, K>(d: seq<T>, x: T, key: T -> K)
    ensures KeySet(d + [x], key) == KeySet(d, key) + {key(x)}
  {
    assert forall y :: y in d + [x] <==> y in d || y == x;
  }

  /** De-duplicating one more item keeps it exactly when its key is new. */
  lemma FirstByKeySnoc<T, K>(xs: seq<T>, x: T, key: T -> K)
    ensures var d := FirstByKey(xs, key);
            FirstByKey(xs + [x], key) == if key(x) in KeySet(d, key) then d else d + [x]
  {
    assert (xs + [x])[..|xs|] == xs;
  }

  /** No key is lost: the de-duplicated items have exactly the keys of the input. */
  lemma {:induction false} FirstByKeyKeepsKeys<T, K>(xs: seq<T>, key: T -> K)
    ensures KeySet(FirstByKey(xs, key), key) == KeySet(xs, key)
  {
    if |xs| > 0 {
      var init := xs[..|xs| - 1];
      var x := xs[|xs| - 1];
      FirstByKeyKeepsKeys(init, key);
      assert xs == init + [x];
      KeySetAppend(init, x, key);
      KeySetAppend(FirstByKey(init, key), x, key);
    }
  }

  /**
   * The result keeps exactly the first item of every key, in the order of
   * those first occurrences: each item is the first of its key in the input,
   * and the items come in increasing order of their input positions (so no
   * key appears twice).
   */
  lemma {:induction false} FirstByKeyIsFirstOccurrences<T, K>(xs: seq<T>, key: T -> K)
    ensures var d := FirstByKey(xs, key);
      forall i :: 0 <= i < |d| ==> key(d[i]) in KeySet(xs, key) && d[i] == xs[FirstIndex(xs, key, key(d[i]))]
    ensures var d := FirstByKey(xs, key);
      forall i, j :: 0 <= i < j < |d| ==> FirstIndex(xs, key, key(d[i])) < FirstIndex(xs, key, key(d[j]))
  {
    if |xs| > 0 {
      var init := xs[..|xs| - 1];
      var x := xs[|xs| - 1];
      var d0 := FirstByKey(init, key);
      FirstByKeyIsFirstOccurrences(init, key);
      FirstByKeyKeepsKeys(init, key);
      forall i | 0 <= i < |d0|
        ensures key(d0[i]) in KeySet(xs, key)
        ensures FirstIndex(xs, key, key(d0[i])) == FirstIndex(init, key, key(d0[i]))
      {
        FirstIndexInit(xs, key, key(d0[i]));
      }
      if key(x) !in KeySet(d0, key) {
        var d := d0 + [x];
        assert key(x) !in KeySet(init, key);
        assert key(d[|d0|]) in KeySet(xs, key);
        assert FirstIndex(xs, key, key(x)) == |xs| - 1;
        forall i | 0 <= i < |d0|
          ensures FirstIndex(xs, key, key(d[i])) < FirstIndex(xs, key, key(x))
        {
          assert d[i] == d0[i];
        }
      }
    }
  }

  /** Items of the de-duplicated sequence have pairwise different keys. */
  lemma FirstByKeyDistinctKeys<T, K>(xs: seq<T>, key: T -> K)
    ensures var d := FirstByKey(xs, key);
      forall i, j :: 0 <= i < j < |d| ==> key(d[i]) != key(d[j])
  {
    FirstByKeyIsFirstOccurrences(xs, key);
  }

  // ----- Todos and child relations -----

  /** A todo entry as stored: key, delimiter and value joined. */
  function TodoText(n: Node): string
    requires n.TodoEntry?
  {
    n.key + n.delimiter + n.value
  }

  /** The todo texts of all todo entries, in document order, duplicates included. */
  function TodoTexts(nodes: seq<Node>): seq<string>
  {
    if |nodes| == 0 then []
    else
      var last := nodes[|nodes| - 1];
      TodoTexts(nodes[..|nodes| - 1]) + (if last.TodoEntry? then [TodoText(last)] else [])
  }

  lemma TodoTextsStep(nodes: seq<Node>, i: nat)
    requires i < |nodes|
    ensures nodes[i].TodoEntry? ==> TodoTexts(nodes[..i + 1]) == TodoTexts(nodes[..i]) + [TodoText(nodes[i])]
    ensures !nodes[i].TodoEntry? ==> TodoTexts(nodes[..i + 1]) == TodoTexts(nodes[..i])
  {
    assert nodes[..i + 1][..i] == nodes[..i];
    assert TodoTexts(nodes[..i]) + [] == TodoTexts(nodes[..i]);
  }

  /** Todos are de-duplicated by the whole text. */
  function Itself(s: string): string { s }

  lemma KeySetItself(xs: seq<string>)
    ensures KeySet(xs, Itself) == set x | x in xs
  {
  }

  /** The todos of a page: each distinct todo text once, at its first occurrence. */
  method CollectTodos(nodes: seq<Node>) returns (todos: seq<string>)
    ensures todos == FirstByKey(TodoTexts(nodes), Itself)
    ensures SeqUtils.Distinct(todos)
    ensures forall t :: t in todos <==> t in TodoTexts(nodes)
  {
    todos := [];
    var i := 0;
    while i < |nodes|
      invariant 0 <= i <= |nodes|
      invariant todos == FirstByKey(TodoTexts(nodes[..i]), Itself)
    {
      TodoTextsStep(nodes, i);
      if nodes[i].TodoEntry? {
        var todo := TodoText(nodes[i]);
        FirstByKeySnoc(TodoTexts(nodes[..i]), todo, Itself);
        KeySetItself(todos);
        if todo !in todos {
          todos := todos + [todo];
        }
      }
      i := i + 1;
    }
    assert nodes[..i] == nodes;
    FirstByKeyDistinctKeys(TodoTexts(nodes), Itself);
    FirstByKeyKeepsKeys(TodoTexts(nodes), Itself);
    KeySetItself(todos);
    KeySetItself(TodoTexts(nodes));
    forall t
      ensures t in todos <==> t in TodoTexts(nodes)
    {
      assert t in todos <==> t in KeySet(todos, Itself);
      assert t in TodoTexts(nodes) <==> t in KeySet(TodoTexts(nodes), Itself);
    }
  }

  /** A child relation: the linked word and the position of its first link. */
  type Relation = (string, nat)

  function WordOf(r: Relation): string { r.0 }

  /** Every wiki-word link of a page with its position, in document order. */
  function Links(nodes: seq<Node>): seq<Relation>
  {
    if |nodes| == 0 then []
    else
      var last := nodes[|nodes| - 1];
      Links(nodes[..|nodes| - 1]) + (if last.WikiWordLink? then [(last.word, last.pos)] else [])
  }

  lemma LinksStep(nodes: seq<Node>, i: nat)
    requires i < |nodes|
    ensures nodes[i].WikiWordLink? ==> Links(nodes[..i + 1]) == Links(nodes[..i]) + [(nodes[i].word, nodes[i].pos)]
    ensures !nodes[i].WikiWordLink? ==> Links(nodes[..i + 1]) == Links(nodes[..i])
  {
    assert nodes[..i + 1][..i] == nodes[..i];
    assert Links(nodes[..i]) + [] == Links(nodes[..i]);
  }

  /**
   * The child relations of a page: each linked word once, with the position
   * of its first link, in the order of first links.
   */
  method CollectChildRelations(nodes: seq<Node>) returns (relations: seq<Relation>)
    ensures relations == FirstByKey(Links(nodes), WordOf)
    ensures KeySet(relations, WordOf) == KeySet(Links(nodes), WordOf)
    ensures forall i, j :: 0 <= i < j < |relations| ==> relations[i].0 != relations[j].0
  {
    relations := [];
    var relationSet: set<string> := {};
    var i := 0;
    while i < |nodes|
      invariant 0 <= i <= |nodes|
      invariant relations == FirstByKey(Links(nodes[..i]), WordOf)
      invariant relationSet == KeySet(relations, WordOf)
    {
      LinksStep(nodes, i);
      if nodes[i].WikiWordLink? {
        var rel := (nodes[i].word, nodes[i].pos);
        FirstByKeySnoc(Links(nodes[..i]), rel, WordOf);
        if rel.0 !in relationSet {
          KeySetAppend(relations, rel, WordOf);
          relations := relations + [rel];
          relationSet := relationSet + {rel.0};
        }
      }
      i := i + 1;
    }
    assert nodes[..i] == nodes;
    FirstByKeyKeepsKeys(Links(nodes), WordOf);
    FirstByKeyDistinctKeys(Links(nodes), WordOf);
  }

  // ----- Match terms -----

  /**
   * Where a match term comes from: an alias property, a heading of the
   * content, or the page's own word, which is written synchronously on save.
   */
  datatype MatchTermType = ExplicitAlias | FromContent | FromWordSync

  /** A match term: the text, where it came from, the page and a position (-1 for none). */
  datatype MatchTerm = MatchTerm(text: string, termType: MatchTermType, word: string, pos: int)

  /** Removes one trailing newline, if there is one. */
  function StripNewline(title: string): (r: string)
    ensures |title| > 0 && title[|title| - 1] == '\n' ==> r + "\n" == title
    ensures !(|title| > 0 && title[|title| - 1] == '\n') ==> r == title
  {
    if |title| > 0 && title[|title| - 1] == '\n' then title[..|title| - 1] else title
  }

  /** The alias values that are valid wiki words become alias match terms, in order. */
  function AliasTerms(aliases: seq<string>, isInvalid: string -> bool, word: string): seq<MatchTerm>
  {
    if |aliases| == 0 then []
    else
      var last := aliases[|aliases| - 1];
      AliasTerms(aliases[..|aliases| - 1], isInvalid, word) +
        (if isInvalid(last) then [] else [MatchTerm(last, ExplicitAlias, word, -1)])
  }

  /** Whether a node is a heading that names the page at the given depth. */
  predicate IsHeadingAlias(n: Node, depth: int)
  {
    n.Heading? && n.topLevel && n.level <= depth
  }

  function HeadingTerm(n: Node, word: string): MatchTerm
    requires n.Heading?
  {
    MatchTerm(StripNewline(n.title), FromContent, word, n.pos)
  }

  /** Top-level headings up to `depth` become content match terms; none at all when depth <= 0. */
  function HeadingTerms(nodes: seq<Node>, depth: int, word: string): seq<MatchTerm>
  {
    if depth <= 0 || |nodes| == 0 then []
    else
      var last := nodes[|nodes| - 1];
      HeadingTerms(nodes[..|nodes| - 1], depth, word) +
        (if IsHeadingAlias(last, depth) then [HeadingTerm(last, word)] else [])
  }

  /** An alias term exists exactly for each alias value the validity check accepts. */
  lemma {:induction false} AliasTermsMembers(aliases: seq<string>, isInvalid: string -> bool, word: string, t: MatchTerm)
    ensures t in AliasTerms(aliases, isInvalid, word) <==>
      t.termType == ExplicitAlias && t.word == word && t.pos == -1 &&
      t.text in aliases && !isInvalid(t.text)
  {
    if |aliases| > 0 {
      var init := aliases[..|aliases| - 1];
      AliasTermsMembers(init, isInvalid, word, t);
      assert aliases == init + [aliases[|aliases| - 1]];
    }
  }

  /**
   * A heading term exists exactly for each top-level heading of level at most
   * `depth` when `depth` is positive, with one trailing newline removed.
   */
  lemma {:induction false} HeadingTermsMembers(nodes: seq<Node>, depth: int, word: string, t: MatchTerm)
    ensures t in HeadingTerms(nodes, depth, word) <==>
      depth > 0 && exists n :: n in nodes && IsHeadingAlias(n, depth) && t == HeadingTerm(n, word)
  {
    if depth > 0 && |nodes| > 0 {
      var init := nodes[..|nodes| - 1];
      HeadingTermsMembers(init, depth, word, t);
      assert nodes == init + [nodes[|nodes| - 1]];
    }
  }

  /**
   * The match terms a page derives from its aliases and headings: first the
   * alias terms, then the heading terms.
   */
  method CollectMatchTerms(nodes: seq<Node>, aliases: seq<string>, isInvalid: string -> bool,
                           depth: int, word: string) returns (terms: seq<MatchTerm>)
    ensures terms == AliasTerms(aliases, isInvalid, word) + HeadingTerms(nodes, depth, word)
  {
    terms := [];
    var i := 0;
    while i < |aliases|
      invariant 0 <= i <= |aliases|
      invariant terms == AliasTerms(aliases[..i], isInvalid, word)
    {
      assert aliases[..i + 1][..i] == aliases[..i];
      if !isInvalid(aliases[i]) {
        terms := terms + [MatchTerm(aliases[i], ExplicitAlias, word, -1)];
      }
      i := i + 1;
    }
    assert aliases[..i] == aliases;
    if depth > 0 {
      var aliasTerms := terms;
      var j := 0;
      while j < |nodes|
        invariant 0 <= j <= |nodes|
        invariant terms == aliasTerms + HeadingTerms(nodes[..j], depth, word)
      {
        assert nodes[..j + 1][..j] == nodes[..j];
        var node := nodes[j];
        if node.Heading? && node.topLevel {
          if node.level <= depth {
            var title := node.title;
            if |title| > 0 && title[|title| - 1] == '\n' {
              title := title[..|title| - 1];
            }
            terms := terms + [MatchTerm(title, FromContent, word, node.pos)];
          }
        }
        j := j + 1;
      }
      assert nodes[..j] == nodes;
    }
  }
}

=== FILE: seq_utils.dfy ===
/**
 * The small sequence and number helpers of the utilities module:
 * seqStartsWith, seqEnforceContained, StringPathSet, IdentityList, sgn,
 * between and calcResizeArIntoBoundingBox.
 */
module SeqUtils {
  import opened Wrappers
  import opened WikiExceptions

  // ---------------------------------------------------------------------
  // seqStartsWith
  // ---------------------------------------------------------------------

  /** True iff `start` is the beginning of `s` or equal to it. */
  predicate SeqStartsWith<T(==)>(s: seq<T>, start: seq<T>)
    ensures SeqStartsWith(s, start) <==> start <= s
  {
    if |s| < |start| then false
    else if |s| > |start| then s[..|start|] == start
    else s == start
  }

  lemma SeqStartsWithTransitive<T>(a: seq<T>, b: seq<T>, c: seq<T>)
    requires SeqStartsWith(a, b) && SeqStartsWith(b, c)
    ensures SeqStartsWith(a, c)
  {
    assert c == b[..|c|];
    assert b == a[..|b|];
    assert a[..|c|] == a[..|b|][..|c|];
  }

  // ---------------------------------------------------------------------
  // seqEnforceContained
  // ---------------------------------------------------------------------

  /** Position of the first `x` in `s`, or -1 (Python's `list.index` with its ValueError). */
  function IndexOf<T(==)>(s: seq<T>, x: T): (i: int)
    ensures -1 <= i < |s|
    ensures i == -1 <==> x !in s
    ensures 0 <= i ==> s[i] == x && x !in s[..i]
  {
    if |s| == 0 then -1
    else if s[0] == x then 0
    else
      var j := IndexOf(s[1..], x);
      assert s[1..][..j + 1] == s[1..j + 2] by { if j >= 0 { assert |s[1..]| >= j + 1; } }
      if j == -1 then -1 else j + 1
  }

  /** `s` without its element at position `i` (Python's `del s[i]`). */
  function RemoveAt<T>(s: seq<T>, i: nat): (r: seq<T>)
    requires i < |s|
    ensures |r| == |s| - 1
    ensures multiset(r) == multiset(s) - multiset{s[i]}
  {
    assert s == s[..i] + [s[i]] + s[i + 1..];
    s[..i] + s[i + 1..]
  }

  /**
   * The state of the loop of seqEnforceContained after it has looked at
   * all items of `s`: the items kept so far and what is left of the
   * allowed items.
   */
  function EnforceFold<T(==)>(s: seq<T>, allowed: seq<T>): (seq<T>, seq<T>)
    decreases |s|
  {
    if s == [] then ([], allowed)
    else
      var prev := EnforceFold(s[..|s| - 1], allowed);
      var x := s[|s| - 1];
      var pos := IndexOf(prev.1, x);
      if pos == -1 then prev
      else (prev.0 + [x], RemoveAt(prev.1, pos))
  }

  /**
   * The loop never loses or invents an allowed item: kept and remaining
   * items together are the allowed ones, and every kept item comes from `s`.
   */
  lemma {:induction false} EnforceFoldConserves<T>(s: seq<T>, allowed: seq<T>)
    ensures var r := EnforceFold(s, allowed);
            && multiset(r.0) + multiset(r.1) == multiset(allowed)
            && forall k :: 0 <= k < |r.0| ==> r.0[k] in s
  {
    if s != [] {
      var init := s[..|s| - 1];
      EnforceFoldConserves(init, allowed);
      var prev := EnforceFold(init, allowed);
      var x := s[|s| - 1];
      var pos := IndexOf(prev.1, x);
      if pos != -1 {
        assert multiset(prev.0 + [x]) == multiset(prev.0) + multiset{x};
      }
      forall k | 0 <= k < |prev.0| ensures prev.0[k] in s {
        assert prev.0[k] in init;
      }
    }
  }

  /** What seqEnforceContained returns. */
  function EnforceContained<T(==)>(s: seq<T>, allowed: seq<T>): seq<T>
  {
    EnforceFold(s, allowed).0 + EnforceFold(s, allowed).1
  }

  /** The items of `s` that occur in `allowed`, in the order of `s`. */
  function FilterAllowed<T(==)>(s: seq<T>, allowed: seq<T>): seq<T>
  {
    if s == [] then []
    else FilterAllowed(s[..|s| - 1], allowed)
         + (if s[|s| - 1] in allowed then [s[|s| - 1]] else [])
  }

  predicate Distinct<T(==)>(s: seq<T>)
  {
    forall i, j :: 0 <= i < j < |s| ==> s[i] != s[j]
  }

  /**
   * The result holds every allowed item exactly as often as `allowed`
   * does: it is a permutation of `allowed`.
   */
  lemma EnforceContainedIsPermutation<T>(s: seq<T>, allowed: seq<T>)
    ensures multiset(EnforceContained(s, allowed)) == multiset(allowed)
  {
    var r := EnforceFold(s, allowed);
    EnforceFoldConserves(s, allowed);
    assert multiset(r.0 + r.1) == multiset(r.0) + multiset(r.1);
  }

  /**
   * When `s` has no repeated item, the result starts with exactly the
   * items of `s` that are allowed, in the order of `s`.
   */
  lemma {:induction false} EnforceKeepsAllowedInOrder<T>(s: seq<T>, allowed: seq<T>)
    requires Distinct(s)
    ensures EnforceFold(s, allowed).0 == FilterAllowed(s, allowed)
  {
    if s != [] {
      var init := s[..|s| - 1];
      var x := s[|s| - 1];
      assert Distinct(init);
      EnforceKeepsAllowedInOrder(init, allowed);
      EnforceFoldConserves(init, allowed);
      var prev := EnforceFold(init, allowed);
      // x was not kept before, so no copy of it has been consumed yet
      assert x !in init by {
        forall m | 0 <= m < |init| ensures init[m] != x {
          assert init[m] == s[m];
        }
      }
      assert x !in prev.0;
      assert multiset(prev.0)[x] == 0;
      assert multiset(prev.1)[x] == multiset(allowed)[x];
      assert (x in prev.1) == (x in allowed);
    }
  }

  /** `a` can be obtained from `b` by deleting items: its items occur in `b` in the same order. */
  predicate SubseqOf<T(==)>(a: seq<T>, b: seq<T>)
    decreases |b|
  {
    a == [] ||
    (b != [] &&
     ((a[|a| - 1] == b[|b| - 1] && SubseqOf(a[..|a| - 1], b[..|b| - 1])) ||
      SubseqOf(a, b[..|b| - 1])))
  }

  lemma {:induction false} SubseqOfRefl<T>(a: seq<T>)
    ensures SubseqOf(a, a)
    decreases |a|
  {
    if a != [] {
      SubseqOfRefl(a[..|a| - 1]);
    }
  }

  lemma {:induction false} SubseqOfTrans<T>(a: seq<T>, b: seq<T>, c: seq<T>)
    requires SubseqOf(a, b) && SubseqOf(b, c)
    ensures SubseqOf(a, c)
    decreases |c|
  {
    if a != [] {
      var c' := c[..|c| - 1];
      if SubseqOf(b, c') {
        SubseqOfTrans(a, b, c');
      } else {
        var b' := b[..|b| - 1];
        if a[|a| - 1] == b[|b| - 1] && SubseqOf(a[..|a| - 1], b') {
          SubseqOfTrans(a[..|a| - 1], b', c');
        } else {
          SubseqOfTrans(a, b', c');
        }
      }
    }
  }

  /** Deleting one item leaves a subsequence. */
  lemma {:induction false} RemoveAtSubseq<T>(s: seq<T>, i: nat)
    requires i < |s|
    ensures SubseqOf(RemoveAt(s, i), s)
    decreases |s|
  {
    var r := RemoveAt(s, i);
    var s' := s[..|s| - 1];
    if i == |s| - 1 {
      assert r == s';
      SubseqOfRefl(s');
    } else {
      assert r[..|r| - 1] == RemoveAt(s', i);
      assert r[|r| - 1] == s[|s| - 1];
      RemoveAtSubseq(s', i);
    }
  }

  /** Appending the same item to both keeps a subsequence. */
  lemma SubseqOfSnoc<T>(a: seq<T>, b: seq<T>, x: T)
    requires SubseqOf(a, b)
    ensures SubseqOf(a + [x], b + [x])
    ensures SubseqOf(a, b + [x])
  {
    assert (a + [x])[..|a|] == a;
    assert (b + [x])[..|b|] == b;
  }

  /** An item found among the remaining allowed items is an allowed item. */
  lemma RemainingIsAllowed<T>(s: seq<T>, allowed: seq<T>, x: T)
    requires x in EnforceFold(s, allowed).1
    ensures x in allowed
  {
    EnforceFoldConserves(s, allowed);
    var r := EnforceFold(s, allowed);
    assert multiset(allowed)[x] >= multiset(r.1)[x] > 0;
  }

  /** The kept items are a subsequence of the allowed items of `s`, in the order of `s`. */
  lemma {:induction false} EnforceKeptOrder<T>(s: seq<T>, allowed: seq<T>)
    ensures SubseqOf(EnforceFold(s, allowed).0, FilterAllowed(s, allowed))
    decreases |s|
  {
    if s != [] {
      var init := s[..|s| - 1];
      var x := s[|s| - 1];
      EnforceKeptOrder(init, allowed);
      var prev := EnforceFold(init, allowed);
      var filter := FilterAllowed(init, allowed);
      assert FilterAllowed(s, allowed) == filter + (if x in allowed then [x] else []);
      if IndexOf(prev.1, x) != -1 {
        RemainingIsAllowed(init, allowed, x);
        assert EnforceFold(s, allowed).0 == prev.0 + [x];
        SubseqOfSnoc(prev.0, filter, x);
      } else {
        assert EnforceFold(s, allowed).0 == prev.0;
        if x in allowed {
          SubseqOfSnoc(prev.0, filter, x);
        } else {
          assert filter + [] == filter;
        }
      }
    }
  }

  /** The items appended after the kept ones are a subsequence of `allowed`. */
  lemma {:induction false} EnforceRestOrder<T>(s: seq<T>, allowed: seq<T>)
    ensures SubseqOf(EnforceFold(s, allowed).1, allowed)
    decreases |s|
  {
    if s == [] {
      SubseqOfRefl(allowed);
    } else {
      var init := s[..|s| - 1];
      EnforceRestOrder(init, allowed);
      var prev := EnforceFold(init, allowed);
      var pos := IndexOf(prev.1, s[|s| - 1]);
      if pos != -1 {
        RemoveAtSubseq(prev.1, pos);
        SubseqOfTrans(RemoveAt(prev.1, pos), prev.1, allowed);
      }
    }
  }

  /**
   * The order seqEnforceContained keeps: the kept items are a subsequence
   * of the allowed items of `s` in the order of `s`, and what is appended
   * after them is a subsequence of `allowed`, holding exactly the allowed
   * items not kept.
   */
  lemma EnforceFoldOrder<T>(s: seq<T>, allowed: seq<T>)
    ensures var r := EnforceFold(s, allowed);
            && SubseqOf(r.0, FilterAllowed(s, allowed))
            && SubseqOf(r.1, allowed)
            && multiset(r.1) == multiset(allowed) - multiset(r.0)
  {
    EnforceFoldConserves(s, allowed);
    EnforceKeptOrder(s, allowed);
    EnforceRestOrder(s, allowed);
  }

  /** How many copies of `x` the sequence holds. */
  function Count<T(==)>(s: seq<T>, x: T): nat
  {
    if s == [] then 0 else Count(s[..|s| - 1], x) + (if s[|s| - 1] == x then 1 else 0)
  }

  lemma {:induction false} CountIsMultiplicity<T>(s: seq<T>, x: T)
    ensures Count(s, x) == multiset(s)[x]
  {
    if s != [] {
      CountIsMultiplicity(s[..|s| - 1], x);
      assert s == s[..|s| - 1] + [s[|s| - 1]];
    }
  }

  /**
   * The items seqEnforceContained keeps, defined on their own: `s[i]` is
   * kept exactly when fewer copies of it come before it in `s` than
   * `allowed` holds.
   */
  function KeptByCount<T(==)>(s: seq<T>, allowed: seq<T>): seq<T>
  {
    if s == [] then []
    else
      var init := s[..|s| - 1];
      var x := s[|s| - 1];
      KeptByCount(init, allowed) + (if Count(init, x) < Count(allowed, x) then [x] else [])
  }

  /**
   * What is left of `allowed` once the first `c[x]` copies of every `x`
   * are taken out: `a[j]` stays exactly when at least `c[a[j]]` copies of
   * it come before it in `a`.
   */
  function RestByCount<T(==)>(a: seq<T>, c: multiset<T>): seq<T>
  {
    if a == [] then []
    else
      var init := a[..|a| - 1];
      var x := a[|a| - 1];
      RestByCount(init, c) + (if Count(init, x) >= c[x] then [x] else [])
  }

  lemma CountSnoc<T>(s: seq<T>, x: T, y: T)
    ensures Count(s + [x], y) == Count(s, y) + (if x == y then 1 else 0)
  {
    assert (s + [x])[..|s|] == s;
  }

  lemma CountPositive<T>(s: seq<T>, x: T)
    ensures (x in s) == (Count(s, x) > 0)
  {
    CountIsMultiplicity(s, x);
  }

  /** Per item, kept and remaining copies add up to the copies in `allowed`. */
  lemma EnforceFoldCount<T>(s: seq<T>, allowed: seq<T>, y: T)
    ensures Count(EnforceFold(s, allowed).0, y) + Count(EnforceFold(s, allowed).1, y) == Count(allowed, y)
  {
    EnforceFoldConserves(s, allowed);
    CountIsMultiplicity(EnforceFold(s, allowed).0, y);
    CountIsMultiplicity(EnforceFold(s, allowed).1, y);
    CountIsMultiplicity(allowed, y);
  }

  /** One turn of the loop keeps `x` exactly when fewer copies of it were kept than `allowed` holds. */
  lemma EnforceFoldKeepsLast<T>(s: seq<T>, allowed: seq<T>)
    requires s != []
    ensures var prev := EnforceFold(s[..|s| - 1], allowed);
            var x := s[|s| - 1];
            if Count(prev.0, x) < Count(allowed, x)
            then EnforceFold(s, allowed).0 == prev.0 + [x]
            else EnforceFold(s, allowed).0 == prev.0
  {
    var prev := EnforceFold(s[..|s| - 1], allowed);
    EnforceFoldCount(s[..|s| - 1], allowed, s[|s| - 1]);
    CountPositive(prev.1, s[|s| - 1]);
  }

  /** The loop keeps each item as often as it occurs in both `s` and `allowed`. */
  lemma {:induction false} EnforceKeptCount<T>(s: seq<T>, allowed: seq<T>, y: T)
    ensures Count(EnforceFold(s, allowed).0, y) ==
            if Count(s, y) < Count(allowed, y) then Count(s, y) else Count(allowed, y)
  {
    if s != [] {
      var init := s[..|s| - 1];
      var x := s[|s| - 1];
      EnforceKeptCount(init, allowed, x);
      EnforceKeptCount(init, allowed, y);
      EnforceFoldKeepsLast(s, allowed);
      CountSnoc(EnforceFold(init, allowed).0, x, y);
    }
  }

  /** The loop keeps exactly the items `KeptByCount` keeps. */
  lemma {:induction false} EnforceKeptByCount<T>(s: seq<T>, allowed: seq<T>)
    ensures EnforceFold(s, allowed).0 == KeptByCount(s, allowed)
  {
    if s != [] {
      var init := s[..|s| - 1];
      var x := s[|s| - 1];
      EnforceKeptByCount(init, allowed);
      EnforceKeptCount(init, allowed, x);
      EnforceFoldKeepsLast(s, allowed);
      if Count(init, x) >= Count(allowed, x) {
        assert KeptByCount(s, allowed) == KeptByCount(init, allowed) + [];
      }
    }
  }

  /** How many copies of `y` are left. */
  lemma {:induction false} RestByCountCount<T>(a: seq<T>, c: multiset<T>, y: T)
    ensures Count(RestByCount(a, c), y) == if Count(a, y) >= c[y] then Count(a, y) - c[y] else 0
  {
    if a != [] {
      var init := a[..|a| - 1];
      var z := a[|a| - 1];
      RestByCountCount(init, c, y);
      assert Count(a, y) == Count(init, y) + (if z == y then 1 else 0);
      if Count(init, z) >= c[z] {
        CountSnoc(RestByCount(init, c), z, y);
      } else {
        assert RestByCount(a, c) == RestByCount(init, c);
      }
    }
  }

  /** Taking nothing out leaves everything. */
  lemma {:induction false} RestByCountNone<T>(a: seq<T>)
    ensures RestByCount(a, multiset{}) == a
  {
    if a != [] {
      RestByCountNone(a[..|a| - 1]);
    }
  }

  /** Asking to take out one more `x` than `a` holds changes nothing. */
  lemma {:induction false} RestByCountSpent<T>(a: seq<T>, c: multiset<T>, x: T)
    requires Count(a, x) <= c[x]
    ensures RestByCount(a, c + multiset{x}) == RestByCount(a, c)
  {
    if a != [] {
      RestByCountSpent(a[..|a| - 1], c, x);
    }
  }

  /** `IndexOf` is the first position holding `x`. */
  lemma IndexOfUnique<T>(s: seq<T>, x: T, i: nat)
    requires i < |s| && s[i] == x && x !in s[..i]
    ensures IndexOf(s, x) == i
  {
    assert x in s;
    var j := IndexOf(s, x);
    assert forall k :: 0 <= k < i ==> s[..i][k] == s[k];
    assert forall k :: 0 <= k < j ==> s[..j][k] == s[k];
  }

  /** Deleting the first `x` left is taking out one more `x`. */
  lemma {:induction false} RestByCountTakeOne<T>(a: seq<T>, c: multiset<T>, x: T)
    requires x in RestByCount(a, c)
    ensures var r := RestByCount(a, c);
            RemoveAt(r, IndexOf(r, x) as nat) == RestByCount(a, c + multiset{x})
    decreases |a|, 1
  {
    if x in RestByCount(a[..|a| - 1], c) {
      TakeOneEarlier(a, c, x);
    } else {
      TakeOneLast(a, c, x);
    }
  }

  /** The first `x` left comes before the last item of `a`. */
  lemma TakeOneEarlier<T>(a: seq<T>, c: multiset<T>, x: T)
    requires a != [] && x in RestByCount(a[..|a| - 1], c)
    ensures var r := RestByCount(a, c);
            x in r && RemoveAt(r, IndexOf(r, x) as nat) == RestByCount(a, c + multiset{x})
    decreases |a|, 0
  {
    var init := a[..|a| - 1];
    var z := a[|a| - 1];
    var p := RestByCount(init, c);
    InRestMeansSpare(init, c, x);
    RestByCountTakeOne(init, c, x);
    var i := IndexOf(p, x) as nat;
    var t := if Count(init, z) >= c[z] then [z] else [];
    var r := p + t;
    assert r[..i] == p[..i];
    IndexOfUnique(r, x, i);
    RemoveAtAppend(p, t, i);
    assert (c + multiset{x})[z] == c[z] || z == x;
    assert RestByCount(a, c + multiset{x}) == RestByCount(init, c + multiset{x}) + t;
  }

  /** An `x` is left only when `a` holds more copies of it than are taken out. */
  lemma InRestMeansSpare<T>(a: seq<T>, c: multiset<T>, x: T)
    requires x in RestByCount(a, c)
    ensures Count(a, x) > c[x]
  {
    RestByCountCount(a, c, x);
    CountPositive(RestByCount(a, c), x);
  }

  /** Deleting inside the front part of a concatenation. */
  lemma RemoveAtAppend<T>(p: seq<T>, t: seq<T>, i: nat)
    requires i < |p|
    ensures RemoveAt(p + t, i) == RemoveAt(p, i) + t
  {
    assert (p + t)[..i] == p[..i];
    assert (p + t)[i + 1..] == p[i + 1..] + t;
  }

  /** The first `x` left is the last item of `a`. */
  lemma TakeOneLast<T>(a: seq<T>, c: multiset<T>, x: T)
    requires a != [] && x in RestByCount(a, c) && x !in RestByCount(a[..|a| - 1], c)
    ensures var r := RestByCount(a, c);
            RemoveAt(r, IndexOf(r, x) as nat) == RestByCount(a, c + multiset{x})
  {
    var p := RestByCount(a[..|a| - 1], c);
    LastIsNewlyLeft(a, c, x);
    RemoveOnlyCopy(p, x);
    SpentLast(a, c, x);
  }

  /** An `x` left only by the last item of `a` is that item, and no spare copy came before it. */
  lemma LastIsNewlyLeft<T>(a: seq<T>, c: multiset<T>, x: T)
    requires a != [] && x in RestByCount(a, c) && x !in RestByCount(a[..|a| - 1], c)
    ensures a[|a| - 1] == x && Count(a[..|a| - 1], x) <= c[x]
    ensures RestByCount(a, c) == RestByCount(a[..|a| - 1], c) + [x]
  {
    RestByCountCount(a[..|a| - 1], c, x);
    CountPositive(RestByCount(a[..|a| - 1], c), x);
  }

  /** Deleting the only copy of `x`, at the end. */
  lemma RemoveOnlyCopy<T>(p: seq<T>, x: T)
    requires x !in p
    ensures RemoveAt(p + [x], IndexOf(p + [x], x) as nat) == p
  {
    IndexOfUnique(p + [x], x, |p|);
    assert RemoveAt(p + [x], |p|) == p;
  }

  /** With the last `x` taken out as well, the last item of `a` is not left. */
  lemma SpentLast<T>(a: seq<T>, c: multiset<T>, x: T)
    requires a != [] && a[|a| - 1] == x && Count(a[..|a| - 1], x) <= c[x]
    ensures RestByCount(a, c + multiset{x}) == RestByCount(a[..|a| - 1], c)
  {
    RestByCountSpent(a[..|a| - 1], c, x);
    assert (c + multiset{x})[x] == c[x] + 1;
  }

  /**
   * What the loop leaves of `allowed` is `allowed` with the first copies
   * of every kept item deleted, as many as were kept.
   */
  lemma {:induction false} EnforceRestByCount<T>(s: seq<T>, allowed: seq<T>)
    ensures EnforceFold(s, allowed).1 == RestByCount(allowed, multiset(EnforceFold(s, allowed).0))
  {
    if s == [] {
      RestByCountNone(allowed);
    } else {
      var init := s[..|s| - 1];
      var x := s[|s| - 1];
      EnforceRestByCount(init, allowed);
      var prev := EnforceFold(init, allowed);
      if IndexOf(prev.1, x) != -1 {
        RestByCountTakeOne(allowed, multiset(prev.0), x);
        assert multiset(prev.0 + [x]) == multiset(prev.0) + multiset{x};
      }
    }
  }

  /**
   * seqEnforceContained exactly, defined without the loop: the items of `s`
   * that still find an unused copy in `allowed`, then `allowed` with those
   * copies, the first ones, deleted.
   */
  lemma EnforceContainedByCount<T>(s: seq<T>, allowed: seq<T>)
    ensures EnforceContained(s, allowed) ==
            KeptByCount(s, allowed) + RestByCount(allowed, multiset(KeptByCount(s, allowed)))
  {
    EnforceKeptByCount(s, allowed);
    EnforceRestByCount(s, allowed);
  }

  /** seqEnforceContained as the source's loop, deleting from a copy of `allowed`. */
  method SeqEnforceContained<T(==)>(s: seq<T>, allowed: seq<T>) returns (result: seq<T>)
    ensures result == EnforceContained(s, allowed)
    ensures multiset(result) == multiset(allowed)
    ensures var r := EnforceFold(s, allowed);
            result == r.0 + r.1 && SubseqOf(r.0, FilterAllowed(s, allowed)) && SubseqOf(r.1, allowed)
    ensures result == KeptByCount(s, allowed) + RestByCount(allowed, multiset(KeptByCount(s, allowed)))
  {
    var aSeq := allowed;
    result := [];
    var i := 0;
    while i < |s|
      invariant 0 <= i <= |s|
      invariant result == EnforceFold(s[..i], allowed).0
      invariant aSeq == EnforceFold(s[..i], allowed).1
    {
      var item := s[i];
      EnforceFoldStep(s, i, allowed);
      var pos := IndexOf(aSeq, item);
      if pos != -1 {
        result := result + [item];
        aSeq := RemoveAt(aSeq, pos);
      }
      i := i + 1;
    }
    assert s[..i] == s;
    EnforceContainedIsPermutation(s, allowed);
    EnforceFoldOrder(s, allowed);
    EnforceContainedByCount(s, allowed);
    result := result + aSeq;
  }

  /** One turn of the loop of seqEnforceContained: looking at item `i` of `s`. */
  lemma EnforceFoldStep<T>(s: seq<T>, i: nat, allowed: seq<T>)
    requires i < |s|
    ensures var prev := EnforceFold(s[..i], allowed);
            var pos := IndexOf(prev.1, s[i]);
            EnforceFold(s[..i + 1], allowed)
            == if pos == -1 then prev else (prev.0 + [s[i]], RemoveAt(prev.1, pos))
  {
    assert s[..i + 1][..i] == s[..i];
  }

  // ---------------------------------------------------------------------
  // StringPathSet
  // ---------------------------------------------------------------------

  /** A set of string paths (tuples of strings) with prefix queries. */
  class StringPathSet {
    var paths: set<seq<string>>

    constructor (initial: set<seq<string>>)
      ensures paths == initial
    {
      paths := initial;
    }

    /** The paths of the set that start with `prefix` (listStartsWith, as a set). */
    function StartingWith(prefix: seq<string>): (r: set<seq<string>>)
      reads this
      ensures r <= paths
      ensures forall p :: p in paths ==> (p in r <==> prefix <= p)
    {
      set p | p in paths && SeqStartsWith(p, prefix)
    }

    method DiscardStartsWith(prefix: seq<string>)
      modifies this
      ensures paths == old(paths) - old(StartingWith(prefix))
      ensures forall p :: p in paths ==> !(prefix <= p)
    {
      paths := paths - StartingWith(prefix);
    }
  }

  // ---------------------------------------------------------------------
  // IdentityList
  // ---------------------------------------------------------------------

  /** A list whose membership and index tests compare by identity (`is`). */
  class IdentityList {
    var items: seq<object>

    constructor (initial: seq<object>)
      ensures items == initial
    {
      items := initial;
    }

    method Contains(elem: object) returns (b: bool)
      ensures b <==> elem in items
    {
      var i := 0;
      while i < |items|
        invariant 0 <= i <= |items|
        invariant elem !in items[..i]
      {
        if items[i] == elem {
          return true;
        }
        assert items[..i + 1] == items[..i] + [items[i]];
        i := i + 1;
      }
      assert items[..i] == items;
      return false;
    }

    /** The first index of `elem`, or -1. */
    method Find(elem: object) returns (idx: int)
      ensures -1 <= idx < |items|
      ensures idx == -1 <==> elem !in items
      ensures 0 <= idx ==> items[idx] == elem && elem !in items[..idx]
    {
      var i := 0;
      while i < |items|
        invariant 0 <= i <= |items|
        invariant elem !in items[..i]
      {
        if items[i] == elem {
          return i;
        }
        assert items[..i + 1] == items[..i] + [items[i]];
        i := i + 1;
      }
      assert items[..i] == items;
      return -1;
    }

    /** The first index of `elem`; a missing element raises ValueError. */
    method Index(elem: object) returns (r: Result<nat, Exception>)
      ensures r.Ok? <==> elem in items
      ensures r.Err? ==> r.error == ValueError
      ensures r.Ok? ==> r.value < |items| && items[r.value] == elem && elem !in items[..r.value]
    {
      var i := Find(elem);
      if i == -1 {
        return Err(ValueError);
      }
      return Ok(i);
    }

    /** Removes the first occurrence of `elem`; a missing element raises ValueError. */
    method Remove(elem: object) returns (r: Result<(), Exception>)
      modifies this
      ensures r.Ok? <==> elem in old(items)
      ensures r.Err? ==> r.error == ValueError && items == old(items)
      ensures r.Ok? ==> (exists i :: 0 <= i < |old(items)| && old(items)[i] == elem
                           && elem !in old(items)[..i] && items == old(items)[..i] + old(items)[i + 1..])
    {
      var idx := Index(elem);
      if idx.Err? {
        return Err(idx.error);
      }
      items := items[..idx.value] + items[idx.value + 1..];
      return Ok(());
    }

    /** Same as Remove, but a missing element is silently ignored. */
    method Drop(elem: object)
      modifies this
      ensures elem !in old(items) ==> items == old(items)
      ensures elem in old(items) ==>
                (exists i :: 0 <= i < |old(items)| && old(items)[i] == elem
                           && elem !in old(items)[..i] && items == old(items)[..i] + old(items)[i + 1..])
    {
      var idx := Find(elem);
      if idx == -1 {
        return;
      }
      items := items[..idx] + items[idx + 1..];
    }

    method Clear()
      modifies this
      ensures items == []
    {
      items := items[0..0];
    }
  }

  // ---------------------------------------------------------------------
  // sgn, between, calcResizeArIntoBoundingBox
  // ---------------------------------------------------------------------

  function Sgn(value: int): (r: int)
    ensures r == -1 <==> value < 0
    ensures r == 0 <==> value == 0
    ensures r == 1 <==> value > 0
  {
    if value < 0 then -1
    else if value > 0 then 1
    else 0
  }

  /** The number nearest to `value` between `lower` and `upper` (inclusive). */
  function Between(lower: int, value: int, upper: int): (r: int)
    ensures lower <= upper ==> lower <= r <= upper
    ensures lower <= value <= upper ==> r == value
    ensures value < lower ==> r == lower
    ensures lower <= upper < value ==> r == upper
    ensures upper < lower ==> r == lower
  {
    var m := if value < upper then value else upper;
    if lower < m then m else lower
  }

  /**
   * The bounding box actually used by calcResizeArIntoBoundingBox: with
   * `upright`, the box is turned when box and image have different formats.
   */
  function EffectiveBox(width: int, height: int, bbWidth: int, bbHeight: int, upright: bool): (int, int)
  {
    if upright && bbWidth != bbHeight && width != height
       && Sgn(bbWidth - bbHeight) != Sgn(width - height)
    then (bbHeight, bbWidth)
    else (bbWidth, bbHeight)
  }

  /** Floor division of non-negative by positive integers, as Python's `//` computes it. */
  lemma DivBounds(a: int, b: int)
    requires a >= 0 && b > 0
    ensures 0 <= a / b
    ensures (a / b) * b <= a < (a / b) * b + b
  {
  }

  lemma ProductOrder(q: int, c: int, b: int)
    requires b > 0 && q * b < c * b
    ensures q < c
  {
    assert (c - q) * b == c * b - q * b;
  }

  /** The case where the box width limits the image. */
  lemma WidthLimited(width: int, height: int, bw: int, bh: int)
    requires width > 0 && height > 0 && bw > 0 && bh > 0
    requires bw * height < bh * width
    ensures var nh := (height * bw) / width;
            0 <= nh <= bh && nh * width <= height * bw < (nh + 1) * width
  {
    var a := height * bw;
    var nh := a / width;
    DivBounds(a, width);
    assert (nh + 1) * width == nh * width + width;
    assert nh * width < bh * width;
    ProductOrder(nh, bh, width);
  }

  /** The case where the box height limits the image. */
  lemma HeightLimited(width: int, height: int, bw: int, bh: int)
    requires width > 0 && height > 0 && bw > 0 && bh > 0
    requires !(bw * height < bh * width)
    ensures var nw := (width * bh) / height;
            0 <= nw <= bw && nw * height <= width * bh < (nw + 1) * height
  {
    var a := width * bh;
    var nw := a / height;
    DivBounds(a, height);
    assert (nw + 1) * height == nw * height + height;
    assert nw * height < (bw + 1) * height by {
      assert (bw + 1) * height == bw * height + height;
    }
    ProductOrder(nw, bw + 1, height);
  }

  /**
   * New (width, height) for an image of `width` x `height` that fills the
   * (possibly turned) bounding box while keeping the aspect ratio, computed
   * in integers only: one side equals the box side, the other is the
   * aspect-ratio value rounded down, and both fit the box. The side that
   * equals the box side is the limiting one: scaled exactly, the other side
   * would still fit.
   */
  function CalcResizeArIntoBoundingBox(width: int, height: int, bbWidth: int, bbHeight: int,
                                       upright: bool): (r: (int, int))
    requires bbWidth > 0 && bbHeight > 0
    requires width > 0 && height > 0
    ensures var (bw, bh) := EffectiveBox(width, height, bbWidth, bbHeight, upright);
            && 0 <= r.0 <= bw && 0 <= r.1 <= bh
            && ((r.0 == bw && r.1 * width <= height * r.0 < (r.1 + 1) * width)
                || (r.1 == bh && r.0 * height <= width * r.1 < (r.0 + 1) * height))
            && (bw * height < bh * width ==> r.0 == bw && r.1 < bh)
            && (!(bw * height < bh * width) ==> r.1 == bh)
            && (r.0 == bw ==> height * bw <= bh * width)
            && (r.1 == bh ==> width * bh <= bw * height)
  {
    var (bw, bh) := EffectiveBox(width, height, bbWidth, bbHeight, upright);
    if bw * height < bh * width then
      WidthLimited(width, height, bw, bh);
      (bw, (height * bw) / width)
    else
      HeightLimited(width, height, bw, bh);
      ((width * bh) / height, bh)
  }
}

=== FILE: template_heading.dfy ===
/**
 * The heading a new wiki page gets when it is created from a template: the
 * page title line replaces the template's own title line.
 */
module TemplateHeading {
  import opened Wrappers

  /** The first index at or after `from` where `s` holds `c`; None where the search would raise. */
  function IndexFrom(s: string, c: char, from: nat): (r: Option<nat>)
    ensures r.Some? ==> from <= r.value < |s| && s[r.value] == c
    ensures r.Some? ==> forall k :: from <= k < r.value ==> s[k] != c
    ensures r.None? ==> forall k :: from <= k < |s| ==> s[k] != c
    decreases |s| - from
  {
    if from >= |s| then None
    else if s[from] == c then Some(from)
    else IndexFrom(s, c, from + 1)
  }

  /** The title the new page is given: a suggested title if there is one, else the page's own title, if any. */
  function HeadingTitle(suggestedTitle: Option<string>, pageTitle: Option<string>): Option<string>
  {
    if suggestedTitle.Some? then suggestedTitle else pageTitle
  }

  /** How many characters of `content` form an existing title line to drop. */
  function RemoveFirst(titlePrefix: string, content: string): (n: nat)
    ensures n <= |content|
    ensures n > 0 <==> titlePrefix <= content && IndexFrom(content, '\n', |titlePrefix|).Some?
    ensures n > 0 ==> n == IndexFrom(content, '\n', |titlePrefix|).value + 1
  {
    if titlePrefix <= content then
      match IndexFrom(content, '\n', |titlePrefix|)
      case Some(i) => i + 1
      case None => 0
    else 0
  }

  /**
   * The content of a new page made from template `content`. `prefix` is the
   * wiki's title prefix (normally "++"); the title line is the prefix, a
   * space, the title and a newline. Without a title the content is kept. A
   * first line that starts with the title line's prefix is dropped when a
   * newline ends it; otherwise the title line goes before the whole content.
   */
  function ChangeHeadingForTemplate(prefix: string, title: Option<string>, content: string): (r: string)
    ensures title.None? ==> r == content
    ensures title.Some? && !(prefix + " " <= content) ==> r == prefix + " " + title.value + "\n" + content
    ensures title.Some? && IndexFrom(content, '\n', |prefix + " "|).None? ==>
      r == prefix + " " + title.value + "\n" + content
    ensures title.Some? && prefix + " " <= content && IndexFrom(content, '\n', |prefix + " "|).Some? ==>
      r == prefix + " " + title.value + "\n" + content[IndexFrom(content, '\n', |prefix + " "|).value + 1..]
  {
    match title
    case None => content
    case Some(t) =>
      var titlePrefix := prefix + " ";
      titlePrefix + t + "\n" + content[RemoveFirst(titlePrefix, content)..]
  }

  /** `line` is a whole first line starting with `titlePrefix`: a newline ends it and only that one. */
  predicate IsTitleLine(titlePrefix: string, line: string)
  {
    titlePrefix <= line && |line| > 0 && line[|line| - 1] == '\n' &&
    forall k :: |titlePrefix| <= k < |line| - 1 ==> line[k] != '\n'
  }

  /**
   * `RemoveFirst` drops a whole title line exactly when the content starts
   * with the title prefix and a newline follows it, and nothing otherwise.
   */
  lemma RemovedIsTitleLine(titlePrefix: string, content: string)
    ensures var n := RemoveFirst(titlePrefix, content);
            (n > 0 <==> titlePrefix <= content && IndexFrom(content, '\n', |titlePrefix|).Some?) &&
            (n > 0 ==> IsTitleLine(titlePrefix, content[..n]))
  {
    var n := RemoveFirst(titlePrefix, content);
    if n > 0 {
      var line := content[..n];
      forall k | |titlePrefix| <= k < |line| - 1 ensures line[k] != '\n' {
        assert line[k] == content[k];
      }
    }
  }

  /**
   * With a title, the result is the title line followed by the content less
   * its first line when that is a title line, and less nothing otherwise.
   */
  lemma ChangeHeadingDropsTitleLine(prefix: string, title: string, content: string)
    ensures exists removed: string, rest: string ::
      ChangeHeadingForTemplate(prefix, Some(title), content) == prefix + " " + title + "\n" + rest &&
      content == removed + rest &&
      (removed == [] <==> !(prefix + " " <= content && IndexFrom(content, '\n', |prefix + " "|).Some?)) &&
      (removed == [] || IsTitleLine(prefix + " ", removed))
  {
    var n := RemoveFirst(prefix + " ", content);
    RemovedIsTitleLine(prefix + " ", content);
    assert content == content[..n] + content[n..];
  }

  /**
   * Applying the template heading twice with the same single-line title gives
   * the same page as applying it once: the second pass drops exactly the
   * title line the first pass added.
   */
  lemma ChangeHeadingIdempotent(prefix: string, title: string, content: string)
    requires '\n' !in title
    ensures ChangeHeadingForTemplate(prefix, Some(title), ChangeHeadingForTemplate(prefix, Some(title), content)) ==
            ChangeHeadingForTemplate(prefix, Some(title), content)
  {
    var titlePrefix := prefix + " ";
    var head := titlePrefix + title + "\n";
    var once := ChangeHeadingForTemplate(prefix, Some(title), content);
    var rest := content[RemoveFirst(titlePrefix, content)..];
    assert once == head + rest;
    assert titlePrefix <= once;
    var nl := |titlePrefix| + |title|;
    assert once[nl] == '\n';
    forall k | |titlePrefix| <= k < nl
      ensures once[k] != '\n'
    {
      assert once[k] == title[k - |titlePrefix|];
    }
    assert IndexFrom(once, '\n', |titlePrefix|) == Some(nl);
    assert once[nl + 1..] == rest;
  }
}

=== FILE: thread_stop.dfy ===
/**
 * The thread-stop objects handed to long-running operations. An operation
 * asks its thread stop from time to time whether it should go on; the
 * current thread is an input of every question.
 */
module ThreadStops {
  import opened Wrappers
  import opened WikiExceptions

  /** An abstract thread identity. */
  type ThreadId = nat

  /**
   * Holds a thread; valid only while the asking thread is the held one
   * (`threading.currentThread() is self.thread`).
   */
  class ThreadHolder {
    var thread: Option<ThreadId>

    constructor ()
      ensures thread == None
    {
      thread := None;
    }

    function GetThread(): (t: Option<ThreadId>)
      reads this
      ensures t == thread
    {
      thread
    }

    method SetThread(t: Option<ThreadId>)
      modifies this
      ensures thread == t
    {
      thread := t;
    }
  }

  /**
   * The three kinds of thread stop: the basic one that never stops, one
   * that asks a function, and a thread holder.
   */
  datatype ThreadStop =
    | Basic
    | FunctionStop(fct: () -> bool)
    | Holder(holder: ThreadHolder)

  /** isValidThread: true when the operation should go on. */
  function IsValidThread(stop: ThreadStop, current: ThreadId): (r: bool)
    reads if stop.Holder? then {stop.holder} else {}
    ensures stop.Basic? ==> r
    ensures stop.FunctionStop? ==> (r <==> stop.fct())
    ensures stop.Holder? ==> (r <==> stop.holder.thread == Some(current))
  {
    match stop
    case Basic => true
    case FunctionStop(fct) => fct()
    case Holder(h) => h.thread.Some? && h.thread.value == current
  }

  /** testValidThread: raises NotCurrentThreadException exactly when isValidThread is false. */
  function TestValidThread(stop: ThreadStop, current: ThreadId): (r: Result<(), Exception>)
    reads if stop.Holder? then {stop.holder} else {}
    ensures r.Ok? <==> IsValidThread(stop, current)
    ensures r.Err? ==> r.error == NotCurrentThread
  {
    if IsValidThread(stop, current) then Ok(()) else Err(NotCurrentThread)
  }

  /** A holder that holds no thread stops every thread. */
  lemma EmptyHolderStopsAll(h: ThreadHolder, current: ThreadId)
    requires h.thread == None
    ensures !IsValidThread(Holder(h), current)
    ensures TestValidThread(Holder(h), current) == Err(NotCurrentThread)
  {
  }

  /** A holder is valid for one thread at most. */
  lemma HolderValidForOneThread(h: ThreadHolder, t1: ThreadId, t2: ThreadId)
    requires IsValidThread(Holder(h), t1) && IsValidThread(Holder(h), t2)
    ensures t1 == t2
  {
  }
}

=== FILE: timeout_lock.dfy ===
/**
 * The reentrant lock with a timeout (`_TimeoutRLock`): an owner thread and
 * a recursion count over an underlying plain lock. The plain lock is held
 * exactly while an owner is recorded, so the model keeps only owner and
 * count. Waiting is not modelled: a blocking acquire of a lock held by
 * another thread either blocks (no timeout) or fails with the time-out
 * error (with a timeout).
 */
module TimeoutLock {
  import opened Wrappers
  import opened WikiExceptions
  import opened ThreadStops

  datatype LockState = LockState(owner: Option<ThreadId>, count: nat)
  {
    /** A recursion count is held exactly while there is an owner. */
    predicate Valid() {
      count > 0 <==> owner.Some?
    }
  }

  const Free := LockState(None, 0)

  datatype AcquireOutcome =
    | Acquired          // acquire returned a true value
    | NotAcquired       // non-blocking acquire of a lock held by another thread
    | Blocked           // blocking acquire without timeout: waits for the holder
    | Failed(e: Exception)

  /** `not self.__timeout`: no timeout is given by None and by 0. */
  predicate HasTimeout(timeout: Option<nat>) {
    timeout.Some? && timeout.value != 0
  }

  /** acquire(blocking): the new lock state and what the call returns or raises. */
  function AcquireStep(s: LockState, me: ThreadId, blocking: bool, timeout: Option<nat>)
    : (r: (LockState, AcquireOutcome))
    ensures s.owner == Some(me) ==> r == (LockState(s.owner, s.count + 1), Acquired)
    ensures s.owner == None ==> r == (LockState(Some(me), 1), Acquired)
    ensures s.owner.Some? && s.owner != Some(me) ==>
              r.0 == s
              && r.1 == (if !blocking then NotAcquired
                         else if !HasTimeout(timeout) then Blocked
                         else Failed(DeadBlockPreventionTimeOut))
  {
    if s.owner == Some(me) then (s.(count := s.count + 1), Acquired)
    else if s.owner == None then (LockState(Some(me), 1), Acquired)
    else if !blocking then (s, NotAcquired)
    else if !HasTimeout(timeout) then (s, Blocked)
    else (s, Failed(DeadBlockPreventionTimeOut))
  }

  /** release(): only the owner may release; the last release frees the lock. */
  function ReleaseStep(s: LockState, me: ThreadId): (r: Result<LockState, Exception>)
    ensures r.Err? <==> s.owner != Some(me)
    ensures r.Err? ==> r.error.RuntimeError?
    ensures r.Ok? && s.count <= 1 ==> r.value == Free
    ensures r.Ok? && s.count > 1 ==> r.value == LockState(Some(me), s.count - 1)
  {
    if s.owner != Some(me) then Err(RuntimeError("cannot release un-aquired lock"))
    else if s.count <= 1 then Ok(Free)
    else Ok(LockState(s.owner, s.count - 1))
  }

  lemma AcquirePreservesValid(s: LockState, me: ThreadId, blocking: bool, timeout: Option<nat>)
    requires s.Valid()
    ensures AcquireStep(s, me, blocking, timeout).0.Valid()
    ensures AcquireStep(s, me, blocking, timeout).1 == Acquired
            ==> AcquireStep(s, me, blocking, timeout).0.owner == Some(me)
  {
  }

  lemma ReleasePreservesValid(s: LockState, me: ThreadId)
    requires s.Valid()
    ensures ReleaseStep(s, me).Ok? ==> ReleaseStep(s, me).value.Valid()
  {
  }

  /** A successful acquire followed by a release by the same thread restores the lock. */
  lemma AcquireThenRelease(s: LockState, me: ThreadId, blocking: bool, timeout: Option<nat>)
    requires s.Valid()
    requires AcquireStep(s, me, blocking, timeout).1 == Acquired
    ensures ReleaseStep(AcquireStep(s, me, blocking, timeout).0, me) == Ok(s)
  {
  }

  /** `n` nested acquires by one thread. */
  function AcquireTimes(s: LockState, me: ThreadId, n: nat): LockState
    decreases n
  {
    if n == 0 then s else AcquireTimes(AcquireStep(s, me, true, None).0, me, n - 1)
  }

  /** `n` releases by one thread, stopping at the first error. */
  function ReleaseTimes(s: LockState, me: ThreadId, n: nat): Result<LockState, Exception>
    decreases n
  {
    if n == 0 then Ok(s)
    else match ReleaseStep(s, me)
      case Err(e) => Err(e)
      case Ok(s') => ReleaseTimes(s', me, n - 1)
  }

  lemma {:induction false} AcquireTimesOwned(s: LockState, me: ThreadId, n: nat)
    requires s.owner == Some(me) || s == Free
    ensures n > 0 ==> AcquireTimes(s, me, n) == LockState(Some(me), (if s == Free then 0 else s.count) + n)
    decreases n
  {
    if n > 1 {
      var s1 := AcquireStep(s, me, true, None).0;
      AcquireTimesOwned(s1, me, n - 1);
    }
  }

  lemma {:induction false} ReleaseTimesOwned(me: ThreadId, c: nat, n: nat)
    requires 0 < n <= c
    ensures ReleaseTimes(LockState(Some(me), c), me, n)
            == Ok(if n == c then Free else LockState(Some(me), c - n))
  {
    if n > 1 {
      ReleaseTimesOwned(me, c - 1, n - 1);
    }
  }

  /** A free lock acquired `n` times is free again after exactly `n` releases, and not before. */
  lemma NestedAcquireRelease(me: ThreadId, n: nat, k: nat)
    requires 0 < k <= n
    ensures ReleaseTimes(AcquireTimes(Free, me, n), me, k).Ok?
    ensures ReleaseTimes(AcquireTimes(Free, me, n), me, k).value == Free <==> k == n
  {
    AcquireTimesOwned(Free, me, n);
    ReleaseTimesOwned(me, n, k);
  }

  /** The lock object; `timeout` is fixed at construction. */
  class TimeoutRLock {
    var owner: Option<ThreadId>
    var count: nat
    const timeout: Option<nat>

    ghost predicate Valid()
      reads this
    {
      State().Valid()
    }

    function State(): LockState
      reads this
    {
      LockState(owner, count)
    }

    constructor (timeout: Option<nat>)
      ensures State() == Free && this.timeout == timeout
    {
      owner := None;
      count := 0;
      this.timeout := timeout;
    }

    method Acquire(me: ThreadId, blocking: bool) returns (r: AcquireOutcome)
      requires Valid()
      modifies this
      ensures Valid()
      ensures (State(), r) == AcquireStep(old(State()), me, blocking, timeout)
    {
      AcquirePreservesValid(State(), me, blocking, timeout);
      if owner == Some(me) {
        count := count + 1;
        return Acquired;
      }
      if owner == None {
        owner := Some(me);
        count := 1;
        return Acquired;
      }
      if !blocking {
        return NotAcquired;
      }
      if !HasTimeout(timeout) {
        return Blocked;
      }
      return Failed(DeadBlockPreventionTimeOut);
    }

    method Release(me: ThreadId) returns (r: Result<(), Exception>)
      requires Valid()
      modifies this
      ensures Valid()
      ensures var step := ReleaseStep(old(State()), me);
              (r.Ok? <==> step.Ok?)
              && (step.Ok? ==> State() == step.value)
              && (step.Err? ==> State() == old(State()) && r == Err(step.error))
    {
      if owner != Some(me) {
        return Err(RuntimeError("cannot release un-aquired lock"));
      }
      count := count - 1;
      if count == 0 {
        owner := None;
      }
      return Ok(());
    }

    /** _release_save: give up the lock whatever the count, returning what restores it. */
    method ReleaseSave() returns (r: Result<(nat, Option<ThreadId>), Exception>)
      requires Valid()
      modifies this
      ensures Valid()
      ensures old(owner).None? ==> r == Err(ThreadError("release unlocked lock")) && State() == old(State())
      ensures old(owner).Some? ==> r == Ok((old(count), old(owner))) && State() == Free
    {
      if owner == None {
        // the underlying plain lock is not held, so releasing it raises the thread module's error
        return Err(ThreadError("release unlocked lock"));
      }
      r := Ok((count, owner));
      count := 0;
      owner := None;
    }

    /** _acquire_restore: take the plain lock again and reinstate count and owner. */
    method AcquireRestore(saved: (nat, Option<ThreadId>)) returns (r: AcquireOutcome)
      requires Valid()
      requires saved.0 > 0 <==> saved.1.Some?
      modifies this
      ensures Valid()
      ensures old(owner).Some? ==> r == Blocked && State() == old(State())
      ensures old(owner).None? ==> r == Acquired && State() == LockState(saved.1, saved.0)
    {
      if owner != None {
        return Blocked;
      }
      count := saved.0;
      owner := saved.1;
      return Acquired;
    }

    function IsOwned(me: ThreadId): (b: bool)
      reads this
      ensures b <==> owner == Some(me)
    {
      owner == Some(me)
    }
  }
}

=== FILE: tree_order.dfy ===
/**
 * The order in which the children of a wiki page appear in the tree.
 *
 * Every child is placed by its own properties: a "tree_position" gives it a
 * fixed place (1-based), a "priority" ranks it before all unplaced children,
 * and a child with neither, or with a value that is not a number, is
 * unplaced. Positioned and prioritised children are sorted by their numbers;
 * the merge then fills the output slot by slot.
 */
module TreeOrder {
  import opened Wrappers
  import opened PageAsts

  datatype Placement = Positioned(index: int) | Prioritized(priority: int) | Unplaced

  /** Which of the three lists a child with this placement goes to. */
  function KindOf(p: Placement): nat
  {
    match p
    case Positioned(_) => 0
    case Prioritized(_) => 1
    case Unplaced => 2
  }

  /** The children in `s` whose placement is exactly `p`, in the order of `s`. */
  function Having(s: seq<string>, place: string -> Placement, p: Placement): seq<string>
  {
    if |s| == 0 then []
    else Having(s[..|s| - 1], place, p) + (if place(s[|s| - 1]) == p then [s[|s| - 1]] else [])
  }

  lemma HavingAppend(s: seq<string>, w: string, place: string -> Placement, p: Placement)
    ensures Having(s + [w], place, p) == Having(s, place, p) + (if place(w) == p then [w] else [])
  {
    assert (s + [w])[..|s|] == s;
  }

  /** When every child in `s` has placement `p`, keeping those with `p` keeps all of `s`. */
  lemma {:induction false} HavingAll(s: seq<string>, place: string -> Placement, p: Placement)
    requires forall k :: 0 <= k < |s| ==> place(s[k]) == p
    ensures Having(s, place, p) == s
  {
    if |s| > 0 {
      HavingAll(s[..|s| - 1], place, p);
    }
  }

  /** The last value of `key`, read as a number; None if there is none or it is not a number. */
  function LastNumber(props: PropertyMap, key: string, parseInt: string -> Option<int>): Option<int>
  {
    if key in props && |props[key]| > 0 then parseInt(props[key][|props[key]| - 1]) else None
  }

  /**
   * The placement of a child with properties `props`. A "tree_position"
   * decides even when it is not a number (the child is then unplaced).
   */
  function PlacementOf(props: PropertyMap, parseInt: string -> Option<int>): Placement
  {
    if "tree_position" in props then
      (match LastNumber(props, "tree_position", parseInt)
       case Some(n) => Positioned(n - 1)
       case None => Unplaced)
    else if "priority" in props then
      (match LastNumber(props, "priority", parseInt)
       case Some(n) => Prioritized(n)
       case None => Unplaced)
    else Unplaced
  }

  type Keyed = (int, string)

  function Words(s: seq<Keyed>): (r: seq<string>)
    ensures |r| == |s|
    ensures forall i :: 0 <= i < |s| ==> r[i] == s[i].1
  {
    seq(|s|, i requires 0 <= i < |s| => s[i].1)
  }

  lemma WordsAppend(s: seq<Keyed>, e: Keyed)
    ensures Words(s + [e]) == Words(s) + [e.1]
  {
  }

  lemma WordsPrefix(s: seq<Keyed>, k: nat)
    requires k < |s|
    ensures Words(s[..k + 1]) == Words(s[..k]) + [s[k].1]
  {
    assert s[..k + 1] == s[..k] + [s[k]];
    WordsAppend(s[..k], s[k]);
  }

  predicate SortedByKey(s: seq<Keyed>)
  {
    forall i, j :: 0 <= i < j < |s| ==> s[i].0 <= s[j].0
  }

  predicate KeysAtMost(s: seq<Keyed>, bound: int)
  {
    forall i :: 0 <= i < |s| ==> s[i].0 <= bound
  }

  /** Inserts `x` after every trailing entry whose key is larger, so after entries with an equal key. */
  function InsertByKey(s: seq<Keyed>, x: Keyed): (r: seq<Keyed>)
    ensures |r| == |s| + 1
  {
    if |s| == 0 || s[|s| - 1].0 <= x.0 then s + [x]
    else InsertByKey(s[..|s| - 1], x) + [s[|s| - 1]]
  }

  lemma {:induction false} InsertByKeyMultiset(s: seq<Keyed>, x: Keyed)
    ensures multiset(InsertByKey(s, x)) == multiset(s) + multiset{x}
    ensures multiset(Words(InsertByKey(s, x))) == multiset(Words(s)) + multiset{x.1}
  {
    if |s| > 0 && s[|s| - 1].0 > x.0 {
      var init := s[..|s| - 1];
      InsertByKeyMultiset(init, x);
      assert s == init + [s[|s| - 1]];
      WordsAppend(init, s[|s| - 1]);
      WordsAppend(InsertByKey(init, x), s[|s| - 1]);
    } else {
      WordsAppend(s, x);
    }
  }

  lemma {:induction false} InsertByKeyBounded(s: seq<Keyed>, x: Keyed, bound: int)
    requires KeysAtMost(s, bound) && x.0 <= bound
    ensures KeysAtMost(InsertByKey(s, x), bound)
  {
    if |s| > 0 && s[|s| - 1].0 > x.0 {
      InsertByKeyBounded(s[..|s| - 1], x, bound);
    }
  }

  lemma {:induction false} InsertByKeySorted(s: seq<Keyed>, x: Keyed)
    requires SortedByKey(s)
    ensures SortedByKey(InsertByKey(s, x))
  {
    if |s| > 0 && s[|s| - 1].0 > x.0 {
      var init := s[..|s| - 1];
      var last := s[|s| - 1];
      InsertByKeySorted(init, x);
      InsertByKeyBounded(init, x, last.0);
    }
  }

  /** The entries of `s` with key `key`, in the order of `s`. */
  function WithKey(s: seq<Keyed>, key: int): seq<Keyed>
  {
    if |s| == 0 then []
    else WithKey(s[..|s| - 1], key) + (if s[|s| - 1].0 == key then [s[|s| - 1]] else [])
  }

  /** Inserting `x` puts it after every entry with its key and moves no other entry past an equal key. */
  lemma {:induction false} InsertByKeyWithKey(s: seq<Keyed>, x: Keyed, key: int)
    ensures WithKey(InsertByKey(s, x), key) == WithKey(s, key) + (if x.0 == key then [x] else [])
  {
    if |s| > 0 && s[|s| - 1].0 > x.0 {
      var init := s[..|s| - 1];
      InsertByKeyWithKey(init, x, key);
      var r := InsertByKey(init, x) + [s[|s| - 1]];
      assert r[..|r| - 1] == InsertByKey(init, x);
    } else {
      assert (s + [x])[..|s|] == s;
    }
  }

  /** Sorts by key; entries with equal keys keep their order. */
  function SortByKey(xs: seq<Keyed>): (r: seq<Keyed>)
    ensures |r| == |xs|
  {
    if |xs| == 0 then [] else InsertByKey(SortByKey(xs[..|xs| - 1]), xs[|xs| - 1])
  }

  /**
   * Sorting yields a sorted permutation, of the entries and of their words,
   * and is stable: the entries with any one key keep their order.
   */
  lemma {:induction false} SortByKeyCorrect(xs: seq<Keyed>)
    ensures SortedByKey(SortByKey(xs))
    ensures multiset(SortByKey(xs)) == multiset(xs)
    ensures multiset(Words(SortByKey(xs))) == multiset(Words(xs))
    ensures forall key :: WithKey(SortByKey(xs), key) == WithKey(xs, key)
  {
    if |xs| > 0 {
      var init := xs[..|xs| - 1];
      SortByKeyCorrect(init);
      InsertByKeySorted(SortByKey(init), xs[|xs| - 1]);
      InsertByKeyMultiset(SortByKey(init), xs[|xs| - 1]);
      assert xs == init + [xs[|xs| - 1]];
      WordsAppend(init, xs[|xs| - 1]);
    }
    forall key ensures WithKey(SortByKey(xs), key) == WithKey(xs, key) {
      SortByKeyStable(xs, key);
    }
  }

  /** The entries with key `key` keep their order through the sort. */
  lemma {:induction false} SortByKeyStable(xs: seq<Keyed>, key: int)
    ensures WithKey(SortByKey(xs), key) == WithKey(xs, key)
  {
    if |xs| > 0 {
      SortByKeyStable(xs[..|xs| - 1], key);
      InsertByKeyWithKey(SortByKey(xs[..|xs| - 1]), xs[|xs| - 1], key);
    }
  }

  /** The three lists the children fall into by placement, each in the order of `relations`. */
  function Classify(relations: seq<string>, place: string -> Placement): (seq<Keyed>, seq<Keyed>, seq<string>)
  {
    if |relations| == 0 then ([], [], [])
    else
      var c := Classify(relations[..|relations| - 1], place);
      var w := relations[|relations| - 1];
      match place(w)
      case Positioned(p) => (c.0 + [(p, w)], c.1, c.2)
      case Prioritized(q) => (c.0, c.1 + [(q, w)], c.2)
      case Unplaced => (c.0, c.1, c.2 + [w])
  }

  /** Classifying one more child appends it to the list of its placement. */
  lemma ClassifyStep(relations: seq<string>, i: nat, place: string -> Placement)
    requires i < |relations|
    ensures var c := Classify(relations[..i], place);
            var c' := Classify(relations[..i + 1], place);
            match place(relations[i])
            case Positioned(p) => c' == (c.0 + [(p, relations[i])], c.1, c.2)
            case Prioritized(q) => c' == (c.0, c.1 + [(q, relations[i])], c.2)
            case Unplaced => c' == (c.0, c.1, c.2 + [relations[i]])
  {
    assert relations[..i + 1][..i] == relations[..i];
  }

  /** Every child lands in exactly one of the three lists. */
  lemma {:induction false} ClassifyKeepsChildren(relations: seq<string>, place: string -> Placement)
    ensures var c := Classify(relations, place);
            multiset(Words(c.0)) + multiset(Words(c.1)) + multiset(c.2) == multiset(relations)
  {
    if |relations| > 0 {
      var init := relations[..|relations| - 1];
      var w := relations[|relations| - 1];
      ClassifyKeepsChildren(init, place);
      ClassifyAddsChild(init, w, place);
      assert init + [w] == relations;
      assert multiset(relations) == multiset(init) + multiset{w};
    }
  }

  /** Classifying one more child adds it to exactly one of the lists. */
  lemma ClassifyAddsChild(init: seq<string>, w: string, place: string -> Placement)
    ensures var c := Classify(init, place);
            var c' := Classify(init + [w], place);
            multiset(Words(c'.0)) + multiset(Words(c'.1)) + multiset(c'.2) ==
            multiset(Words(c.0)) + multiset(Words(c.1)) + multiset(c.2) + multiset{w}
  {
    var c := Classify(init, place);
    var c' := Classify(init + [w], place);
    assert (init + [w])[..|init|] == init;
    match place(w)
    case Positioned(p) => {
      assert c' == (c.0 + [(p, w)], c.1, c.2);
      WordsAppend(c.0, (p, w));
    }
    case Prioritized(q) => {
      assert c' == (c.0, c.1 + [(q, w)], c.2);
      WordsAppend(c.1, (q, w));
    }
    case Unplaced => {
      assert c' == (c.0, c.1, c.2 + [w]);
    }
  }

  /** Each list holds only children of its placement, with the key that placement gives. */
  lemma {:induction false} ClassifyPlacements(relations: seq<string>, place: string -> Placement)
    ensures forall e :: e in Classify(relations, place).0 ==> place(e.1) == Positioned(e.0)
    ensures forall e :: e in Classify(relations, place).1 ==> place(e.1) == Prioritized(e.0)
    ensures forall w :: w in Classify(relations, place).2 ==> place(w) == Unplaced
  {
    if |relations| > 0 {
      var c := Classify(relations[..|relations| - 1], place);
      var c' := Classify(relations, place);
      var w := relations[|relations| - 1];
      ClassifyPlacements(relations[..|relations| - 1], place);
      match place(w)
      case Positioned(p) => {
        assert c' == (c.0 + [(p, w)], c.1, c.2);
      }
      case Prioritized(q) => {
        assert c' == (c.0, c.1 + [(q, w)], c.2);
      }
      case Unplaced => {
        assert c' == (c.0, c.1, c.2 + [w]);
      }
    }
  }

  /**
   * Splits the children by placement, each list in the order of `relations`.
   */
  method ClassifyRelations(relations: seq<string>, place: string -> Placement)
    returns (positioned: seq<Keyed>, priorized: seq<Keyed>, other: seq<string>)
    ensures (positioned, priorized, other) == Classify(relations, place)
    ensures multiset(Words(positioned)) + multiset(Words(priorized)) + multiset(other) == multiset(relations)
    ensures forall k :: 0 <= k < |positioned| ==> place(positioned[k].1) == Positioned(positioned[k].0)
    ensures forall k :: 0 <= k < |priorized| ==> place(priorized[k].1) == Prioritized(priorized[k].0)
    ensures forall k :: 0 <= k < |other| ==> place(other[k]) == Unplaced
  {
    positioned, priorized, other := [], [], [];
    var i := 0;
    while i < |relations|
      invariant 0 <= i <= |relations|
      invariant positioned == Classify(relations[..i], place).0
      invariant priorized == Classify(relations[..i], place).1
      invariant other == Classify(relations[..i], place).2
    {
      var relation := relations[i];
      ClassifyStep(relations, i, place);
      match place(relation) {
        case Positioned(p) => {
          positioned := positioned + [(p, relation)];
        }
        case Prioritized(q) => {
          priorized := priorized + [(q, relation)];
        }
        case Unplaced => {
          other := other + [relation];
        }
      }
      i := i + 1;
    }
    assert relations[..i] == relations;
    ClassifyKeepsChildren(relations, place);
    ClassifyPlacements(relations, place);
  }

  /** Where an output entry was taken from: its list and its index there. */
  datatype Origin = FromPositioned(k: nat) | FromPriorized(k: nat) | FromOther(k: nat)

  function OriginKind(o: Origin): nat
  {
    match o
    case FromPositioned(_) => 0
    case FromPriorized(_) => 1
    case FromOther(_) => 2
  }

  /** The output entries taken from the list of kind `kind`, in output order. */
  function FromKind(result: seq<string>, origins: seq<Origin>, kind: nat): seq<string>
    requires |result| == |origins|
  {
    if |result| == 0 then []
    else FromKind(result[..|result| - 1], origins[..|origins| - 1], kind)
         + (if OriginKind(origins[|origins| - 1]) == kind then [result[|result| - 1]] else [])
  }

  lemma FromKindAppend(result: seq<string>, origins: seq<Origin>, w: string, o: Origin, kind: nat)
    requires |result| == |origins|
    ensures FromKind(result + [w], origins + [o], kind) ==
            FromKind(result, origins, kind) + (if OriginKind(o) == kind then [w] else [])
  {
    assert (result + [w])[..|result|] == result;
    assert (origins + [o])[..|origins|] == origins;
  }

  /** Output entry `w` is the entry `o` names. */
  predicate TakenFrom(o: Origin, w: string, positioned: seq<Keyed>, priorized: seq<Keyed>, other: seq<string>)
  {
    match o
    case FromPositioned(k) => k < |positioned| && w == positioned[k].1
    case FromPriorized(k) => k < |priorized| && w == priorized[k].1
    case FromOther(k) => k < |other| && w == other[k]
  }

  /** Each list is consumed front to back. */
  predicate InListOrder(a: Origin, b: Origin)
  {
    (a.FromPositioned? && b.FromPositioned? ==> a.k < b.k) &&
    (a.FromPriorized? && b.FromPriorized? ==> a.k < b.k) &&
    (a.FromOther? && b.FromOther? ==> a.k < b.k)
  }

  /** A prioritised entry never follows an unplaced one. */
  predicate PriorizedFirst(a: Origin, b: Origin)
  {
    !(a.FromOther? && b.FromPriorized?)
  }

  /** Positioned entry `o` landed at output index `j`, before its own index. */
  predicate PlacedEarly(o: Origin, j: int, positioned: seq<Keyed>)
  {
    o.FromPositioned? && o.k < |positioned| && j < positioned[o.k].0
  }

  /** Positioned entry `o` landed at output index `j`, after its own index. */
  predicate PlacedLate(o: Origin, j: int, positioned: seq<Keyed>)
  {
    o.FromPositioned? && o.k < |positioned| && positioned[o.k].0 < j
  }

  /**
   * The merge never passes over a positioned entry that is due: one lands
   * after its index only right behind another positioned entry, and when
   * the last slot was filled from another list the next positioned entry
   * was not yet due there.
   */
  ghost predicate NotPassedOver(origins: seq<Origin>, ipo: nat, positioned: seq<Keyed>)
  {
    (forall j :: 0 < j < |origins| && PlacedLate(origins[j], j, positioned) ==> origins[j - 1].FromPositioned?) &&
    (0 < |origins| && !origins[|origins| - 1].FromPositioned? && ipo < |positioned| ==>
      positioned[ipo].0 >= |origins|)
  }

  /** Filling the next slot with the next positioned entry, or from another list while it is not due. */
  lemma NotPassedOverStep(origins: seq<Origin>, ipo: nat, positioned: seq<Keyed>, o: Origin)
    requires NotPassedOver(origins, ipo, positioned)
    requires (o == FromPositioned(ipo) && ipo < |positioned|) ||
             (!o.FromPositioned? && (ipo < |positioned| ==> positioned[ipo].0 > |origins|))
    ensures NotPassedOver(origins + [o], if o.FromPositioned? then ipo + 1 else ipo, positioned)
  {
    var origins' := origins + [o];
    forall j | 0 < j < |origins'| && PlacedLate(origins'[j], j, positioned)
      ensures origins'[j - 1].FromPositioned?
    {
      assert origins'[j - 1] == origins[j - 1];
      if j < |origins| {
        assert origins'[j] == origins[j];
      }
    }
  }

  /** Every output entry after index `j` is a positioned one. */
  predicate OnlyPositionedAfter(origins: seq<Origin>, j: int)
  {
    forall j2 :: 0 <= j < j2 < |origins| ==> origins[j2].FromPositioned?
  }

  /** Entry `o` was taken from a list before the current read positions. */
  predicate Consumed(o: Origin, ipo: nat, ipr: nat, iot: nat)
  {
    (o.FromPositioned? ==> o.k < ipo) && (o.FromPriorized? ==> o.k < ipr) && (o.FromOther? ==> o.k < iot)
  }

  /**
   * What the first `|result|` slots of the merge hold, having read `ipo`
   * positioned, `ipr` prioritised and `iot` unplaced entries.
   */
  ghost predicate MergeTaken(result: seq<string>, origins: seq<Origin>, ipo: nat, ipr: nat, iot: nat,
                             positioned: seq<Keyed>, priorized: seq<Keyed>, other: seq<string>)
  {
    ipo <= |positioned| && ipr <= |priorized| && iot <= |other| &&
    |result| == |origins| == ipo + ipr + iot &&
    multiset(result) ==
      multiset(Words(positioned[..ipo])) + multiset(Words(priorized[..ipr])) + multiset(other[..iot]) &&
    (forall j :: 0 <= j < |result| ==> TakenFrom(origins[j], result[j], positioned, priorized, other)) &&
    (forall j :: 0 <= j < |origins| ==> Consumed(origins[j], ipo, ipr, iot))
  }

  /** The order in which the merge has taken its entries so far. */
  ghost predicate MergeOrder(origins: seq<Origin>, ipr: nat, iot: nat,
                             positioned: seq<Keyed>, priorized: seq<Keyed>, other: seq<string>)
  {
    (forall j1, j2 :: 0 <= j1 < j2 < |origins| ==> InListOrder(origins[j1], origins[j2])) &&
    (forall j1, j2 :: 0 <= j1 < j2 < |origins| ==> PriorizedFirst(origins[j1], origins[j2])) &&
    (iot > 0 ==> ipr == |priorized|) &&
    (forall j :: 0 <= j < |origins| && PlacedEarly(origins[j], j, positioned) ==>
      ipr == |priorized| && iot == |other| && OnlyPositionedAfter(origins, j))
  }

  /** Read per list, the output so far is exactly the part of each list read so far. */
  ghost predicate MergeLists(result: seq<string>, origins: seq<Origin>, ipo: nat, ipr: nat, iot: nat,
                             positioned: seq<Keyed>, priorized: seq<Keyed>, other: seq<string>)
  {
    ipo <= |positioned| && ipr <= |priorized| && iot <= |other| && |result| == |origins| &&
    FromKind(result, origins, 0) == Words(positioned[..ipo]) &&
    FromKind(result, origins, 1) == Words(priorized[..ipr]) &&
    FromKind(result, origins, 2) == other[..iot]
  }

  /** Taking the next entry of one list extends that list's part and no other. */
  lemma TakenLists(result: seq<string>, origins: seq<Origin>, ipo: nat, ipr: nat, iot: nat,
                   positioned: seq<Keyed>, priorized: seq<Keyed>, other: seq<string>, o: Origin)
    requires MergeLists(result, origins, ipo, ipr, iot, positioned, priorized, other)
    requires o == FromPositioned(ipo) || o == FromPriorized(ipr) || o == FromOther(iot)
    requires o.FromPositioned? ==> ipo < |positioned|
    requires o.FromPriorized? ==> ipr < |priorized|
    requires o.FromOther? ==> iot < |other|
    ensures var w := if o.FromPositioned? then positioned[ipo].1 else if o.FromPriorized? then priorized[ipr].1 else other[iot];
            MergeLists(result + [w], origins + [o],
                       if o.FromPositioned? then ipo + 1 else ipo,
                       if o.FromPriorized? then ipr + 1 else ipr,
                       if o.FromOther? then iot + 1 else iot,
                       positioned, priorized, other)
  {
    var w := if o.FromPositioned? then positioned[ipo].1 else if o.FromPriorized? then priorized[ipr].1 else other[iot];
    FromKindAppend(result, origins, w, o, 0);
    FromKindAppend(result, origins, w, o, 1);
    FromKindAppend(result, origins, w, o, 2);
    if o.FromPositioned? {
      WordsPrefix(positioned, ipo);
    } else if o.FromPriorized? {
      WordsPrefix(priorized, ipr);
    } else {
      assert other[..iot + 1] == other[..iot] + [other[iot]];
    }
  }

  /** Once every slot is filled, every list has been read to its end. */
  lemma MergeDone(result: seq<string>, origins: seq<Origin>, ipo: nat, ipr: nat, iot: nat,
                  positioned: seq<Keyed>, priorized: seq<Keyed>, other: seq<string>)
    requires MergeTaken(result, origins, ipo, ipr, iot, positioned, priorized, other)
    requires MergeLists(result, origins, ipo, ipr, iot, positioned, priorized, other)
    requires |result| == |positioned| + |priorized| + |other|
    ensures multiset(result) == multiset(Words(positioned)) + multiset(Words(priorized)) + multiset(other)
    ensures FromKind(result, origins, 0) == Words(positioned)
    ensures FromKind(result, origins, 1) == Words(priorized)
    ensures FromKind(result, origins, 2) == other
  {
    assert positioned[..ipo] == positioned;
    assert priorized[..ipr] == priorized;
    assert other[..iot] == other;
  }

  /** The loop invariant of the merge. */
  ghost predicate MergeInv(result: seq<string>, origins: seq<Origin>, ipo: nat, ipr: nat, iot: nat,
                           positioned: seq<Keyed>, priorized: seq<Keyed>, other: seq<string>)
  {
    MergeTaken(result, origins, ipo, ipr, iot, positioned, priorized, other) &&
    MergeOrder(origins, ipr, iot, positioned, priorized, other)
  }

  /** Taking the next positioned entry keeps the record of what was taken. */
  lemma TakenPositioned(result: seq<string>, origins: seq<Origin>, ipo: nat, ipr: nat, iot: nat,
                        positioned: seq<Keyed>, priorized: seq<Keyed>, other: seq<string>)
    requires MergeTaken(result, origins, ipo, ipr, iot, positioned, priorized, other)
    requires ipo < |positioned|
    ensures MergeTaken(result + [positioned[ipo].1], origins + [FromPositioned(ipo)], ipo + 1, ipr, iot,
                       positioned, priorized, other)
  {
    WordsPrefix(positioned, ipo);
    var result' := result + [positioned[ipo].1];
    var origins' := origins + [FromPositioned(ipo)];
    forall j | 0 <= j < |result'|
      ensures TakenFrom(origins'[j], result'[j], positioned, priorized, other)
      ensures Consumed(origins'[j], ipo + 1, ipr, iot)
    {
      if j < |result| {
        assert origins'[j] == origins[j] && result'[j] == result[j];
      }
    }
  }

  /** Taking the next prioritised entry keeps the record of what was taken. */
  lemma TakenPriorized(result: seq<string>, origins: seq<Origin>, ipo: nat, ipr: nat, iot: nat,
                       positioned: seq<Keyed>, priorized: seq<Keyed>, other: seq<string>)
    requires MergeTaken(result, origins, ipo, ipr, iot, positioned, priorized, other)
    requires ipr < |priorized|
    ensures MergeTaken(result + [priorized[ipr].1], origins + [FromPriorized(ipr)], ipo, ipr + 1, iot,
                       positioned, priorized, other)
  {
    WordsPrefix(priorized, ipr);
    var result' := result + [priorized[ipr].1];
    var origins' := origins + [FromPriorized(ipr)];
    forall j | 0 <= j < |result'|
      ensures TakenFrom(origins'[j], result'[j], positioned, priorized, other)
      ensures Consumed(origins'[j], ipo, ipr + 1, iot)
    {
      if j < |result| {
        assert origins'[j] == origins[j] && result'[j] == result[j];
      }
    }
  }

  /** Taking the next unplaced entry keeps the record of what was taken. */
  lemma TakenOther(result: seq<string>, origins: seq<Origin>, ipo: nat, ipr: nat, iot: nat,
                   positioned: seq<Keyed>, priorized: seq<Keyed>, other: seq<string>)
    requires MergeTaken(result, origins, ipo, ipr, iot, positioned, priorized, other)
    requires iot < |other|
    ensures MergeTaken(result + [other[iot]], origins + [FromOther(iot)], ipo, ipr, iot + 1,
                       positioned, priorized, other)
  {
    assert other[..iot + 1] == other[..iot] + [other[iot]];
    var result' := result + [other[iot]];
    var origins' := origins + [FromOther(iot)];
    forall j | 0 <= j < |result'|
      ensures TakenFrom(origins'[j], result'[j], positioned, priorized, other)
      ensures Consumed(origins'[j], ipo, ipr, iot + 1)
    {
      if j < |result| {
        assert origins'[j] == origins[j] && result'[j] == result[j];
      }
    }
  }

  /** Taking the next positioned entry: at or after its index, or once the other two lists are used up. */
  lemma TakePositioned(result: seq<string>, origins: seq<Origin>, ipo: nat, ipr: nat, iot: nat,
                       positioned: seq<Keyed>, priorized: seq<Keyed>, other: seq<string>)
    requires MergeInv(result, origins, ipo, ipr, iot, positioned, priorized, other)
    requires ipo < |positioned|
    requires positioned[ipo].0 <= |result| || (ipr == |priorized| && iot == |other|)
    ensures MergeInv(result + [positioned[ipo].1], origins + [FromPositioned(ipo)], ipo + 1, ipr, iot,
                     positioned, priorized, other)
  {
    TakenPositioned(result, origins, ipo, ipr, iot, positioned, priorized, other);
    var origins' := origins + [FromPositioned(ipo)];
    forall j1, j2 | 0 <= j1 < j2 < |origins'|
      ensures InListOrder(origins'[j1], origins'[j2]) && PriorizedFirst(origins'[j1], origins'[j2])
    {
      assert origins'[j1] == origins[j1];
      if j2 < |origins| {
        assert origins'[j2] == origins[j2];
      } else {
        assert Consumed(origins[j1], ipo, ipr, iot);
      }
    }
    forall j | 0 <= j < |origins'| && PlacedEarly(origins'[j], j, positioned)
      ensures ipr == |priorized| && iot == |other| && OnlyPositionedAfter(origins', j)
    {
      if j < |origins| {
        assert origins'[j] == origins[j];
        assert PlacedEarly(origins[j], j, positioned);
      }
    }
  }

  /** Taking the next prioritised entry. */
  lemma TakePriorized(result: seq<string>, origins: seq<Origin>, ipo: nat, ipr: nat, iot: nat,
                      positioned: seq<Keyed>, priorized: seq<Keyed>, other: seq<string>)
    requires MergeInv(result, origins, ipo, ipr, iot, positioned, priorized, other)
    requires ipr < |priorized|
    ensures MergeInv(result + [priorized[ipr].1], origins + [FromPriorized(ipr)], ipo, ipr + 1, iot,
                     positioned, priorized, other)
  {
    TakenPriorized(result, origins, ipo, ipr, iot, positioned, priorized, other);
    var origins' := origins + [FromPriorized(ipr)];
    assert forall j :: 0 <= j < |origins| ==> !origins[j].FromOther? && Consumed(origins[j], ipo, ipr, iot);
    assert forall j :: 0 <= j < |origins| ==> !PlacedEarly(origins[j], j, positioned);
    assert !PlacedEarly(origins'[|origins|], |origins|, positioned);
  }

  /** Taking the next unplaced entry, once the prioritised ones are used up. */
  lemma TakeOther(result: seq<string>, origins: seq<Origin>, ipo: nat, ipr: nat, iot: nat,
                  positioned: seq<Keyed>, priorized: seq<Keyed>, other: seq<string>)
    requires MergeInv(result, origins, ipo, ipr, iot, positioned, priorized, other)
    requires ipr == |priorized| && iot < |other|
    ensures MergeInv(result + [other[iot]], origins + [FromOther(iot)], ipo, ipr, iot + 1,
                     positioned, priorized, other)
  {
    TakenOther(result, origins, ipo, ipr, iot, positioned, priorized, other);
    var origins' := origins + [FromOther(iot)];
    assert forall j :: 0 <= j < |origins| ==> Consumed(origins[j], ipo, ipr, iot);
    assert forall j :: 0 <= j < |origins| ==> !PlacedEarly(origins[j], j, positioned);
    assert !PlacedEarly(origins'[|origins|], |origins|, positioned);
  }

  /** The whole state the merge loop keeps. */
  ghost predicate MergeState(result: seq<string>, origins: seq<Origin>, ipo: nat, ipr: nat, iot: nat,
                             positioned: seq<Keyed>, priorized: seq<Keyed>, other: seq<string>)
  {
    MergeInv(result, origins, ipo, ipr, iot, positioned, priorized, other) &&
    MergeLists(result, origins, ipo, ipr, iot, positioned, priorized, other) &&
    NotPassedOver(origins, ipo, positioned)
  }

  /** Filling the next slot with the next positioned entry. */
  lemma SlotPositioned(result: seq<string>, origins: seq<Origin>, ipo: nat, ipr: nat, iot: nat,
                       positioned: seq<Keyed>, priorized: seq<Keyed>, other: seq<string>)
    requires MergeState(result, origins, ipo, ipr, iot, positioned, priorized, other)
    requires ipo < |positioned|
    requires positioned[ipo].0 <= |result| || (ipr == |priorized| && iot == |other|)
    ensures MergeState(result + [positioned[ipo].1], origins + [FromPositioned(ipo)], ipo + 1, ipr, iot,
                       positioned, priorized, other)
  {
    NotPassedOverStep(origins, ipo, positioned, FromPositioned(ipo));
    TakePositioned(result, origins, ipo, ipr, iot, positioned, priorized, other);
    TakenLists(result, origins, ipo, ipr, iot, positioned, priorized, other, FromPositioned(ipo));
  }

  /** Filling the next slot with the next prioritised entry, while no positioned entry is due. */
  lemma SlotPriorized(result: seq<string>, origins: seq<Origin>, ipo: nat, ipr: nat, iot: nat,
                      positioned: seq<Keyed>, priorized: seq<Keyed>, other: seq<string>)
    requires MergeState(result, origins, ipo, ipr, iot, positioned, priorized, other)
    requires ipr < |priorized|
    requires ipo < |positioned| ==> positioned[ipo].0 > |result|
    ensures MergeState(result + [priorized[ipr].1], origins + [FromPriorized(ipr)], ipo, ipr + 1, iot,
                       positioned, priorized, other)
  {
    NotPassedOverStep(origins, ipo, positioned, FromPriorized(ipr));
    TakePriorized(result, origins, ipo, ipr, iot, positioned, priorized, other);
    TakenLists(result, origins, ipo, ipr, iot, positioned, priorized, other, FromPriorized(ipr));
  }

  /** Filling the next slot with the next unplaced entry, once the prioritised ones are used up. */
  lemma SlotOther(result: seq<string>, origins: seq<Origin>, ipo: nat, ipr: nat, iot: nat,
                  positioned: seq<Keyed>, priorized: seq<Keyed>, other: seq<string>)
    requires MergeState(result, origins, ipo, ipr, iot, positioned, priorized, other)
    requires ipr == |priorized| && iot < |other|
    requires ipo < |positioned| ==> positioned[ipo].0 > |result|
    ensures MergeState(result + [other[iot]], origins + [FromOther(iot)], ipo, ipr, iot + 1,
                       positioned, priorized, other)
  {
    NotPassedOverStep(origins, ipo, positioned, FromOther(iot));
    TakeOther(result, origins, ipo, ipr, iot, positioned, priorized, other);
    TakenLists(result, origins, ipo, ipr, iot, positioned, priorized, other, FromOther(iot));
  }

  /**
   * One turn of the merge loop: fills slot `|result|` from the list the
   * merge reads next.
   */
  method MergeSlot(result: seq<string>, ghost origins: seq<Origin>, ipo: nat, ipr: nat, iot: nat,
                   positioned: seq<Keyed>, priorized: seq<Keyed>, other: seq<string>)
    returns (result': seq<string>, ghost origins': seq<Origin>, ipo': nat, ipr': nat, iot': nat)
    requires MergeState(result, origins, ipo, ipr, iot, positioned, priorized, other)
    requires |result| < |positioned| + |priorized| + |other|
    ensures |result'| == |result| + 1 && result'[..|result|] == result
    ensures MergeState(result', origins', ipo', ipr', iot', positioned, priorized, other)
  {
    var i := |result|;
    if ipo < |positioned| && positioned[ipo].0 <= i {
      SlotPositioned(result, origins, ipo, ipr, iot, positioned, priorized, other);
      result', origins', ipo', ipr', iot' := result + [positioned[ipo].1], origins + [FromPositioned(ipo)], ipo + 1, ipr, iot;
    } else if ipr < |priorized| {
      SlotPriorized(result, origins, ipo, ipr, iot, positioned, priorized, other);
      result', origins', ipo', ipr', iot' := result + [priorized[ipr].1], origins + [FromPriorized(ipr)], ipo, ipr + 1, iot;
    } else if iot < |other| {
      SlotOther(result, origins, ipo, ipr, iot, positioned, priorized, other);
      result', origins', ipo', ipr', iot' := result + [other[iot]], origins + [FromOther(iot)], ipo, ipr, iot + 1;
    } else if ipo < |positioned| {
      SlotPositioned(result, origins, ipo, ipr, iot, positioned, priorized, other);
      result', origins', ipo', ipr', iot' := result + [positioned[ipo].1], origins + [FromPositioned(ipo)], ipo + 1, ipr, iot;
    } else {
      assert false;
    }
  }

  /**
   * The merge of the three lists into tree order. Slot `i` takes the next
   * positioned entry if its index is at most `i`, otherwise the next
   * prioritised entry, otherwise the next unplaced one, otherwise the next
   * positioned entry although its index has not been reached; the error for
   * all lists being empty is never raised.
   *
   * `origins` records where each output entry came from.
   */
  method MergeTreeOrder(positioned: seq<Keyed>, priorized: seq<Keyed>, other: seq<string>)
    returns (result: seq<string>, ghost origins: seq<Origin>)
    ensures |result| == |origins| == |positioned| + |priorized| + |other|
    ensures multiset(result) == multiset(Words(positioned)) + multiset(Words(priorized)) + multiset(other)
    ensures forall j :: 0 <= j < |result| ==> TakenFrom(origins[j], result[j], positioned, priorized, other)
    ensures forall j1, j2 :: 0 <= j1 < j2 < |result| ==> InListOrder(origins[j1], origins[j2])
    ensures forall j1, j2 :: 0 <= j1 < j2 < |result| ==> PriorizedFirst(origins[j1], origins[j2])
    ensures forall j :: 0 <= j < |result| && PlacedEarly(origins[j], j, positioned) ==> OnlyPositionedAfter(origins, j)
    ensures forall j :: 0 < j < |result| && PlacedLate(origins[j], j, positioned) ==> origins[j - 1].FromPositioned?
    ensures FromKind(result, origins, 0) == Words(positioned)
    ensures FromKind(result, origins, 1) == Words(priorized)
    ensures FromKind(result, origins, 2) == other
  {
    result, origins := [], [];
    var ipr, ipo, iot := 0, 0, 0;
    var n := |positioned| + |priorized| + |other|;
    for i := 0 to n
      invariant i == |result|
      invariant MergeState(result, origins, ipo, ipr, iot, positioned, priorized, other)
    {
      result, origins, ipo, ipr, iot := MergeSlot(result, origins, ipo, ipr, iot, positioned, priorized, other);
    }
    MergeDone(result, origins, ipo, ipr, iot, positioned, priorized, other);
  }

  /** The placement of child `w`, read from its properties `propsOf(w)`. */
  function Place(propsOf: string -> PropertyMap, parseInt: string -> Option<int>, w: string): Placement
  {
    PlacementOf(propsOf(w), parseInt)
  }

  /** `Place` as a function of the child alone. */
  function PlaceFn(propsOf: string -> PropertyMap, parseInt: string -> Option<int>): string -> Placement
  {
    w => Place(propsOf, parseInt, w)
  }

  /**
   * The children of a page in tree order: the relations, already in the
   * page's child sort order, are placed by their properties; positioned and
   * prioritised children are sorted by their numbers and merged with the
   * unplaced ones. The result is a permutation of the relations; every
   * prioritised child comes before every unplaced one and in ascending
   * priority; a positioned child lands before its index only when no
   * prioritised or unplaced child follows it, and after its index only
   * right behind another positioned child.
   */
  method ChildRelationsTreeOrder(relations: seq<string>, propsOf: string -> PropertyMap, parseInt: string -> Option<int>)
    returns (result: seq<string>)
    ensures multiset(result) == multiset(relations)
    ensures forall j1, j2 :: 0 <= j1 < j2 < |result| && Place(propsOf, parseInt, result[j1]).Unplaced? ==>
      !Place(propsOf, parseInt, result[j2]).Prioritized?
    ensures forall j1, j2 ::
      (0 <= j1 < j2 < |result| &&
       Place(propsOf, parseInt, result[j1]).Prioritized? && Place(propsOf, parseInt, result[j2]).Prioritized?) ==>
      Place(propsOf, parseInt, result[j1]).priority <= Place(propsOf, parseInt, result[j2]).priority
    ensures forall j1, j2 ::
      (0 <= j1 < j2 < |result| &&
       Place(propsOf, parseInt, result[j1]).Positioned? && Place(propsOf, parseInt, result[j2]).Positioned?) ==>
      Place(propsOf, parseInt, result[j1]).index <= Place(propsOf, parseInt, result[j2]).index
    ensures forall j ::
      (0 <= j < |result| && Place(propsOf, parseInt, result[j]).Positioned? &&
       j < Place(propsOf, parseInt, result[j]).index) ==>
      forall j2 :: j < j2 < |result| ==> Place(propsOf, parseInt, result[j2]).Positioned?
    ensures forall j ::
      (0 < j < |result| && Place(propsOf, parseInt, result[j]).Positioned? &&
       Place(propsOf, parseInt, result[j]).index < j) ==>
      Place(propsOf, parseInt, result[j - 1]).Positioned?
    ensures forall p :: Having(result, PlaceFn(propsOf, parseInt), p) == Having(relations, PlaceFn(propsOf, parseInt), p)
    ensures (forall w :: w in relations ==> Place(propsOf, parseInt, w).Unplaced?) ==> result == relations
  {
    var place := PlaceFn(propsOf, parseInt);
    assert forall w :: place(w) == Place(propsOf, parseInt, w);
    var positioned, priorized, other := ClassifyRelations(relations, place);
    var sortedPositioned := SortByKey(positioned);
    var sortedPriorized := SortByKey(priorized);
    SortByKeyCorrect(positioned);
    SortByKeyCorrect(priorized);
    SortedKeepsPlacement(positioned, sortedPositioned, place, true);
    SortedKeepsPlacement(priorized, sortedPriorized, place, false);
    ghost var origins;
    result, origins := MergeTreeOrder(sortedPositioned, sortedPriorized, other);
    OriginPlacement(result, origins, sortedPositioned, sortedPriorized, other, place, propsOf, parseInt);
    forall p ensures Having(result, place, p) == Having(relations, place, p) {
      MergeKeepsTies(relations, place, result, origins, p);
    }
    if forall w :: w in relations ==> place(w).Unplaced? {
      NothingPlacedKeepsOrder(relations, result, place);
    }
  }

  /** Sorting keeps every entry's placement, because it only reorders entries. */
  lemma SortedKeepsPlacement(xs: seq<Keyed>, ys: seq<Keyed>, place: string -> Placement, positioned: bool)
    requires multiset(xs) == multiset(ys)
    requires positioned ==> forall k :: 0 <= k < |xs| ==> place(xs[k].1) == Positioned(xs[k].0)
    requires !positioned ==> forall k :: 0 <= k < |xs| ==> place(xs[k].1) == Prioritized(xs[k].0)
    ensures positioned ==> forall k :: 0 <= k < |ys| ==> place(ys[k].1) == Positioned(ys[k].0)
    ensures !positioned ==> forall k :: 0 <= k < |ys| ==> place(ys[k].1) == Prioritized(ys[k].0)
  {
    forall k | 0 <= k < |ys|
      ensures positioned ==> place(ys[k].1) == Positioned(ys[k].0)
      ensures !positioned ==> place(ys[k].1) == Prioritized(ys[k].0)
    {
      assert ys[k] in multiset(xs);
      var m :| 0 <= m < |xs| && xs[m] == ys[k];
    }
  }

  /** The output of the merge, read through the placements of its entries. */
  lemma OriginPlacement(result: seq<string>, origins: seq<Origin>, positioned: seq<Keyed>, priorized: seq<Keyed>,
                        other: seq<string>, place: string -> Placement,
                        propsOf: string -> PropertyMap, parseInt: string -> Option<int>)
    requires |result| == |origins|
    requires forall w :: place(w) == Place(propsOf, parseInt, w)
    requires SortedByKey(positioned) && SortedByKey(priorized)
    requires forall k :: 0 <= k < |positioned| ==> place(positioned[k].1) == Positioned(positioned[k].0)
    requires forall k :: 0 <= k < |priorized| ==> place(priorized[k].1) == Prioritized(priorized[k].0)
    requires forall k :: 0 <= k < |other| ==> place(other[k]) == Unplaced
    requires forall j :: 0 <= j < |result| ==> TakenFrom(origins[j], result[j], positioned, priorized, other)
    requires forall j1, j2 :: 0 <= j1 < j2 < |result| ==> InListOrder(origins[j1], origins[j2])
    requires forall j1, j2 :: 0 <= j1 < j2 < |result| ==> PriorizedFirst(origins[j1], origins[j2])
    requires forall j :: 0 <= j < |result| && PlacedEarly(origins[j], j, positioned) ==> OnlyPositionedAfter(origins, j)
    requires forall j :: 0 < j < |result| && PlacedLate(origins[j], j, positioned) ==> origins[j - 1].FromPositioned?
    ensures forall j1, j2 :: 0 <= j1 < j2 < |result| && Place(propsOf, parseInt, result[j1]).Unplaced? ==>
      !Place(propsOf, parseInt, result[j2]).Prioritized?
    ensures forall j1, j2 ::
      (0 <= j1 < j2 < |result| &&
       Place(propsOf, parseInt, result[j1]).Prioritized? && Place(propsOf, parseInt, result[j2]).Prioritized?) ==>
      Place(propsOf, parseInt, result[j1]).priority <= Place(propsOf, parseInt, result[j2]).priority
    ensures forall j1, j2 ::
      (0 <= j1 < j2 < |result| &&
       Place(propsOf, parseInt, result[j1]).Positioned? && Place(propsOf, parseInt, result[j2]).Positioned?) ==>
      Place(propsOf, parseInt, result[j1]).index <= Place(propsOf, parseInt, result[j2]).index
    ensures forall j ::
      (0 <= j < |result| && Place(propsOf, parseInt, result[j]).Positioned? &&
       j < Place(propsOf, parseInt, result[j]).index) ==>
      forall j2 :: j < j2 < |result| ==> Place(propsOf, parseInt, result[j2]).Positioned?
    ensures forall j ::
      (0 < j < |result| && Place(propsOf, parseInt, result[j]).Positioned? &&
       Place(propsOf, parseInt, result[j]).index < j) ==>
      Place(propsOf, parseInt, result[j - 1]).Positioned?
  {
    assert forall j :: 0 <= j < |result| ==>
      (origins[j].FromPositioned? <==> place(result[j]).Positioned?) &&
      (origins[j].FromPriorized? <==> place(result[j]).Prioritized?) &&
      (origins[j].FromOther? <==> place(result[j]).Unplaced?);
    forall j1, j2 | 0 <= j1 < j2 < |result| && place(result[j1]).Prioritized? && place(result[j2]).Prioritized?
      ensures place(result[j1]).priority <= place(result[j2]).priority
    {
      assert InListOrder(origins[j1], origins[j2]);
    }
    forall j1, j2 | 0 <= j1 < j2 < |result| && place(result[j1]).Positioned? && place(result[j2]).Positioned?
      ensures place(result[j1]).index <= place(result[j2]).index
    {
      assert InListOrder(origins[j1], origins[j2]);
    }
    forall j | 0 <= j < |result| && place(result[j]).Positioned? && j < place(result[j]).index
      ensures forall j2 :: j < j2 < |result| ==> place(result[j2]).Positioned?
    {
      assert origins[j].FromPositioned?;
    }
    forall j | 0 < j < |result| && place(result[j]).Positioned? && place(result[j]).index < j
      ensures place(result[j - 1]).Positioned?
    {
      assert PlacedLate(origins[j], j, positioned);
    }
  }

  /** The sorted list's children with one placement are its entries with the matching key. */
  lemma {:induction false} HavingWords(ys: seq<Keyed>, place: string -> Placement, positioned: bool, n: int)
    requires positioned ==> forall k :: 0 <= k < |ys| ==> place(ys[k].1) == Positioned(ys[k].0)
    requires !positioned ==> forall k :: 0 <= k < |ys| ==> place(ys[k].1) == Prioritized(ys[k].0)
    ensures Having(Words(ys), place, if positioned then Positioned(n) else Prioritized(n)) == Words(WithKey(ys, n))
  {
    if |ys| > 0 {
      var init := ys[..|ys| - 1];
      var last := ys[|ys| - 1];
      HavingWords(init, place, positioned, n);
      assert ys == init + [last];
      WordsAppend(init, last);
      HavingAppend(Words(init), last.1, place, if positioned then Positioned(n) else Prioritized(n));
      if last.0 == n {
        WordsAppend(WithKey(init, n), last);
      } else {
        assert WithKey(ys, n) == WithKey(init, n) + [];
      }
    }
  }

  /** Read by placement, the output is read list by list. */
  lemma {:induction false} HavingByOrigin(result: seq<string>, origins: seq<Origin>, place: string -> Placement, p: Placement)
    requires |result| == |origins|
    requires forall j :: 0 <= j < |result| ==> KindOf(place(result[j])) == OriginKind(origins[j])
    ensures Having(result, place, p) == Having(FromKind(result, origins, KindOf(p)), place, p)
  {
    if |result| > 0 {
      var init := result[..|result| - 1];
      var w := result[|result| - 1];
      var o := origins[|origins| - 1];
      HavingByOrigin(init, origins[..|origins| - 1], place, p);
      var f := FromKind(init, origins[..|origins| - 1], KindOf(p));
      if OriginKind(o) == KindOf(p) {
        HavingAppend(f, w, place, p);
      } else {
        assert f + [] == f;
      }
    }
  }

  /** Classifying keeps, for each placement, the children with it in the order of `relations`. */
  lemma {:induction false} ClassifyHaving(relations: seq<string>, place: string -> Placement, p: Placement)
    ensures var c := Classify(relations, place);
            && (p.Positioned? ==> Having(Words(c.0), place, p) == Having(relations, place, p))
            && (p.Prioritized? ==> Having(Words(c.1), place, p) == Having(relations, place, p))
            && c.2 == Having(relations, place, Unplaced)
  {
    if |relations| > 0 {
      var init := relations[..|relations| - 1];
      var w := relations[|relations| - 1];
      ClassifyHaving(init, place, p);
      var c := Classify(init, place);
      match place(w)
      case Positioned(q) => {
        WordsAppend(c.0, (q, w));
        HavingAppend(Words(c.0), w, place, p);
      }
      case Prioritized(q) => {
        WordsAppend(c.1, (q, w));
        HavingAppend(Words(c.1), w, place, p);
      }
      case Unplaced => {
      }
    }
  }

  /** Sorting by key keeps, for each placement, the children with it in their order. */
  lemma SortKeepsHaving(xs: seq<Keyed>, place: string -> Placement, positioned: bool, n: int)
    requires positioned ==> forall k :: 0 <= k < |xs| ==> place(xs[k].1) == Positioned(xs[k].0)
    requires !positioned ==> forall k :: 0 <= k < |xs| ==> place(xs[k].1) == Prioritized(xs[k].0)
    ensures var p := if positioned then Positioned(n) else Prioritized(n);
            Having(Words(SortByKey(xs)), place, p) == Having(Words(xs), place, p)
  {
    SortByKeyCorrect(xs);
    SortedKeepsPlacement(xs, SortByKey(xs), place, positioned);
    HavingWords(SortByKey(xs), place, positioned, n);
    HavingWords(xs, place, positioned, n);
  }

  /** Every output entry has the placement of the list it was taken from. */
  lemma OriginKinds(result: seq<string>, origins: seq<Origin>, positioned: seq<Keyed>, priorized: seq<Keyed>,
                    other: seq<string>, place: string -> Placement)
    requires |result| == |origins|
    requires forall k :: 0 <= k < |positioned| ==> place(positioned[k].1) == Positioned(positioned[k].0)
    requires forall k :: 0 <= k < |priorized| ==> place(priorized[k].1) == Prioritized(priorized[k].0)
    requires forall k :: 0 <= k < |other| ==> place(other[k]) == Unplaced
    requires forall j :: 0 <= j < |result| ==> TakenFrom(origins[j], result[j], positioned, priorized, other)
    ensures forall j :: 0 <= j < |result| ==> KindOf(place(result[j])) == OriginKind(origins[j])
  {
    forall j | 0 <= j < |result| ensures KindOf(place(result[j])) == OriginKind(origins[j]) {
      assert TakenFrom(origins[j], result[j], positioned, priorized, other);
    }
  }

  /** The lists the merge reads hold only children of their own placement. */
  lemma MergeListsPlaced(relations: seq<string>, place: string -> Placement)
    ensures var c := Classify(relations, place);
            && (forall k :: 0 <= k < |SortByKey(c.0)| ==> place(SortByKey(c.0)[k].1) == Positioned(SortByKey(c.0)[k].0))
            && (forall k :: 0 <= k < |SortByKey(c.1)| ==> place(SortByKey(c.1)[k].1) == Prioritized(SortByKey(c.1)[k].0))
            && (forall k :: 0 <= k < |c.2| ==> place(c.2[k]) == Unplaced)
  {
    var c := Classify(relations, place);
    ClassifyPlacements(relations, place);
    SortByKeyCorrect(c.0);
    SortByKeyCorrect(c.1);
    SortedKeepsPlacement(c.0, SortByKey(c.0), place, true);
    SortedKeepsPlacement(c.1, SortByKey(c.1), place, false);
  }

  /** The children with one placement, read from the list of their kind, in the order of `relations`. */
  lemma ListKeepsTies(relations: seq<string>, place: string -> Placement, p: Placement)
    ensures var c := Classify(relations, place);
            && (p.Positioned? ==> Having(Words(SortByKey(c.0)), place, p) == Having(relations, place, p))
            && (p.Prioritized? ==> Having(Words(SortByKey(c.1)), place, p) == Having(relations, place, p))
            && (p.Unplaced? ==> Having(c.2, place, p) == Having(relations, place, p))
  {
    var c := Classify(relations, place);
    ClassifyPlacements(relations, place);
    ClassifyHaving(relations, place, p);
    match p
    case Positioned(n) => {
      SortKeepsHaving(c.0, place, true, n);
    }
    case Prioritized(n) => {
      SortKeepsHaving(c.1, place, false, n);
    }
    case Unplaced => {
      HavingAll(c.2, place, Unplaced);
    }
  }

  /**
   * The children with any one placement come out of the tree-order merge
   * in the order of `relations`: the classification keeps that order, the
   * sorts are stable, and the merge reads each list front to back.
   */
  lemma MergeKeepsTies(relations: seq<string>, place: string -> Placement, result: seq<string>,
                       origins: seq<Origin>, p: Placement)
    requires var c := Classify(relations, place);
             && |result| == |origins|
             && (forall j :: 0 <= j < |result| ==>
                   TakenFrom(origins[j], result[j], SortByKey(c.0), SortByKey(c.1), c.2))
             && FromKind(result, origins, 0) == Words(SortByKey(c.0))
             && FromKind(result, origins, 1) == Words(SortByKey(c.1))
             && FromKind(result, origins, 2) == c.2
    ensures Having(result, place, p) == Having(relations, place, p)
  {
    var c := Classify(relations, place);
    MergeListsPlaced(relations, place);
    OriginKinds(result, origins, SortByKey(c.0), SortByKey(c.1), c.2, place);
    HavingByOrigin(result, origins, place, p);
    ListKeepsTies(relations, place, p);
  }

  /** When no child is placed, the tree order is the order of `relations`. */
  lemma NothingPlacedKeepsOrder(relations: seq<string>, result: seq<string>, place: string -> Placement)
    requires multiset(result) == multiset(relations)
    requires forall w :: w in relations ==> place(w).Unplaced?
    requires Having(result, place, Unplaced) == Having(relations, place, Unplaced)
    ensures result == relations
  {
    forall k | 0 <= k < |result| ensures place(result[k]) == Unplaced {
      assert result[k] in multiset(relations);
    }
    HavingAll(result, place, Unplaced);
    HavingAll(relations, place, Unplaced);
  }
}

=== FILE: wrappers.dfy ===
/** Option and Result, used for Python's `None` and for raised exceptions. */
module Wrappers {

  datatype Option<+T> = None | Some(value: T)

  datatype Result<+T, +E> = Ok(value: T) | Err(error: E) {
    predicate IsOk() { Ok? }
  }
}
